=== FILE: README.md ===
# panel-hopper core, modelled in Dafny

panel-hopper drives small 32×32 Bluetooth LED panels, alone or as a 2×2 grid
of 64×64 pixels. This project models the sequential logic under its I/O:

- **the link pool** of `core.py`: `PersistentSession`, the `PERSISTENT_SESSIONS`
  table capped at three upper-cased MACs, `get_persistent_session` and
  `close_all_sessions` (`links.dfy`);
- **the per-panel send** `PanelController.send_to_panel`: the pooled fast path,
  then up to `retries` fresh-link attempts, and the fan-outs `send_to_multiple`
  and `send_same_to_all` (`controller.dfy`);
- **the panel registry** of `config.py`: `Panel` MAC normalisation, lookups by
  name and MAC, add/remove with grid-slot cleanup, the enabled and grid
  queries (`registry.dfy`, on an insertion-ordered dictionary in `dicts.dfy`);
- **the integer graphics helpers** of `graphics.py`: `get_color`
  (`colors.dfy`), the 5×7 dot-matrix font, text width, glyph and text drawing
  with clipping, and the scale choice of `create_dot_matrix_text`
  (`dotmatrix.dfy`), and `split_for_grid` over `GRID_POSITIONS` (`grid.dfy`,
  `positions.dfy`);
- **the decisions in the front ends**: in `web/server.py`, `has_emoji`, the
  line clean-up of `create_multiline_text_image`, the `send_to_grid` loop, the
  scan merge, and the upload/delete/toggle guards (`server.dfy`, `gridsend.dfy`);
  in `cli/send_grid.py`, `send_parts` and the argument resolution of `main`
  (`cli.dfy`).

Each radio operation (a connect, a frame send) takes its outcome, `Ok`,
`Timeout` or `Failure(msg)`, from an oracle `nat -> Outcome`. The `World`
threaded through every operation holds the pool, the number of outcomes
consumed and a trace of observable events: connects, transmissions, closes,
the 0.5 s settle, the `panel_delay` pause and progress-callback calls. Python
dictionaries are sequences of key/value pairs in insertion order, so iteration
order is part of the model. File existence, `str.isprintable`, image resizing,
rendering and PNG encoding are parameters.

Where a behaviour was ambiguous, the model follows the code:

- A new pool entry is admitted before its connect, and it stays, disconnected,
  when the connect fails (`src/panel_hopper/core.py:158-168`).
- Fresh sessions are closed only when pooled links are off.
- A `panel_delay` pause follows every fresh attempt, successful or not.
- A grid slot counts only when it is non-empty and is a key of `panels` as
  written, without upper-casing (`src/panel_hopper/config.py:88`).

## Model

| member | source | states |
|---|---|---|
| Text.Upper | src/panel_hopper/config.py:31-33 | upper-casing keeps the length and maps every character through the ASCII upper-case map |
| Text.Lower | src/panel_hopper/config.py:65 | lower-casing keeps the length and maps every character through the ASCII lower-case map; used for the case-insensitive name comparison here and for the colour-name look-up of `graphics.py:124` |
| Text.UpperIsCanonical | src/panel_hopper/core.py:157 | an upper-cased MAC is already in canonical form, so normalising twice changes nothing |
| Text.Strip | web/server.py:743 | the stripped line starts and ends with a non-whitespace character and is a contiguous slice of the input with only whitespace removed on both sides |
| Text.Split | web/server.py:741 | splitting at a separator gives one more piece than there are separators; no piece contains it, and joining the pieces back gives the input |
| Text.ReplaceRemovesChar | web/server.py:738 | after replacing every CR by LF, no CR is left |
| Text.ReplaceRemovesPair | web/server.py:738 | after replacing CR LF by LF, no CR LF pair is left |
| Text.ReplaceKeepsNoPair | web/server.py:738 | a later replacement by LF does not create a CR LF pair |
| Dicts.Get | src/panel_hopper/config.py:71 | a lookup is None exactly when the key is absent, and otherwise yields the value of the key's entry |
| Dicts.PutGet | src/panel_hopper/config.py:96 | after storing `k`, `k` maps to the new value and every other key keeps its lookup |
| Dicts.Put | src/panel_hopper/config.py:96 | storing an existing key replaces its value in place; a new key is appended at the end, as Python dict order does |
| Dicts.RemoveGet | src/panel_hopper/config.py:103 | after `del`, the key is absent and every other key keeps its lookup |
| Positions.Offset | src/panel_hopper/graphics.py:38-44 | every grid position's pixel origin is panel-aligned and leaves room for a full panel inside the 64×64 grid |
| Positions.QuadrantsTile | src/panel_hopper/graphics.py:38-44 | every pixel of the grid lies in exactly one quadrant: the one whose origin is the pixel rounded down to the panel size |
| Positions.NamesDistinct | src/panel_hopper/graphics.py:39-43 | the four position names are pairwise distinct |
| Positions.OrdersArePermutations | web/server.py:681 | the send order and the grid order each list all four positions once |
| Links.NewLink | src/panel_hopper/core.py:94-100 | a new session is not connected, holds no radio session, and falls back to the MAC for an empty name |
| Links.LinkConnect | src/panel_hopper/core.py:102-123 | an already connected link is returned unchanged with no radio call; otherwise one connect is made, and the link ends up connected exactly when that connect succeeds |
| Links.LinkSendFrame | src/panel_hopper/core.py:125-136 | a link that is not connected refuses without a transmission; otherwise one frame goes out, and a failed send marks the link disconnected |
| Links.LinkDisconnect | src/panel_hopper/core.py:138-148 | disconnect always ends with no session and not connected; the radio is closed only when a session was held |
| Links.Acquire | src/panel_hopper/core.py:155-168 | with the pool full and the MAC absent: None, nothing changes. A connected entry comes back as is, with no connect and no outcome drawn. A stored but disconnected entry is reconnected in place and comes back exactly when the connect succeeds. A new MAC with room is admitted before connecting, stays when the connect fails, and comes back connected with a session when it succeeds. Exactly one outcome is drawn and one `Connect` of the upper-cased MAC is traced when a connect is made. Other keys are untouched and the pool invariant is kept |
| Links.PoolStaysBounded | src/panel_hopper/core.py:158-162 | however many addresses are acquired in a row, the pool keeps at most three distinct upper-case keys |
| Links.CloseAll | src/panel_hopper/core.py:171-175 | draining traces exactly one `Close` per link holding a session, in pool order, nothing else, and leaves the pool empty |
| Links.ClosesExactlyHeld | src/panel_hopper/core.py:171-175 | a panel is closed by the drain exactly when the pool holds it with a session |
| Links.CloseAllTwice | src/panel_hopper/core.py:171-175 | a second `close_all_sessions` is a no-op |
| Controller.Attempt | src/panel_hopper/core.py:263-289 | one fresh attempt makes one connect and transmits only the given frame; its outcome is the connect's failure, or else the send's outcome |
| Controller.Finally | src/panel_hopper/core.py:311-320 | every attempt ends with exactly one pause, preceded by a close only when pooled links are off |
| Controller.FreshAttempts | src/panel_hopper/core.py:252-322 | the fresh-link loop leaves the pool alone, sends only the given frame, and replies with the verdict of the outcome sequence of the remaining attempts |
| Controller.FreshAttemptsCounts | src/panel_hopper/core.py:252-320 | the loop makes exactly as many connects and pauses as attempts ran (up to the first success), and as many closes when pooled links are off, none otherwise |
| Controller.VerdictAndRuns | src/panel_hopper/core.py:252-322 | success exactly when some attempt succeeded; the loop stops right after the first success; on failure the reply is the last attempt's message ("Connection timeout" or the error text) after all attempts ran; no attempts gives "Max retries exceeded" |
| Controller.RunsToFirstSuccess | src/panel_hopper/core.py:286-294 | when the `i`-th attempt is the first success, exactly `i + 1` attempts run |
| Controller.RunsAllOnFailure | src/panel_hopper/core.py:296-309 | without any success, every attempt runs |
| Controller.VerdictSuccess | src/panel_hopper/core.py:294-309 | a successful verdict reads "OK"; a failed one carries the last attempt's failure and never an earlier one |
| Controller.PooledSend | src/panel_hopper/core.py:235-249 | the pooled fast path touches only the panel's own pool entry, transmits only the given frame, and never pauses or closes; it succeeds exactly when the pool hands out a link with a session and that link's send succeeds |
| Controller.SendHeld | src/panel_hopper/core.py:237-248 | sending over a held link succeeds exactly when it holds a session and the send succeeds; a failed send leaves the entry stored as disconnected |
| Controller.TransmitHeld | src/panel_hopper/core.py:242-248 | the radio part of the fast path writes the updated link back under its key and changes no other entry |
| Controller.SendToPanel | src/panel_hopper/core.py:213-322 | `send_to_panel` keeps the pool invariant, changes only the panel's own entry (none with pooled links off), transmits only the given frame, and reads "OK" whenever it succeeds |
| Controller.SendToPanelFastPath | src/panel_hopper/core.py:235-247 | with the panel's link held and connected and the send succeeding, the reply is (True, "OK") after one radio operation, with no fresh attempt and no pool change |
| Controller.SendToPanelPoolFull | src/panel_hopper/core.py:155-161 | with the pool full and the panel absent, `send_to_panel` is exactly the fresh-link loop from attempt 1 |
| Controller.FreshRetryPolicy | src/panel_hopper/core.py:252-322 | with pooled links off: connects, pauses and closes agree in number and never exceed `retries`; `retries <= 0` gives "Max retries exceeded" with no connect; success iff some attempt succeeds; the first success at attempt `i` costs `i + 1` connects; a failure costs `retries` connects and carries the last message |
| Controller.PooledRetryPolicy | src/panel_hopper/core.py:235-322 | with pooled links on (the default): a successful fast path answers "OK" with no further connect; otherwise the reply is that of the fresh-link loop run from the world the fast path left: success iff some attempt succeeds, "Max retries exceeded" with nothing more when `retries <= 0`, the last attempt's message on failure, and one connect and one pause per attempt run |
| Controller.FreshLoopPolicy | src/panel_hopper/core.py:252-322 | the fresh-link loop from attempt 1: its reply is the verdict of the attempts' outcomes, and it costs one connect and one pause per attempt run |
| Controller.PanelSender | src/panel_hopper/core.py:342-344 | the per-target call of the fan-out keeps the pool invariant, transmits only its frame, and reads "OK" on success |
| Controller.FanOut | src/panel_hopper/core.py:339-347 | one result per target, in order, carrying the target's MAC; a success reads "OK"; the pool invariant is kept |
| Controller.SendToMultiple | src/panel_hopper/core.py:324-347 | `send_to_multiple` returns exactly one result per input, in input order, with `results[i].mac == input[i].mac` |
| Controller.FanOutSnoc | src/panel_hopper/core.py:341-345 | one more target costs exactly one more `send_to_panel`, in the world the earlier ones left, appended to the results |
| Controller.FanOutNoAbort | src/panel_hopper/core.py:341-345 | the `i`-th result is what `send_to_panel` answers for target `i` after the first `i` targets, whatever those answered: a failure never stops later targets |
| Controller.FanOutSendsOnly | src/panel_hopper/core.py:366-367 | when every target carries the same frame, no other frame is transmitted |
| Controller.SendSameToAll | src/panel_hopper/core.py:349-367 | one result per `(mac, name)` in order, and only the one given frame goes out |
| Registry.MakePanel | src/panel_hopper/config.py:21-33 | a constructed panel has the upper-cased MAC and keeps every other field |
| Registry.MakePanelStable | src/panel_hopper/config.py:31-33 | rebuilding a panel from its own fields gives the same panel |
| Registry.GetPanelByName | src/panel_hopper/config.py:62-67 | None iff no panel's name matches case-insensitively; otherwise the first match in iteration order |
| Registry.GetPanelByMac | src/panel_hopper/config.py:69-71 | None iff the upper-cased MAC is not a key; otherwise the panel stored under it |
| Registry.MacLookupIgnoresCase | src/panel_hopper/config.py:69-71 | two spellings of a MAC that upper-case alike find the same panel |
| Registry.AddPanel | src/panel_hopper/config.py:92-97 | `add_panel` stores a fresh enabled-as-asked panel with order 99, no grid position and no notes under the upper-cased MAC, replacing any entry there and changing nothing else |
| Registry.AddThenFind | src/panel_hopper/config.py:92-97 | after `add_panel(m, …)`, `get_panel_by_mac` finds the new panel under any casing of `m` |
| Registry.ClearSlots | src/panel_hopper/config.py:104-112 | every grid slot holding the MAC is emptied and every other slot is kept |
| Registry.RemovePanel | src/panel_hopper/config.py:99-114 | True iff the upper-cased MAC was a key; then it is absent and no grid slot holds it; other panels and other slots are unchanged; an absent MAC changes nothing |
| Registry.AddThenRemove | src/panel_hopper/config.py:92-114 | adding and then removing a MAC reports True, leaves it absent and restores every other panel's lookup |
| Registry.RemoveLeavesGrid | src/panel_hopper/config.py:99-114 | after removal, no grid query entry refers to the removed MAC |
| Registry.Enabled | src/panel_hopper/config.py:75 | the filter keeps only enabled panels, drawn from the input |
| Registry.EnabledKeepsAll | src/panel_hopper/config.py:75 | every enabled panel is kept, as often as it occurs |
| Registry.Insert | src/panel_hopper/config.py:76 | an insertion step of the sort adds exactly the one panel |
| Registry.InsertSorted | src/panel_hopper/config.py:76 | inserting into a list sorted by `order` keeps it sorted |
| Registry.InsertWithOrder | src/panel_hopper/config.py:76 | inserting puts the panel ahead of all panels of its own order and keeps their relative order |
| Registry.SortByOrder | src/panel_hopper/config.py:76 | the sort result is ordered by `order` and is a permutation of the input |
| Registry.SortIsStable | src/panel_hopper/config.py:76 | panels with equal `order` keep their input order, as Python's stable sort does |
| Registry.GetEnabledPanels | src/panel_hopper/config.py:73-76 | exactly the enabled panels, each as often as stored, sorted by non-decreasing `order`, ties in insertion order |
| Registry.GridEntry | src/panel_hopper/config.py:87-89 | a position contributes an entry iff its slot is non-empty and a key of `panels` as written, mapping to that panel |
| Registry.GridFromFacts | src/panel_hopper/config.py:78-90 | the grid loop yields each usable position, and only those, mapped to the panel named by its slot |
| Registry.GetGridPanels | src/panel_hopper/config.py:78-90 | at most four entries; a position is present iff its slot is usable, and then maps to `panels[slot]` |
| Registry.GridComplete | src/panel_hopper/config.py:78-90 | the grid query has four entries exactly when every slot is usable |
| Colors.ColorsTableShape | src/panel_hopper/graphics.py:24-36 | every named colour is lower-case, not `#`-prefixed, and has components in 0..255 |
| Colors.ColorNamesDistinct | src/panel_hopper/graphics.py:24-36 | the colour names are distinct, so the table is a dictionary |
| Colors.HexDigits | src/panel_hopper/graphics.py:123 | a digit string parses iff every character is a hex digit, and the value is not negative |
| Colors.TwoDigitsInByte | src/panel_hopper/graphics.py:123 | two hex digits parse to a byte, high digit times 16 plus low digit |
| Colors.PyHexInt | src/panel_hopper/graphics.py:123 | Python's `int(x, 16)`: succeeds exactly when, after surrounding whitespace and one optional sign, at least one character is left and all are hex digits; the value is those digits read base 16, negated after a minus |
| Colors.StripHashes | src/panel_hopper/graphics.py:121 | `lstrip('#')` removes exactly the leading run of `#` |
| Colors.LookUpName | src/panel_hopper/graphics.py:124 | the lower-cased name's table entry, or (255, 153, 0) when it has none; always in range |
| Colors.GetColorAsWritten | src/panel_hopper/graphics.py:114-125 | `get_color` as written: a tuple comes back unchanged; a string that is not `#` plus six characters after the leading `#`s is the name look-up; otherwise it succeeds exactly when `int(…, 16)` accepts all three two-character slices, and the colour is their three values |
| Colors.NegativeComponentsAccepted | src/panel_hopper/graphics.py:120-123 | `get_color("#-1-1-1")` as written yields (-1, -1, -1), which is not a colour |
| Colors.HexPair | src/panel_hopper/graphics.py:123 | a two-character component parses iff both are hex digits, to a value in 0..255 |
| Colors.GetColor | src/panel_hopper/graphics.py:114-125 | a tuple comes back unchanged; a string that is not `#` plus six characters is the case-insensitive look-up with the orange default; a `#rrggbb` string succeeds exactly when all six are hex digits, and the colour is the three pairs read base 16, so always in 0..255 |
| Colors.HexTriple | src/panel_hopper/graphics.py:120-123 | six characters parse exactly when all are hex digits, into the three pairs read base 16 |
| Colors.ShortHashIsFallback | src/panel_hopper/graphics.py:120-124 | a `#` string whose stripped remainder is not six long falls through to the default (255, 153, 0) |
| Colors.CorrectedAgreesOnDigits | src/panel_hopper/graphics.py:120-123 | on `#` strings made only of hex digits the corrected parser agrees with the code as written |
| Colors.HexRoundTrip | src/panel_hopper/graphics.py:120-123 | formatting any in-range colour as `#rrggbb` and parsing it back gives the colour |
| Grid.Crop | src/panel_hopper/graphics.py:240-243 | a crop is exactly `w × h` and pixel `(x, y)` is the source pixel at the offset, black outside the source |
| Grid.Quadrant | src/panel_hopper/graphics.py:239-244 | every part is 32×32 |
| Grid.SplitForGrid | src/panel_hopper/graphics.py:229-244 | exactly the four position keys, in order; every part is 32×32; on a 64×64 image `part[pos][y][x] == img[oy+y][ox+x]` with the origin from `GRID_POSITIONS` |
| Grid.SplitGet | src/panel_hopper/graphics.py:236-244 | each position's part is its quadrant of the image, resized first only when the image is not 64×64 |
| Grid.SplitThenAssemble | src/panel_hopper/graphics.py:229-244 | putting the four parts of a 64×64 image back together gives the image, so no pixel is lost or duplicated |
| DotMatrix.FontShape | src/panel_hopper/graphics.py:51-107 | every glyph has 7 rows of exactly 5 characters, each `#` or space |
| DotMatrix.FindIsGet | src/panel_hopper/graphics.py:255 | looking a character up in the font table is the dictionary look-up |
| DotMatrix.GlyphShape | src/panel_hopper/graphics.py:269-273 | a glyph found for an upper-cased character is well formed |
| DotMatrix.KnownCount | src/panel_hopper/graphics.py:254-255 | the number of characters of the text whose ASCII upper-case form is a font key, at most the text's length |
| DotMatrix.GetTextWidth | src/panel_hopper/graphics.py:251-257 | the width is 6·k − 1 for `k` known characters and 0 for none; never negative; 0 exactly when no character is in the font |
| DotMatrix.NoneKnown | src/panel_hopper/graphics.py:251-257 | the count of known characters is zero exactly when no character is in the font |
| DotMatrix.FillBlock | src/panel_hopper/graphics.py:281-284 | one `scale × scale` block is written, clipped to the image; every other pixel is unchanged |
| DotMatrix.DrawChar | src/panel_hopper/graphics.py:260-286 | advances 6·scale for every character, known or not; exactly the in-bounds pixels under a `#` cell get the colour, all others are unchanged |
| DotMatrix.DrawText | src/panel_hopper/graphics.py:289-310 | fails only when the colour fails; otherwise a pixel gets the colour iff some glyph of the text, placed from the (centred) origin at 6·scale steps, inks it, and keeps its old value otherwise |
| DotMatrix.DrawRun | src/panel_hopper/graphics.py:306-308 | drawing the characters left to right from the origin gives a pixel the colour exactly when some glyph inks it and leaves every other pixel as it was |
| DotMatrix.LitWithin | src/panel_hopper/graphics.py:301-310 | the ink of a run of known characters lies inside its computed width and height |
| DotMatrix.ChooseScale | src/panel_hopper/graphics.py:327-335 | with auto-scale, the largest scale in 4..1 whose text fits within `W−2` by `H−2`, otherwise 1; without auto-scale, 1 (the reference `AutoScale`) |
| DotMatrix.CenteredWithMargin | src/panel_hopper/graphics.py:337 | text that fits, centred, keeps at least one pixel of margin on each side |
| DotMatrix.Blank | src/panel_hopper/graphics.py:325 | the new image is `W × H` filled with the background |
| DotMatrix.CreateDotMatrixText | src/panel_hopper/graphics.py:313-338 | fails only when a colour fails; a pixel is the foreground exactly when a glyph of the text, centred at the middle of the image at the chosen scale, inks it, and the background otherwise; with auto-scale, known characters and a scale that fits, the one-pixel border stays background |
| DotMatrix.NoInkOnBorder | src/panel_hopper/graphics.py:328-337 | text drawn centred at a scale that fits never inks the border |
| GridSend.SendInOrder | web/server.py:683-705 | one result per visited position, in visiting order, each naming its position; the success count equals the number of successful results and is at most the number of positions |
| GridSend.Visit | web/server.py:686-695 | one turn of the loop produces the result for its own position |
| GridSend.VisitReads | web/server.py:687-695 | a position without a panel changes nothing and reads "not configured"; a success reads "OK" |
| GridSend.ResultMessages | web/server.py:686-695 | in the results, a position without a panel reads "not configured" and a successful one reads "OK" |
| GridSend.Configured | web/server.py:687-689 | the positions that are sent to are no more than the order's and each has a panel |
| GridSend.ConfiguredMembers | web/server.py:687-689 | a position is sent to iff it is in the order and has a panel |
| GridSend.SkippedAreSilent | web/server.py:686-689 | skipping makes no send call: the loop leaves the radio and the pool exactly as a loop over the configured positions alone |
| GridSend.ConfiguredIsFanOut | web/server.py:686-695 | over configured positions the loop is the controller's fan-out, one call per position with the panel's MAC, the position's frame and name |
| GridSend.ConfiguredIsSendToMultiple | web/server.py:680-695 | with a default controller that fan-out is `send_to_multiple` |
| GridSend.NoEarlyAbort | web/server.py:686-701 | the `i`-th result is what visiting position `i` gives after the first `i` visits, whatever those answered |
| GridSend.ConfiguredCount | web/server.py:686-701 | over configured positions the loop's success count is the number of successful deliveries of the fan-out over their targets |
| GridSend.SkippedCount | web/server.py:686-689 | skipped positions add nothing to the success count |
| Server.HasEmoji | web/server.py:712-721 | true iff some code point is above 0x1F300, or in [0x2600, 0x27C0), or in [0x2300, 0x2400) |
| Server.KeepPrintable | web/server.py:740 | keeps only LF and printable characters, keeps every LF, changes nothing when all are kept, and on one character keeps it exactly when it is an LF or printable |
| Server.KeepPrintableAppend | web/server.py:740 | the filter distributes over concatenation; with the one-character case this makes it the in-order filter |
| Server.CleanText | web/server.py:738-740 | the cleaned text has no CR, and every character is an LF or printable |
| Server.BreaksIsUnbreak | web/server.py:738 | the three sequential `replace` calls equal one left-to-right pass in which an escaped `\n`, a CR LF, a lone CR, and a CR just before an escaped `\n` each become one LF |
| Server.CleanTextSinglePass | web/server.py:738-740 | for every text, the cleanup is the one-pass break reading followed by the printable filter, and the result has no CR and no backslash-n pair |
| Server.UnbreakLeavesNoBreakMarks | web/server.py:738 | after the rewrites no CR and no backslash followed by `n` is left |
| Server.TextLines | web/server.py:738-743 | one line per LF plus one; no line holds a line break or leads or trails whitespace; every character of a line is printable |
| Server.PlainTextLines | web/server.py:738-743 | a text with no backslash and no CR is split as it is, each piece stripped |
| Server.TwoLines | web/server.py:741-743 | worked example: a text that cleans to `a` LF `b` is drawn as the two lines `a` and `b` |
| Server.EscapedBreak | web/server.py:738 | worked example: the typed two-character `\n` breaks the line |
| Server.CrLfBreak | web/server.py:738 | worked example: CR LF is one line break, not two |
| Server.CrBreak | web/server.py:738 | worked example: a lone CR is a line break |
| Server.ChooseSource | web/server.py:657-670 | non-empty text wins over an image path; the image path, with `/assets/` removed, must exist (404 otherwise); with neither, 400 |
| Server.SendToGrid | web/server.py:647-705 | fewer than four usable grid slots: 400 before any send, world unchanged; any refusal changes nothing; a rendering that raises escapes the handler and is the framework's generic 500 "Internal Server Error" with nothing sent; otherwise four results in send order and a success count equal to the successes |
| Server.GridSendsFour | web/server.py:649-705 | with the grid complete and a source found: a rendering that raises is the generic 500 "Internal Server Error" with the world unchanged; otherwise the request succeeds, the world is that of `send_to_multiple` over the four panels in send order, and `success_count` is its number of successful deliveries |
| Server.MergeDiscovered | web/server.py:372-380 | adds at most one panel per discovery, never touches the grid or an undiscovered key, and afterwards every discovered MAC is present raw or upper-cased |
| Server.ScanPanels | web/server.py:372-390 | `found` is the number discovered, `added` at most that, and the config is saved iff something was added; nothing added leaves it unchanged |
| Server.NothingAddedNothingChanged | web/server.py:375-382 | when the merge adds nothing, the configuration is unchanged |
| Server.AllKnownAddsNothing | web/server.py:375-378 | discoveries whose raw MAC is already a key add nothing |
| Server.ScanTwiceAddsNothing | web/server.py:372-382 | with upper-case reports, a second identical scan adds nothing and saves nothing |
| Server.LowerCaseReportReplaces | web/server.py:375-377 | a lower-case report of a stored panel is not a key, so it counts as added and replaces the stored panel with a fresh one |
| Server.TrimSlashes | web/server.py:283 | trailing slashes are dropped from the path, leaving a prefix |
| Server.AfterLastSlash | web/server.py:283 | the file name is the part after the last slash |
| Server.LastDot | web/server.py:283 | the index of the last dot of the name, or −1 |
| Server.Suffix | web/server.py:283 | `Path.suffix` is empty or a dot with at least one more character and no slash |
| Server.UploadImage | web/server.py:280-289 | accepted iff the name is non-empty and its lower-cased suffix is supported; refusals are 400; a `.gif` goes to the gifs folder, everything else to uploads |
| Server.ExtensionShape | web/server.py:73 | every supported extension is a lower-case dot and a dot-free tail |
| Server.UploadRoutes | web/server.py:283-289 | `stem + ext` with a supported extension is accepted and routed by the extension |
| Server.DotFileRefused | web/server.py:283-285 | a name like `.png` has no suffix and is refused |
| Server.SuffixOfPlainName | web/server.py:283 | the suffix of a plain `stem.ext` is `.ext` |
| Server.DeleteImage | web/server.py:297-309 | folder "examples" is always refused with 400; otherwise success iff the file exists, else 404 |
| Server.TogglePanel | web/server.py:393-408 | an unknown upper-cased MAC is 404; otherwise only that panel's `enabled` flips and the new state is returned |
| Server.ToggleTwice | web/server.py:396-403 | toggling twice restores the configuration |
| Cli.SendParts | cli/send_grid.py:154-181 | the success count is at most the number of configured positions, hence at most 4 |
| Cli.CountBound | cli/send_grid.py:164-176 | only configured positions can add to the success count |
| Cli.PartialGridFanOut | cli/send_grid.py:164-172 | on a partial grid, `send_parts` leaves the world as `send_to_multiple` over the configured positions in send order |
| Cli.SendPartsCount | cli/send_grid.py:164-181 | the count printed as "Result: N/4" is the number of successful deliveries of `send_to_multiple` over the configured positions in send order |
| Cli.EmptyGridSendsNothing | cli/send_grid.py:164-167 | with no grid panels, nothing is sent and the count is 0 |
| Cli.JoinPath | cli/send_grid.py:197-201 | joining a relative argument to a base directory, and an absolute one replacing it |
| Cli.ImagePath | cli/send_grid.py:195-205 | the argument as given, then under `assets`, then under `assets/examples`: the first that exists, or none iff none exists |
| Cli.LastColorFlag | cli/send_grid.py:212-214 | the last `--color` that has a successor |
| Cli.ColorOf | cli/send_grid.py:209-214 | the value after the last `--color` that has a successor, else "orange" |
| Cli.ScanColor | cli/send_grid.py:209-214 | the loop over argv computes that colour |
| Cli.Resolve | cli/send_grid.py:184-247 | `--help` anywhere shows help; otherwise fewer than two arguments is interactive; an existing path is an image; otherwise text with the last colour and dot-matrix iff `--dot-matrix` appears |
| Cli.LastColorWins | cli/send_grid.py:212-214 | a trailing `--color c` decides the colour |
| Cli.TrailingColorIgnored | cli/send_grid.py:213 | a final `--color` without a value is ignored |
| Cli.DoubledColorFlag | cli/send_grid.py:212-214 | worked example: `--color --color` at the end sets the colour to the literal "--color" |
| Cli.ImageIgnoresOptions | cli/send_grid.py:194-206 | once the argument names an existing image, further options change nothing |
| Cli.WorkingDirectoryFirst | cli/send_grid.py:195-196 | an argument that exists as given is used as given |
| Cli.UsageTextExample | cli/send_grid.py:238 | worked example: `"HOP" --color amber` sends the text HOP in amber without dot matrix |
| Cli.ColorSwallowsOption | cli/send_grid.py:210-214 | worked example: in `--color --dot-matrix`, the option becomes the colour and also turns on dot matrix |

## Left out

- The radio: `BleakScanner`, `scan_for_panels` and `BleDisplaySession` are foreign I/O. Each connect or send is one outcome drawn from the oracle, and `scan_panels_endpoint` receives the discovered list as a parameter.
- Time and concurrency: the `asyncio.wait_for` deadline is the `Timeout` outcome of a connect or a send. The 0.5 s settle and the `panel_delay` sleep are trace events. `asyncio.Lock` and interleavings are not modelled.
- The progress callback is a trace event when present. Its own side effects and exceptions are not modelled.
- `PanelController` fields that do not steer control flow (`timeout`, `delay`, `panel_delay`, `log_notifications`) are not modelled; the settings are `retries` and `use_persistent`.
- Logging, `add_log`, `print` output and the count shown in the 400 message of `send_to_grid` are not modelled.
- PIL: `resize_image`, rendering of text and multiline images, and `to_png_bytes` are parameters (`resize`, `render`, `encode`). `render` may give `None`, standing for any exception the rendering raises; the exception's text is not modelled, since `send_to_grid` does not catch it and the client sees only the generic 500. The brightness step is floating point and is not modelled.
- The rest of `create_multiline_text_image`, after its line split, is font-metric layout on PIL and is not modelled.
- `load_config`, `save_config` and file existence are I/O. Existence is a parameter, and "saved" is a flag of the scan report.
- The other CLI scripts and `interactive_mode`: the model stops at choosing interactive mode.
- `send_grid_image` and `send_grid_text` are PIL and I/O around `send_parts`.
- Text.Upper: ASCII case mapping only; Python's Unicode case mapping of non-ASCII characters is not modelled.
- Text.Lower: ASCII case mapping only, so `Registry.GetPanelByName` and `Colors.LookUpName` treat "KÜCHE" and "küche" as different and do not map the Kelvin sign to `k`, where Python's `str.lower` would.
- DotMatrix.GetTextWidth: upper-cases character by character with the ASCII map, while `text.upper()` may change the length: "ß" becomes "SS", so the source counts two glyphs and measures 11 pixels where the model counts none and measures 0.
- DotMatrix.KnownCount: counts per input character, so it never exceeds the text's length; with Python's `str.upper` the count of `text.upper()` can (for "ß", 2 > 1).
- DotMatrix.DrawChar: upper-cases with the ASCII map, so "ı" and "ſ", which Python upper-cases to "I" and "S", are drawn by the source and are blank advances here; a character whose upper case is several letters ("ß") is a blank advance in both.
- Controller.Attempt: the deadline can only be the outcome of the connect or of the send; the source also times out when the deadline expires during the 0.5 s settle after a successful send, so it reports a timeout (and may retry and re-send) after the frame went out, which the model cannot produce.
- DotMatrix.DrawText: resolves its colour with the corrected `Colors.GetColor`, not with `get_color` as written; the two agree on every colour made of hex digits (`Colors.CorrectedAgreesOnDigits`), but strings such as "#-1-1-1", "# 1 1 1" or "#+f+f+f" fail here while the source draws with the signed or blank-padded values.
- DotMatrix.CreateDotMatrixText: resolves both colours with the corrected `Colors.GetColor`, for the same reason and with the same difference on signed or blank-padded `#` strings.
- Server.KeepPrintable: `str.isprintable` is a parameter `printable`, not the Unicode table.
- Colors.GetColor: only 3-tuples of integers and strings are modelled as arguments; the source's final fallback for any other argument type (orange) has no counterpart, and a tuple's components are not checked, as in the source.
- Colors.PyHexInt: underscores between digits, which `int()` accepts, are not modelled; no two-character component can contain one together with two digits. Only the ASCII hex digits are digits here, while `int()` also reads any Unicode decimal digit (`int("١٢", 16)` is 18), so a `#` colour spelled with such digits fails in the model.
- Cli.JoinPath: path normalisation other than the absolute/relative rule is not modelled; whether a path exists is the parameter `present`.
- Server.UploadImage: the 400 message for an unsupported suffix is "Unsupported format" without the list of extensions the source appends, because that list prints a Python set whose order depends on the string hash seed.
- Server.TrimSlashes: path normalisation beyond trailing slashes (`..`, repeated slashes) is not modelled.

## Findings

| source | as written | input that shows it | evidently intended | confidence | as-written member | corrected member |
|---|---|---|---|---|---|---|
| src/panel_hopper/graphics.py:120-123 | each two-character slice of a `#rrggbb` string is parsed with `int(…, 16)`, which accepts a sign and surrounding whitespace | `get_color("#-1-1-1")` gives (-1, -1, -1), which is not an RGB colour | only hex digits are accepted, so every component is in 0..255 | not executed | Colors.NegativeComponentsAccepted | Colors.GetColor |

=== FILE: cli.dfy ===
/** The command-line grid sender `cli/send_grid.py`: `send_parts`, which
    runs the grid loop without the four-panel guard of the web server, and
    the argument handling of `main` and of the `__main__` block, which picks
    help, interactive mode, an image, or text with its options. */
module Cli {
  import opened Wrappers
  import opened Dicts
  import opened Positions
  import opened Links
  import opened Controller
  import opened Registry
  import opened GridSend

  // ---------------------------------------------------------------------
  // send_parts
  // ---------------------------------------------------------------------

  /** `send_parts`: the grid loop over the send order with a default
      controller; the world after it and the success count it reports. */
  function SendParts(w: World, grid: Dict<Position, Panel>, frames: Position -> Payload,
                     oracle: Oracle): (r: (World, nat))
    ensures r.1 <= |Configured(grid, SEND_ORDER)| <= 4
    ensures PoolOk(w.pool) ==> PoolOk(r.0.pool)
    ensures w.trace <= r.0.trace
  {
    var sent := SendInOrder(w, grid, frames, SEND_ORDER, DefaultSender(oracle));
    CountBound(w, grid, frames, SEND_ORDER, DefaultSender(oracle));
    (sent.0, sent.2)
  }

  /** Only configured positions can succeed: the success count is at most
      the number of positions that have a panel. */
  lemma {:induction false} CountBound(w: World, grid: Dict<Position, Panel>, frames: Position -> Payload,
                                      order: seq<Position>, send: Sender)
    requires Behaves(send)
    ensures SendInOrder(w, grid, frames, order, send).2 <= |Configured(grid, order)|
    decreases |order|
  {
    if |order| > 0 {
      var n := |order| - 1;
      var init := order[..n];
      CountBound(w, grid, frames, init, send);
      assert order == init + [order[n]];
      SendInOrderSnoc(w, grid, frames, init, order[n], send);
      var before := SendInOrder(w, grid, frames, init, send);
      var step := Visit(before.0, grid, frames, order[n], send);
      SuccessesSnoc(before.1, step.1);
    }
  }

  /** Unlike the web server, the command line sends to an incomplete grid:
      the radio sees the controller's fan-out over exactly the configured
      positions, in the send order, and nothing for the missing ones. */
  lemma PartialGridFanOut(w: World, grid: Dict<Position, Panel>, frames: Position -> Payload,
                          oracle: Oracle)
    ensures SendParts(w, grid, frames, oracle).0
            == SendToMultiple(DEFAULT_SETTINGS, w, Targets(grid, frames, Configured(grid, SEND_ORDER)), false, oracle).0
  {
    SkippedAreSilent(w, grid, frames, SEND_ORDER, DefaultSender(oracle));
    ConfiguredIsSendToMultiple(w, grid, frames, Configured(grid, SEND_ORDER), oracle);
  }

  /** The count `send_parts` prints as "Result: N/4" is the number of
      successful deliveries of that same `send_to_multiple`. */
  lemma SendPartsCount(w: World, grid: Dict<Position, Panel>, frames: Position -> Payload,
                       oracle: Oracle)
    ensures SendParts(w, grid, frames, oracle).1
            == Delivered(SendToMultiple(DEFAULT_SETTINGS, w, Targets(grid, frames, Configured(grid, SEND_ORDER)), false, oracle).1)
  {
    SkippedCount(w, grid, frames, SEND_ORDER, DefaultSender(oracle));
    ConfiguredCount(w, grid, frames, Configured(grid, SEND_ORDER), DefaultSender(oracle));
  }

  /** With no grid panel at all, `send_parts` touches nothing and counts
      zero. */
  lemma EmptyGridSendsNothing(w: World, frames: Position -> Payload, oracle: Oracle)
    ensures SendParts(w, [], frames, oracle) == (w, 0)
  {
    var order := SEND_ORDER;
    assert Configured([], order) == [] by {
      assert Configured([], order[..3]) == [] by {
        assert Configured([], order[..3][..2]) == [] by {
          assert Configured([], order[..3][..2][..1]) == [] by {
            assert order[..3][..2][..1][..0] == [];
          }
        }
      }
    }
    SkippedAreSilent(w, [], frames, order, DefaultSender(oracle));
  }

  // ---------------------------------------------------------------------
  // Argument handling
  // ---------------------------------------------------------------------

  /** What the script does with its arguments. */
  datatype Action =
    | Help
    | Interactive
    | SendImage(path: string)
    | SendText(text: string, color: string, dotMatrix: bool)

  /** The default text colour. */
  const DEFAULT_COLOR: string := "orange"

  /** `Path(base) / arg`: an absolute `arg` replaces the base, an empty one
      adds nothing. */
  function JoinPath(base: string, arg: string): (p: string)
    ensures |arg| > 0 && arg[0] == '/' ==> p == arg
    ensures |arg| > 0 && arg[0] != '/' ==> p == base + "/" + arg
  {
    if |arg| == 0 then base
    else if arg[0] == '/' then arg
    else base + "/" + arg
  }

  /** The places an argument may name an image, in the order they are
      tried: as given, under `assets`, under `assets/examples`. */
  function Candidates(arg: string): (cs: seq<string>)
    ensures |cs| == 3 && cs[0] == arg
  {
    [arg, JoinPath("assets", arg), JoinPath("assets/examples", arg)]
  }

  /** The image an argument names: the first candidate that exists. */
  function ImagePath(arg: string, present: string -> bool): (r: Option<string>)
    ensures r.None? <==> forall i :: 0 <= i < 3 ==> !present(Candidates(arg)[i])
    ensures r.Some? ==> exists i :: 0 <= i < 3 && r.value == Candidates(arg)[i]
                                 && present(r.value)
                                 && forall j :: 0 <= j < i ==> !present(Candidates(arg)[j])
  {
    var cs := Candidates(arg);
    if present(cs[0]) then Some(cs[0])
    else if present(cs[1]) then Some(cs[1])
    else if present(cs[2]) then Some(cs[2])
    else None
  }

  /** `--color` at index `i` with a value after it. */
  predicate ColorFlagAt(argv: seq<string>, i: int) {
    0 <= i < |argv| - 1 && argv[i] == "--color"
  }

  /** Index of the last `--color` with a value among the first `n`
      arguments, or -1. */
  function LastColorFlag(argv: seq<string>, n: nat): (i: int)
    requires n <= |argv|
    ensures -1 <= i < n
    ensures i >= 0 ==> ColorFlagAt(argv, i)
    ensures forall k :: i < k < n ==> !ColorFlagAt(argv, k)
    decreases n
  {
    if n == 0 then -1
    else if ColorFlagAt(argv, n - 1) then n - 1
    else LastColorFlag(argv, n - 1)
  }

  /** The text colour asked for: the value after the last `--color` that
      has one, orange when there is none. */
  function ColorOf(argv: seq<string>): (color: string)
    ensures || ((forall k :: 0 <= k < |argv| ==> !ColorFlagAt(argv, k)) && color == DEFAULT_COLOR)
            || (exists i :: ColorFlagAt(argv, i) && color == argv[i + 1]
                            && forall k :: i < k < |argv| ==> !ColorFlagAt(argv, k))
  {
    var i := LastColorFlag(argv, |argv|);
    if i < 0 then DEFAULT_COLOR else argv[i + 1]
  }

  /** The loop of `main` over every argument, the script name included,
      overwriting the colour at each `--color` that has a value after it. */
  method ScanColor(argv: seq<string>) returns (color: string)
    ensures color == ColorOf(argv)
  {
    color := DEFAULT_COLOR;
    var i := 0;
    while i < |argv|
      invariant 0 <= i <= |argv|
      invariant color == (if LastColorFlag(argv, i) < 0 then DEFAULT_COLOR else argv[LastColorFlag(argv, i) + 1])
    {
      if argv[i] == "--color" && i + 1 < |argv| {
        color := argv[i + 1];
      }
      i := i + 1;
    }
  }

  /** What the script does with `sys.argv`: `--help` anywhere prints the
      usage; no argument starts the interactive mode; otherwise the first
      argument is an image when one of its candidates exists, and text to
      draw otherwise, with the colour and dot-matrix options taken from the
      whole argument list. */
  function Resolve(argv: seq<string>, present: string -> bool): (a: Action)
    ensures a == Help <==> "--help" in argv
    ensures "--help" !in argv ==> (a == Interactive <==> |argv| < 2)
    ensures a.SendImage? ==> Some(a.path) == ImagePath(argv[1], present)
    ensures a.SendText? ==>
              && |argv| >= 2 && a.text == argv[1]
              && (forall i :: 0 <= i < 3 ==> !present(Candidates(argv[1])[i]))
              && a.color == ColorOf(argv)
              && (a.dotMatrix <==> "--dot-matrix" in argv)
  {
    if "--help" in argv then Help
    else if |argv| < 2 then Interactive
    else
      match ImagePath(argv[1], present)
      case Some(path) => SendImage(path)
      case None => SendText(argv[1], ColorOf(argv), "--dot-matrix" in argv)
  }

  /** The later of two `--color` options wins. */
  lemma LastColorWins(argv: seq<string>, color: string)
    ensures ColorOf(argv + ["--color", color]) == color
  {
    var a := argv + ["--color", color];
    assert a[|argv|] == "--color" && a[|argv| + 1] == color;
    assert !ColorFlagAt(a, |a| - 1);
    assert ColorFlagAt(a, |argv|);
    assert LastColorFlag(a, |a|) == LastColorFlag(a, |a| - 1) == |argv|;
  }

  /** A `--color` at the very end has no value and is ignored, unless the
      argument before it is also `--color`, which then takes it as its
      value. */
  lemma TrailingColorIgnored(argv: seq<string>)
    requires |argv| == 0 || argv[|argv| - 1] != "--color"
    ensures ColorOf(argv + ["--color"]) == ColorOf(argv)
  {
    var a := argv + ["--color"];
    var n := |argv|;
    assert !ColorFlagAt(a, n);
    assert LastColorFlag(a, |a|) == LastColorFlag(a, n);
    forall k | 0 <= k < n
      ensures ColorFlagAt(argv, k) == ColorFlagAt(a, k)
      ensures ColorFlagAt(argv, k) ==> argv[k + 1] == a[k + 1]
    {
      assert a[k] == argv[k];
      if k + 1 < n {
        assert a[k + 1] == argv[k + 1];
      }
    }
    LastFlagPrefix(argv, a, n);
  }

  /** Two `--color` at the very end: the first takes the second as its
      value. */
  lemma DoubledColorFlag(argv: seq<string>)
    ensures ColorOf(argv + ["--color", "--color"]) == "--color"
  {
    LastColorWins(argv, "--color");
  }

  /** Extending the list does not move the last flag below an index whose
      flags read the same in both lists. */
  lemma {:induction false} LastFlagPrefix(argv: seq<string>, b: seq<string>, n: nat)
    requires n <= |argv| <= |b|
    requires forall k :: 0 <= k < n ==> ColorFlagAt(argv, k) == ColorFlagAt(b, k)
    requires forall k :: 0 <= k < n && ColorFlagAt(argv, k) ==> argv[k + 1] == b[k + 1]
    ensures LastColorFlag(b, n) == LastColorFlag(argv, n)
    ensures LastColorFlag(b, n) >= 0 ==> argv[LastColorFlag(b, n) + 1] == b[LastColorFlag(b, n) + 1]
    decreases n
  {
    if n > 0 && !ColorFlagAt(argv, n - 1) {
      LastFlagPrefix(argv, b, n - 1);
    }
  }

  /** Once the first argument names an image, the options do not matter:
      more arguments give the same image. */
  lemma ImageIgnoresOptions(argv: seq<string>, extra: seq<string>, present: string -> bool)
    requires |argv| >= 2 && "--help" !in argv + extra
    requires ImagePath(argv[1], present).Some?
    ensures Resolve(argv + extra, present) == Resolve(argv, present)
  {
    assert (argv + extra)[1] == argv[1];
    assert "--help" !in argv by {
      assert forall k :: 0 <= k < |argv| ==> argv[k] == (argv + extra)[k];
    }
  }

  /** A file in the working directory shadows one of the same name under
      `assets`. */
  lemma WorkingDirectoryFirst(argv: seq<string>, present: string -> bool)
    requires |argv| >= 2 && "--help" !in argv && present(argv[1])
    ensures Resolve(argv, present) == SendImage(argv[1])
  {
  }

  /** The usage example `send_grid.py "HOP" --color amber`, with no file
      called `HOP`: amber text, no dot matrix. */
  lemma UsageTextExample(present: string -> bool)
    requires forall p :: !present(p)
    ensures Resolve(["send_grid.py", "HOP", "--color", "amber"], present) == SendText("HOP", "amber", false)
  {
    var argv := ["send_grid.py", "HOP", "--color", "amber"];
    assert ColorFlagAt(argv, 2);
    assert "--dot-matrix" !in argv;
  }

  /** `--color` takes whatever follows it, even another option, which then
      also takes effect: `HOP --color --dot-matrix` draws dot-matrix text in
      the colour named `--dot-matrix`. */
  lemma ColorSwallowsOption(present: string -> bool)
    requires forall p :: !present(p)
    ensures Resolve(["send_grid.py", "HOP", "--color", "--dot-matrix"], present)
            == SendText("HOP", "--dot-matrix", true)
  {
    var argv := ["send_grid.py", "HOP", "--color", "--dot-matrix"];
    assert ColorFlagAt(argv, 2);
    assert argv[3] == "--dot-matrix";
  }
}

=== FILE: colors.dfy ===
/** Colour arguments of `src/panel_hopper/graphics.py`: the `COLORS` table
    and `get_color`, which accepts an RGB tuple, a `#rrggbb` string or a
    colour name. A `ValueError` raised while parsing is the `Failure` case. */
module Colors {
  import opened Wrappers
  import opened Text
  import opened Dicts

  /** An RGB triple. Components are plain integers: nothing in the source
      keeps them in range by type. */
  type Rgb = (int, int, int)

  /** What `get_color` may be handed: a tuple or a string. */
  datatype ColorArg = Triple(rgb: Rgb) | Text(s: string)

  /** `(255, 153, 0)`, orange: the fallback for unknown names. */
  const FALLBACK: Rgb := (255, 153, 0)

  /** The `COLORS` table, in declaration order. */
  const COLORS: Dict<string, Rgb> := [
    ("black", (0, 0, 0)),
    ("white", (255, 255, 255)),
    ("red", (255, 0, 0)),
    ("green", (0, 255, 0)),
    ("blue", (0, 0, 255)),
    ("yellow", (255, 255, 0)),
    ("orange", (255, 153, 0)),
    ("cyan", (0, 255, 255)),
    ("magenta", (255, 0, 255)),
    ("amber", (255, 191, 0)),
    ("purple", (128, 0, 255))
  ]

  /** A byte-sized component. */
  predicate InByte(n: int) {
    0 <= n < 256
  }

  /** Every component of `c` is a byte. */
  predicate InRange(c: Rgb) {
    InByte(c.0) && InByte(c.1) && InByte(c.2)
  }

  /** The names of `COLORS` are distinct, as the keys of a dictionary. */
  lemma ColorNamesDistinct()
    ensures Valid(COLORS)
  {
  }

  /** Every entry of `COLORS` is lower-case, does not start with `#`, and
      holds an in-range colour. */
  lemma ColorsTableShape()
    ensures forall i :: 0 <= i < |COLORS| ==>
              InRange(COLORS[i].1) && Lower(COLORS[i].0) == COLORS[i].0
              && |COLORS[i].0| > 0 && COLORS[i].0[0] != '#'
  {
  }

  /** The value of an ASCII hexadecimal digit, either case. */
  function HexValue(c: char): (v: Option<int>)
    ensures v.Some? ==> 0 <= v.value < 16
    ensures v.Some? <==> ('0' <= c <= '9' || 'a' <= c <= 'f' || 'A' <= c <= 'F')
  {
    if '0' <= c <= '9' then Some(c as int - '0' as int)
    else if 'a' <= c <= 'f' then Some(c as int - 'a' as int + 10)
    else if 'A' <= c <= 'F' then Some(c as int - 'A' as int + 10)
    else None
  }

  /** The base-16 value of a non-empty run of hexadecimal digits. */
  function HexDigits(s: string): (r: Option<int>)
    ensures r.Some? ==> 0 <= r.value
    ensures r.Some? <==> forall i :: 0 <= i < |s| ==> HexValue(s[i]).Some?
    decreases |s|
  {
    if |s| == 0 then Some(0)
    else
      var init := HexDigits(s[..|s| - 1]);
      var last := HexValue(s[|s| - 1]);
      assert forall i :: 0 <= i < |s| - 1 ==> s[..|s| - 1][i] == s[i];
      if init.Some? && last.Some? then Some(init.value * 16 + last.value) else None
  }

  /** Two hexadecimal digits are worth less than 256. */
  lemma {:induction false} TwoDigitsInByte(s: string)
    requires |s| == 2 && HexDigits(s).Some?
    ensures InByte(HexDigits(s).value)
    ensures HexDigits(s).value == HexValue(s[0]).value * 16 + HexValue(s[1]).value
  {
    assert s[..1][..0] == [];
    assert HexDigits(s[..1]).value == HexValue(s[0]).value;
  }

  /** `t` without one leading `+` or `-`. */
  function Unsigned(t: string): (d: string)
    ensures d == t || (|t| > 0 && (t[0] == '+' || t[0] == '-') && d == t[1..])
  {
    if |t| > 0 && (t[0] == '+' || t[0] == '-') then t[1..] else t
  }

  /** `int(s, 16)` for the strings it meets here: surrounding whitespace is
      ignored, one optional `+` or `-` sign, then at least one hexadecimal
      digit; anything else raises. A read value is the base-16 value of
      the digits, negated after a `-`. */
  function PyHexInt(s: string): (r: Result<int, string>)
    ensures var d := Unsigned(Strip(s));
            r.Success? <==> |d| > 0 && forall i :: 0 <= i < |d| ==> HexValue(d[i]).Some?
    ensures var t := Strip(s);
            r.Success? ==> r.value == if |t| > 0 && t[0] == '-' then -HexDigits(Unsigned(t)).value
                                      else HexDigits(Unsigned(t)).value
    ensures r.Success? && |Strip(s)| > 0 && Strip(s)[0] != '-' ==> r.value >= 0
  {
    var t := Strip(s);
    var (neg, digits) := if |t| > 0 && (t[0] == '+' || t[0] == '-') then (t[0] == '-', t[1..]) else (false, t);
    if |digits| == 0 then Failure("invalid literal for int() with base 16")
    else
      match HexDigits(digits)
      case None => Failure("invalid literal for int() with base 16")
      case Some(v) => Success(if neg then -v else v)
  }

  /** `color.lstrip('#')`: drops every leading `#`. */
  function StripHashes(s: string): (r: string)
    ensures |r| <= |s| && r == s[|s| - |r|..]
    ensures |r| > 0 ==> r[0] != '#'
    ensures forall i :: 0 <= i < |s| - |r| ==> s[i] == '#'
    decreases |s|
  {
    if |s| > 0 && s[0] == '#' then StripHashes(s[1..]) else s
  }

  /** The name lookup of `get_color`: the lower-cased string in `COLORS`,
      orange when it is not there. */
  function LookUpName(s: string): (c: Rgb)
    ensures Has(COLORS, Lower(s)) ==> Some(c) == Get(COLORS, Lower(s))
    ensures !Has(COLORS, Lower(s)) ==> c == FALLBACK
    ensures InRange(c)
  {
    ColorsTableShape();
    ColorNamesDistinct();
    match Get(COLORS, Lower(s))
    case Some(c) => c
    case None => FALLBACK
  }

  /** A string `get_color` reads as `#rrggbb`: it starts with `#` and six
      characters remain once the leading `#`s are stripped. */
  predicate HexForm(s: string) {
    |s| > 0 && s[0] == '#' && |StripHashes(s)| == 6
  }

  /** `get_color` as written: a tuple comes back unchanged; a `#` string
      whose remainder after stripping `#`s has six characters is read as
      three `int(·, 16)` pairs, raising on a bad pair; every other string is
      looked up by name. */
  function GetColorAsWritten(arg: ColorArg): (r: Result<Rgb, string>)
    ensures arg.Triple? ==> r == Success(arg.rgb)
    ensures arg.Text? && !HexForm(arg.s) ==> r == Success(LookUpName(arg.s))
    ensures arg.Text? && HexForm(arg.s) ==>
              var h := StripHashes(arg.s);
              && (r.Success? <==> PyHexInt(h[0..2]).Success? && PyHexInt(h[2..4]).Success?
                                  && PyHexInt(h[4..6]).Success?)
              && (r.Success? ==> r.value == (PyHexInt(h[0..2]).value, PyHexInt(h[2..4]).value,
                                             PyHexInt(h[4..6]).value))
  {
    match arg
    case Triple(rgb) => Success(rgb)
    case Text(s) =>
      var h := StripHashes(s);
      if |s| > 0 && s[0] == '#' && |h| == 6 then
        var a :- PyHexInt(h[0..2]);
        var b :- PyHexInt(h[2..4]);
        var c :- PyHexInt(h[4..6]);
        Success((a, b, c))
      else Success(LookUpName(s))
  }

  /** As written, `int(·, 16)` accepts a sign, so `#-1-1-1` is read as the
      colour (-1, -1, -1), outside the byte range a colour needs. */
  lemma NegativeComponentsAccepted()
    ensures GetColorAsWritten(Text("#-1-1-1")) == Success((-1, -1, -1))
    ensures !InRange(GetColorAsWritten(Text("#-1-1-1")).value)
  {
    MinusShape();
    MinusOne();
  }

  /** `#-1-1-1` has the `#` form, and its three pairs are `-1`. */
  lemma MinusShape()
    ensures HexForm("#-1-1-1")
    ensures var h := StripHashes("#-1-1-1"); h == "-1-1-1" && h[0..2] == "-1" && h[2..4] == "-1" && h[4..6] == "-1"
  {
    var s := "#-1-1-1";
    var h := "-1-1-1";
    assert h[0] == '-';
    assert StripHashes(h) == h;
    assert s[0] == '#' && s[1..] == h;
    assert StripHashes(s) == StripHashes(h);
  }

  /** `int("-1", 16)` is -1. */
  lemma MinusOne()
    ensures PyHexInt("-1") == Success(-1)
  {
    var t := "-1";
    assert Leading(t) == 0 && Trailing(t) == 0;
    assert Strip(t) == t;
    assert t[1..] == "1";
    assert HexDigits("1") == Some(1) by {
      assert "1"[..0] == [];
    }
  }

  /** A pair of exactly two hexadecimal digits, the intended reading of
      each pair of `#rrggbb`. */
  function HexPair(s: string): (r: Result<int, string>)
    requires |s| == 2
    ensures r.Success? <==> HexValue(s[0]).Some? && HexValue(s[1]).Some?
    ensures r.Success? ==> InByte(r.value) && r.value == HexValue(s[0]).value * 16 + HexValue(s[1]).value
  {
    match HexDigits(s)
    case None => Failure("invalid literal for int() with base 16")
    case Some(v) =>
      TwoDigitsInByte(s);
      Success(v)
  }

  /** Every character of `h` is a hexadecimal digit. */
  predicate AllHex(h: string) {
    forall i :: 0 <= i < |h| ==> HexValue(h[i]).Some?
  }

  /** The component whose two hexadecimal digits start at `i` of `h`. */
  function Component(h: string, i: nat): int
    requires i + 1 < |h| && HexValue(h[i]).Some? && HexValue(h[i + 1]).Some?
  {
    HexValue(h[i]).value * 16 + HexValue(h[i + 1]).value
  }

  /** `get_color` as intended: like `GetColorAsWritten`, but a `#rrggbb`
      colour must consist of hexadecimal digits only, so every parsed
      colour is in range. Tuples are still passed through unchanged. */
  function GetColor(arg: ColorArg): (r: Result<Rgb, string>)
    ensures arg.Triple? ==> r == Success(arg.rgb)
    ensures arg.Text? && r.Success? ==> InRange(r.value)
    ensures arg.Text? && !HexForm(arg.s) ==> r == Success(LookUpName(arg.s))
    ensures arg.Text? && HexForm(arg.s) ==>
              var h := StripHashes(arg.s);
              && (r.Success? <==> AllHex(h))
              && (r.Success? ==> r.value == (Component(h, 0), Component(h, 2), Component(h, 4)))
  {
    if arg.Triple? then Success(arg.rgb)
    else if HexForm(arg.s) then HexTriple(StripHashes(arg.s))
    else Success(LookUpName(arg.s))
  }

  /** The strict reading of the six characters after `#`: three pairs of
      hexadecimal digits, failing on the first pair that is not. */
  function HexTriple(h: string): (r: Result<Rgb, string>)
    requires |h| == 6
    ensures r.Success? <==> AllHex(h)
    ensures r.Success? ==> InRange(r.value) && r.value == (Component(h, 0), Component(h, 2), Component(h, 4))
  {
    assert h[0..2][0] == h[0] && h[0..2][1] == h[1];
    assert h[2..4][0] == h[2] && h[2..4][1] == h[3];
    assert h[4..6][0] == h[4] && h[4..6][1] == h[5];
    var a :- HexPair(h[0..2]);
    var b :- HexPair(h[2..4]);
    var c :- HexPair(h[4..6]);
    Success((a, b, c))
  }

  /** A `#` string whose remainder is not six characters long falls through
      to the name lookup with its `#` still on, which no colour name has, so
      it is always orange. */
  lemma ShortHashIsFallback(s: string)
    requires |s| > 0 && s[0] == '#' && |StripHashes(s)| != 6
    ensures GetColor(Text(s)) == Success(FALLBACK)
    ensures GetColorAsWritten(Text(s)) == Success(FALLBACK)
  {
    assert Lower(s)[0] == '#';
    NoHashName(Lower(s));
  }

  /** No colour name starts with `#`. */
  lemma NoHashName(k: string)
    requires |k| > 0 && k[0] == '#'
    ensures !Has(COLORS, k)
  {
    ColorsTableShape();
  }

  /** The corrected parser agrees with the source whenever the source's
      reading is in range: it only refuses what `int(·, 16)` would have read
      with a sign or blanks. */
  lemma CorrectedAgreesOnDigits(s: string)
    requires |s| > 0 && s[0] == '#'
    requires forall i :: 0 <= i < |StripHashes(s)| ==> HexValue(StripHashes(s)[i]).Some?
    ensures GetColor(Text(s)) == GetColorAsWritten(Text(s))
  {
    var h := StripHashes(s);
    if |h| == 6 {
      PairsAgree(h);
    }
  }

  /** The three two-digit slices of six hexadecimal digits are read alike
      by both parsers. */
  lemma PairsAgree(h: string)
    requires |h| == 6
    requires forall i :: 0 <= i < |h| ==> HexValue(h[i]).Some?
    ensures PyHexInt(h[0..2]) == HexPair(h[0..2])
    ensures PyHexInt(h[2..4]) == HexPair(h[2..4])
    ensures PyHexInt(h[4..6]) == HexPair(h[4..6])
  {
    assert h[0..2][0] == h[0] && h[0..2][1] == h[1];
    assert h[2..4][0] == h[2] && h[2..4][1] == h[3];
    assert h[4..6][0] == h[4] && h[4..6][1] == h[5];
    PairAgrees(h[0..2]);
    PairAgrees(h[2..4]);
    PairAgrees(h[4..6]);
  }

  /** On two hexadecimal digits, `int(·, 16)` and the strict reading agree. */
  lemma PairAgrees(p: string)
    requires |p| == 2 && HexValue(p[0]).Some? && HexValue(p[1]).Some?
    ensures PyHexInt(p) == HexPair(p)
  {
    assert !IsSpace(p[0]) && !IsSpace(p[1]);
    assert Leading(p) == 0 && Trailing(p) == 0;
    assert Strip(p) == p;
  }

  /** The digit for a value below 16, lower case as in `#ff9900`. */
  function HexDigit(v: int): (c: char)
    requires 0 <= v < 16
    ensures HexValue(c) == Some(v)
  {
    if v < 10 then ('0' as int + v) as char else ('a' as int + v - 10) as char
  }

  /** A byte as two hexadecimal digits. */
  function HexByte(n: int): (s: string)
    requires InByte(n)
    ensures |s| == 2 && HexPair(s) == Success(n)
  {
    [HexDigit(n / 16), HexDigit(n % 16)]
  }

  /** `#rrggbb` for an in-range colour. */
  function FormatHex(c: Rgb): (s: string)
    requires InRange(c)
    ensures |s| == 7 && s[0] == '#'
  {
    "#" + HexByte(c.0) + HexByte(c.1) + HexByte(c.2)
  }

  /** Round trip: formatting an in-range colour as `#rrggbb` and reading it
      back gives the colour again. */
  lemma HexRoundTrip(c: Rgb)
    requires InRange(c)
    ensures GetColor(Text(FormatHex(c))) == Success(c)
  {
    var x, y, z := HexByte(c.0), HexByte(c.1), HexByte(c.2);
    var h := x + y + z;
    assert FormatHex(c) == "#" + h;
    assert HexValue(h[0]).Some?;
    StripOneHash(h);
    assert h[0..2] == x && h[2..4] == y && h[4..6] == z;
  }

  /** A single `#` in front of a remainder that does not start with one is
      all `lstrip('#')` removes. */
  lemma StripOneHash(h: string)
    requires |h| > 0 && h[0] != '#'
    ensures StripHashes("#" + h) == h
  {
    var s := "#" + h;
    var r := StripHashes(s);
    assert s[1] == h[0];
    assert |r| == |h|;
    assert r == s[1..];
    assert s[1..] == h;
  }
}

=== FILE: controller.dfy ===
/** `PanelController` of `src/panel_hopper/core.py`: the per-panel send with
    its pooled fast path and fresh-link retry loop (`send_to_panel`), and the
    sequential fan-out over several panels (`send_to_multiple`,
    `send_same_to_all`).

    Durations (the per-attempt timeout, the write delay, `panel_delay`, the
    0.5 s settle) are not numbers here: a timeout is the `Timeout` outcome and
    each wait is an event in the trace. */
module Controller {
  import opened Wrappers
  import opened Text
  import opened Dicts
  import opened Links

  /** The settings of a `PanelController` that steer control flow. */
  datatype Settings = Settings(retries: int, usePersistent: bool)

  /** `PanelController()` with its defaults: three retries, pooled links on. */
  const DEFAULT_SETTINGS: Settings := Settings(3, true)

  /** The `(success, message)` pair `send_to_panel` returns. */
  datatype Reply = Reply(success: bool, message: string)

  /** One element of the list `send_to_multiple` returns: `(mac, success, message)`. */
  datatype Delivery = Delivery(mac: string, success: bool, message: string)

  /** One element of the list `send_to_multiple` takes: `(mac, name, png_bytes)`. */
  datatype Target = Target(mac: string, name: string, data: Payload)

  /** Calls the progress callback, when there is one. */
  function Report(w: World, observe: bool, mac: string, status: string, final: bool): (r: World)
    ensures r.pool == w.pool && r.draws == w.draws
    ensures r.trace == w.trace + if observe then [Progress(mac, status, final)] else []
    ensures forall i :: |w.trace| <= i < |r.trace| ==> r.trace[i].Progress?
    ensures forall k :: Tally(r.trace, k) == Tally(w.trace, k)
  {
    TallySnoc(w.trace, Progress(mac, status, final));
    assert w.trace + [] == w.trace;
    if observe then w.(trace := w.trace + [Progress(mac, status, final)]) else w
  }

  /** The kinds of event whose number matters for the retry policy. */
  datatype Kind = Connects | Closes | Pauses

  /** Whether event `e` is of kind `k`. */
  predicate IsKind(e: Event, k: Kind) {
    match k
    case Connects => e.Connect?
    case Closes => e.Close?
    case Pauses => e.Pause?
  }

  /** Number of events of kind `k` in `t`. */
  function Tally(t: seq<Event>, k: Kind): nat
  {
    if |t| == 0 then 0 else Tally(t[..|t| - 1], k) + (if IsKind(t[|t| - 1], k) then 1 else 0)
  }

  /** Appending one event counts it under its own kind only. */
  lemma TallySnoc(t: seq<Event>, e: Event)
    ensures forall k :: Tally(t + [e], k) == Tally(t, k) + (if IsKind(e, k) then 1 else 0)
  {
    assert (t + [e])[..|t|] == t;
  }

  /** Counting over a concatenated trace adds up. */
  lemma {:induction false} TallyAppend(a: seq<Event>, b: seq<Event>, k: Kind)
    ensures Tally(a + b, k) == Tally(a, k) + Tally(b, k)
    decreases |b|
  {
    if |b| > 0 {
      assert (a + b)[..|a + b| - 1] == a + b[..|b| - 1];
      assert (a + b)[|a + b| - 1] == b[|b| - 1];
      TallyAppend(a, b[..|b| - 1], k);
    } else {
      assert a + b == a;
    }
  }

  /** Every frame transmitted between trace `t0` and its extension `t1` carries `data`. */
  predicate OnlySends(t0: seq<Event>, t1: seq<Event>, data: Payload) {
    t0 <= t1 && forall i :: |t0| <= i < |t1| && t1[i].Transmit? ==> t1[i].data == data
  }

  /** Reference: the outcome of a fresh-link attempt whose first radio
      operation is the `d`-th: the connect's failure, else the send's outcome. */
  function AttemptOutcome(oracle: Oracle, d: nat): Outcome {
    if oracle(d).Ok? then oracle(d + 1) else oracle(d)
  }

  /** Reference: how many radio operations that attempt performs. */
  function AttemptDraws(oracle: Oracle, d: nat): nat {
    if oracle(d).Ok? then 2 else 1
  }

  /** Reference: the outcomes `n` consecutive fresh-link attempts would have,
      starting at the `d`-th radio operation. */
  function Outcomes(oracle: Oracle, d: nat, n: nat): (outs: seq<Outcome>)
    ensures |outs| == n
    decreases n
  {
    if n == 0 then [] else [AttemptOutcome(oracle, d)] + Outcomes(oracle, d + AttemptDraws(oracle, d), n - 1)
  }

  /** The message a failed attempt produces. */
  function FailureMessage(o: Outcome): string {
    match o
    case Ok => "OK"
    case Timeout => "Connection timeout"
    case Failure(msg) => msg
  }

  /** Reference: the reply a run of attempts with outcomes `outs` earns:
      success if any attempt succeeded, otherwise the last attempt's failure,
      and "Max retries exceeded" when no attempt was allowed. */
  function Verdict(outs: seq<Outcome>): Reply {
    if exists i :: 0 <= i < |outs| && outs[i].Ok? then Reply(true, "OK")
    else if |outs| == 0 then Reply(false, "Max retries exceeded")
    else Reply(false, FailureMessage(outs[|outs| - 1]))
  }

  /** Reference: how many attempts run before the loop stops: up to and
      including the first success, otherwise all of them. */
  function Runs(outs: seq<Outcome>): (n: nat)
    ensures n <= |outs|
  {
    if |outs| == 0 then 0 else if outs[0].Ok? then 1 else 1 + Runs(outs[1..])
  }

  /** How many attempts are left from attempt number `attempt` on. */
  function Remaining(s: Settings, attempt: int): nat {
    if attempt > s.retries then 0 else s.retries - attempt + 1
  }

  /** The body of `send_with_session`: connect a fresh link, report
      "sending", transmit, and on success wait for the panel to settle. The
      whole sequence is bounded by the timeout, so either step may yield
      `Timeout`. */
  function Attempt(w: World, mac: string, data: Payload, observe: bool, oracle: Oracle): (r: (Outcome, World))
    ensures r.0 == AttemptOutcome(oracle, w.draws)
    ensures r.1.draws == w.draws + AttemptDraws(oracle, w.draws)
    ensures r.1.pool == w.pool
    ensures OnlySends(w.trace, r.1.trace, data)
    ensures Tally(r.1.trace, Connects) == Tally(w.trace, Connects) + 1
    ensures Tally(r.1.trace, Pauses) == Tally(w.trace, Pauses)
    ensures Tally(r.1.trace, Closes) == Tally(w.trace, Closes)
  {
    var (c, w1) := Draw(w, oracle, Connect(mac));
    TallySnoc(w.trace, Connect(mac));
    if !c.Ok? then (c, w1)
    else
      var (s, w2) := Transmission(w1, mac, data, observe, oracle);
      OnlySendsTrans(w.trace, w1.trace, w2.trace, data);
      (s, w2)
  }

  /** The second half of an attempt once the connect succeeded: the
      "sending" report, the write of `data`, and the settling pause after a
      successful write. It draws one outcome and counts no connect, close
      or pause. */
  function Transmission(w: World, mac: string, data: Payload, observe: bool, oracle: Oracle): (r: (Outcome, World))
    ensures r.0 == oracle(w.draws)
    ensures r.1.draws == w.draws + 1 && r.1.pool == w.pool
    ensures OnlySends(w.trace, r.1.trace, data)
    ensures forall k :: Tally(r.1.trace, k) == Tally(w.trace, k)
  {
    var w1 := Report(w, observe, mac, "sending", false);
    var (s, w2) := Draw(w1, oracle, Transmit(mac, data));
    TallySnoc(w1.trace, Transmit(mac, data));
    TallySnoc(w2.trace, Settle);
    (s, if s.Ok? then w2.(trace := w2.trace + [Settle]) else w2)
  }

  /** The `finally` clause of a fresh-link attempt: the fresh session is
      closed only when pooled links are off, then `panel_delay` is waited,
      after every attempt including a successful one. */
  function Finally(s: Settings, w: World, mac: string): (r: World)
    ensures r.pool == w.pool && r.draws == w.draws
    ensures w.trace <= r.trace
    ensures forall i :: |w.trace| <= i < |r.trace| ==> r.trace[i].Close? || r.trace[i].Pause?
    ensures Tally(r.trace, Connects) == Tally(w.trace, Connects)
    ensures Tally(r.trace, Pauses) == Tally(w.trace, Pauses) + 1
    ensures Tally(r.trace, Closes) == Tally(w.trace, Closes) + (if s.usePersistent then 0 else 1)
  {
    var w1 := if s.usePersistent then w else w.(trace := w.trace + [Close(mac)]);
    TallySnoc(w.trace, Close(mac));
    TallySnoc(w1.trace, Pause);
    w1.(trace := w1.trace + [Pause])
  }

  /** A failed attempt followed by more attempts leaves the verdict to them. */
  lemma VerdictCons(o: Outcome, rest: seq<Outcome>)
    ensures o.Ok? ==> Verdict([o] + rest) == Reply(true, "OK")
    ensures !o.Ok? && |rest| > 0 ==> Verdict([o] + rest) == Verdict(rest)
    ensures !o.Ok? && |rest| == 0 ==> Verdict([o] + rest) == Reply(false, FailureMessage(o))
  {
    var outs := [o] + rest;
    if o.Ok? {
      assert outs[0].Ok?;
    } else {
      assert forall i :: 0 < i < |outs| ==> outs[i] == rest[i - 1];
      if exists i :: 0 <= i < |rest| && rest[i].Ok? {
        var i :| 0 <= i < |rest| && rest[i].Ok?;
        assert outs[i + 1].Ok?;
      }
    }
  }

  /** Extending a trace in two steps that each send only `data`. */
  lemma OnlySendsTrans(t0: seq<Event>, t1: seq<Event>, t2: seq<Event>, data: Payload)
    requires OnlySends(t0, t1, data) && OnlySends(t1, t2, data)
    ensures OnlySends(t0, t2, data)
  {
  }

  /** Appending events that are not transmissions sends no frame. */
  lemma NoTransmit(t0: seq<Event>, t1: seq<Event>, data: Payload)
    requires t0 <= t1 && forall i :: |t0| <= i < |t1| ==> !t1[i].Transmit?
    ensures OnlySends(t0, t1, data)
  {
  }

  /** The progress report that ends an attempt: "success" after a success,
      "timeout" or "error: <text>" after a failure of the last attempt,
      nothing after an earlier failure. */
  function Conclude(w: World, observe: bool, mac: string, o: Outcome, last: bool): (r: World)
    ensures r.pool == w.pool && r.draws == w.draws && w.trace <= r.trace
    ensures forall i :: |w.trace| <= i < |r.trace| ==> r.trace[i].Progress?
    ensures forall k :: Tally(r.trace, k) == Tally(w.trace, k)
  {
    if o.Ok? then Report(w, observe, mac, "success", true)
    else if last && o.Timeout? then Report(w, observe, mac, "timeout", false)
    else if last then Report(w, observe, mac, "error: " + FailureMessage(o), false)
    else w
  }

  /** One pass of the fresh-link loop body, numbered `attempt`: report
      "connecting", run the attempt, report its end, then run the `finally`
      clause. */
  function Step(s: Settings, w: World, mac: string, data: Payload, observe: bool,
                oracle: Oracle, attempt: int): (r: (Outcome, World))
    ensures r.0 == AttemptOutcome(oracle, w.draws)
    ensures r.1.draws == w.draws + AttemptDraws(oracle, w.draws)
    ensures r.1.pool == w.pool
    ensures OnlySends(w.trace, r.1.trace, data)
    ensures Tally(r.1.trace, Connects) == Tally(w.trace, Connects) + 1
    ensures Tally(r.1.trace, Pauses) == Tally(w.trace, Pauses) + 1
    ensures Tally(r.1.trace, Closes) == Tally(w.trace, Closes) + (if s.usePersistent then 0 else 1)
  {
    var w1 := Report(w, observe, mac, "connecting", false);
    var (o, w2) := Attempt(w1, mac, data, observe, oracle);
    var w3 := Wrapup(s, w2, observe, mac, o, attempt == s.retries);
    NoTransmit(w.trace, w1.trace, data);
    NoTransmit(w2.trace, w3.trace, data);
    OnlySendsTrans(w.trace, w1.trace, w2.trace, data);
    OnlySendsTrans(w.trace, w2.trace, w3.trace, data);
    (o, w3)
  }

  /** What follows an attempt: its closing report, then the `finally`
      clause. Neither transmits; together they count one pause, and one
      close when pooled links are off. */
  function Wrapup(s: Settings, w: World, observe: bool, mac: string, o: Outcome, last: bool): (r: World)
    ensures r.pool == w.pool && r.draws == w.draws && w.trace <= r.trace
    ensures forall i :: |w.trace| <= i < |r.trace| ==> !r.trace[i].Transmit?
    ensures Tally(r.trace, Connects) == Tally(w.trace, Connects)
    ensures Tally(r.trace, Pauses) == Tally(w.trace, Pauses) + 1
    ensures Tally(r.trace, Closes) == Tally(w.trace, Closes) + (if s.usePersistent then 0 else 1)
  {
    var w1 := Conclude(w, observe, mac, o, last);
    Finally(s, w1, mac)
  }

  /** The fresh-link loop of `send_to_panel`, from attempt number `attempt`
      up to `retries`: the first success ends it with "OK"; a failure of the
      last attempt ends it with "Connection timeout" or the error text; an
      earlier failure goes on to the next attempt; with no attempt left the
      reply is "Max retries exceeded". The pool is never touched, every
      attempt opens one fresh link and is followed by one pause, and the
      fresh link is closed only when pooled links are off. */
  function FreshAttempts(s: Settings, w: World, mac: string, data: Payload, observe: bool,
                         oracle: Oracle, attempt: int): (r: (World, Reply))
    requires attempt >= 1
    ensures r.0.pool == w.pool
    ensures OnlySends(w.trace, r.0.trace, data)
    ensures r.1 == Verdict(Outcomes(oracle, w.draws, Remaining(s, attempt)))
    decreases Remaining(s, attempt)
  {
    if attempt > s.retries then (w, Reply(false, "Max retries exceeded"))
    else
      var (o, w1) := Step(s, w, mac, data, observe, oracle, attempt);
      var rest := Outcomes(oracle, w1.draws, Remaining(s, attempt + 1));
      assert Outcomes(oracle, w.draws, Remaining(s, attempt)) == [o] + rest;
      VerdictCons(o, rest);
      if o.Ok? then (w1, Reply(true, "OK"))
      else if attempt == s.retries then (w1, Reply(false, FailureMessage(o)))
      else
        var r := FreshAttempts(s, w1, mac, data, observe, oracle, attempt + 1);
        OnlySendsTrans(w.trace, w1.trace, r.0.trace, data);
        r
  }

  /** What the fresh-link loop costs: as many connects and pauses as
      attempts run (see `Runs`), and as many closes too when pooled links
      are off. */
  lemma {:induction false} FreshAttemptsCounts(s: Settings, w: World, mac: string, data: Payload,
                                               observe: bool, oracle: Oracle, attempt: int)
    requires attempt >= 1
    ensures var r := FreshAttempts(s, w, mac, data, observe, oracle, attempt);
            var outs := Outcomes(oracle, w.draws, Remaining(s, attempt));
            && Tally(r.0.trace, Connects) == Tally(w.trace, Connects) + Runs(outs)
            && Tally(r.0.trace, Pauses) == Tally(w.trace, Pauses) + Runs(outs)
            && Tally(r.0.trace, Closes) == Tally(w.trace, Closes) + (if s.usePersistent then 0 else Runs(outs))
    decreases Remaining(s, attempt)
  {
    if attempt <= s.retries {
      var (o, w1) := Step(s, w, mac, data, observe, oracle, attempt);
      var rest := Outcomes(oracle, w1.draws, Remaining(s, attempt + 1));
      var outs := Outcomes(oracle, w.draws, Remaining(s, attempt));
      assert outs == [o] + rest;
      RunsCons(o, rest);
      if !o.Ok? && attempt < s.retries {
        FreshAttemptsCounts(s, w1, mac, data, observe, oracle, attempt + 1);
      }
    }
  }


  /** One more attempt in front: it runs, and the rest run only after a failure. */
  lemma RunsCons(o: Outcome, rest: seq<Outcome>)
    ensures Runs([o] + rest) == 1 + (if o.Ok? then 0 else Runs(rest))
  {
    assert ([o] + rest)[1..] == rest;
  }

  /** The pooled fast path of `send_to_panel`: acquire the held link for
      `mac` and, when it is connected, send the frame over it. True only when
      that send succeeded. A failed send leaves the link in the pool marked
      disconnected. No other pool entry changes and nobody waits. */
  function PooledSend(w: World, mac: string, name: string, data: Payload, observe: bool,
                      oracle: Oracle): (r: (World, bool))
    ensures PoolOk(w.pool) ==> PoolOk(r.0.pool)
    ensures forall k :: k != Upper(mac) ==> Get(r.0.pool, k) == Get(w.pool, k)
    ensures OnlySends(w.trace, r.0.trace, data)
    ensures Tally(r.0.trace, Pauses) == Tally(w.trace, Pauses)
    ensures Tally(r.0.trace, Closes) == Tally(w.trace, Closes)
    ensures var a := Acquire(w, mac, name, oracle);
            r.1 <==> a.1.Some? && a.1.value.hasSession && oracle(a.0.draws).Ok?
  {
    var (w1, got) := Acquire(w, mac, name, oracle);
    AcquireTrace(w, w1, data);
    if got.Some? then
      var r := SendHeld(w1, mac, got.value, data, observe, oracle);
      OnlySendsTrans(w.trace, w1.trace, r.0.trace, data);
      r
    else (w1, false)
  }

  /** Acquiring a link only ever connects: it transmits nothing, closes
      nothing and does not wait. */
  lemma AcquireTrace(w: World, w1: World, data: Payload)
    requires w1.trace == w.trace || exists m :: w1.trace == w.trace + [Connect(m)]
    ensures OnlySends(w.trace, w1.trace, data)
    ensures Tally(w1.trace, Pauses) == Tally(w.trace, Pauses)
    ensures Tally(w1.trace, Closes) == Tally(w.trace, Closes)
  {
    if w1.trace != w.trace {
      var m :| w1.trace == w.trace + [Connect(m)];
      TallySnoc(w.trace, Connect(m));
    }
  }

  /** Sends the frame over the held, connected link `l` of `mac` and writes
      the link back: "sending" first, "success" after a good send. */
  function SendHeld(w: World, mac: string, l: Link, data: Payload, observe: bool,
                    oracle: Oracle): (r: (World, bool))
    requires l.connected && Get(w.pool, Upper(mac)) == Some(l)
    ensures PoolOk(w.pool) ==> PoolOk(r.0.pool)
    ensures forall k :: k != Upper(mac) ==> Get(r.0.pool, k) == Get(w.pool, k)
    ensures OnlySends(w.trace, r.0.trace, data)
    ensures forall k :: Tally(r.0.trace, k) == Tally(w.trace, k)
    ensures r.1 <==> l.hasSession && oracle(w.draws).Ok?
    ensures r.0.draws == w.draws + (if l.hasSession then 1 else 0)
    ensures r.1 ==> Get(r.0.pool, Upper(mac)) == Some(l)
    ensures !r.1 && l.hasSession ==> Get(r.0.pool, Upper(mac)) == Some(l.(connected := false))
  {
    var w2 := Report(w, observe, mac, "sending", false);
    var (w4, ok) := TransmitHeld(w2, Upper(mac), l, data, oracle);
    OnlySendsTrans(w.trace, w2.trace, w4.trace, data);
    if ok then
      var w5 := Report(w4, observe, mac, "success", true);
      OnlySendsTrans(w.trace, w4.trace, w5.trace, data);
      (w5, true)
    else (w4, false)
  }

  /** The radio part of `SendHeld`: one send over the held link stored
      under `key`, and the link written back under the same key. */
  function TransmitHeld(w: World, key: string, l: Link, data: Payload, oracle: Oracle): (r: (World, bool))
    requires l.connected && Get(w.pool, key) == Some(l)
    ensures PoolOk(w.pool) ==> PoolOk(r.0.pool)
    ensures forall k :: k != key ==> Get(r.0.pool, k) == Get(w.pool, k)
    ensures OnlySends(w.trace, r.0.trace, data)
    ensures forall k :: Tally(r.0.trace, k) == Tally(w.trace, k)
    ensures r.1 <==> l.hasSession && oracle(w.draws).Ok?
    ensures r.0.draws == w.draws + (if l.hasSession then 1 else 0)
    ensures r.1 ==> Get(r.0.pool, key) == Some(l)
    ensures !r.1 && l.hasSession ==> Get(r.0.pool, key) == Some(l.(connected := false))
  {
    var (l', w3, ok) := LinkSendFrame(l, w, data, oracle);
    TallySnoc(w.trace, Transmit(l.mac, data));
    WriteBack(w.pool, key, l, l');
    PutGet(w3.pool, key, l', key);
    (w3.(pool := Put(w3.pool, key, l')), ok)
  }

  /** Writing back an updated copy of a held link keeps the pool invariant
      and leaves every other entry alone. */
  lemma WriteBack(pool: Dict<string, Link>, key: string, l: Link, l': Link)
    requires Get(pool, key) == Some(l)
    requires l'.mac == l.mac && (LinkOk(l) ==> LinkOk(l'))
    ensures PoolOk(pool) ==> PoolOk(Put(pool, key, l'))
    ensures forall k :: k != key ==> Get(Put(pool, key, l'), k) == Get(pool, k)
  {
    forall k | k != key ensures Get(Put(pool, key, l'), k) == Get(pool, k) {
      PutGet(pool, key, l', k);
    }
    if PoolOk(pool) {
      var i :| 0 <= i < |pool| && pool[i].0 == key;
      PutKeepsPoolOk(pool, key, l');
    }
  }

  /** `send_to_panel`: the pooled fast path when pooled links are on, else
      (or when it fails) the fresh-link retry loop. Only the pool entry of
      this panel may change, only this frame is transmitted, and a success
      always reads "OK". */
  function SendToPanel(s: Settings, w: World, mac: string, data: Payload, name: string,
                       observe: bool, oracle: Oracle): (r: (World, Reply))
    ensures PoolOk(w.pool) ==> PoolOk(r.0.pool)
    ensures forall k :: k != Upper(mac) ==> Get(r.0.pool, k) == Get(w.pool, k)
    ensures !s.usePersistent ==> r.0.pool == w.pool
    ensures OnlySends(w.trace, r.0.trace, data)
    ensures r.1.success ==> r.1.message == "OK"
  {
    var display := if name == "" then mac else name;
    if s.usePersistent then
      var (w1, ok) := PooledSend(w, mac, display, data, observe, oracle);
      if ok then (w1, Reply(true, "OK"))
      else
        var r := FreshAttempts(s, w1, mac, data, observe, oracle, 1);
        OnlySendsTrans(w.trace, w1.trace, r.0.trace, data);
        VerdictSuccess(Outcomes(oracle, w1.draws, Remaining(s, 1)));
        r
    else
      VerdictSuccess(Outcomes(oracle, w.draws, Remaining(s, 1)));
      FreshAttempts(s, w, mac, data, observe, oracle, 1)
  }

  /** A successful verdict reads "OK"; a failed one reads the last failure. */
  lemma VerdictSuccess(outs: seq<Outcome>)
    ensures Verdict(outs).success ==> Verdict(outs).message == "OK"
    ensures !Verdict(outs).success && |outs| > 0 ==>
              !outs[|outs| - 1].Ok? && Verdict(outs).message == FailureMessage(outs[|outs| - 1])
  {
  }

  /** The pooled fast path in the good case: with the panel's link held and
      connected and the send going through, `send_to_panel` answers
      `(True, "OK")` after a single radio operation, with no fresh attempt,
      no pause and no change to the pool. */
  lemma SendToPanelFastPath(s: Settings, w: World, mac: string, data: Payload, name: string,
                            observe: bool, oracle: Oracle, l: Link)
    requires s.usePersistent && PoolOk(w.pool)
    requires Get(w.pool, Upper(mac)) == Some(l) && l.connected
    requires oracle(w.draws).Ok?
    ensures var r := SendToPanel(s, w, mac, data, name, observe, oracle);
            && r.1 == Reply(true, "OK")
            && r.0.draws == w.draws + 1
            && (forall k :: Get(r.0.pool, k) == Get(w.pool, k))
            && (forall k :: Tally(r.0.trace, k) == Tally(w.trace, k))
  {
    var key := Upper(mac);
    var i :| 0 <= i < |w.pool| && w.pool[i].0 == key;
    assert LinkOk(l);
    var display := if name == "" then mac else name;
    assert Acquire(w, mac, display, oracle) == (w, Some(l));
  }

  /** The retry policy with pooled links on, the default every grid sender
      uses: when the pooled path succeeds, `send_to_panel` answers
      `(True, "OK")` in the world the pooled path left, with no further
      radio operation; otherwise it is the fresh-link loop started from that
      world, whose reply is the verdict of the next `retries` attempts: a
      success exactly when one of them succeeds, otherwise "Max retries
      exceeded" when there are none or the last attempt's failure. One
      connect and one pause are spent per attempt run. */
  lemma PooledRetryPolicy(s: Settings, w: World, mac: string, data: Payload, name: string,
                          observe: bool, oracle: Oracle)
    requires s.usePersistent
    ensures var p := PooledSend(w, mac, if name == "" then mac else name, data, observe, oracle);
            var r := SendToPanel(s, w, mac, data, name, observe, oracle);
            var outs := Outcomes(oracle, p.0.draws, if s.retries > 0 then s.retries else 0);
            && (p.1 ==> r == (p.0, Reply(true, "OK")))
            && (!p.1 ==> r == FreshAttempts(s, p.0, mac, data, observe, oracle, 1))
            && (!p.1 ==> r.1 == Verdict(outs))
            && (!p.1 ==> (r.1.success <==> exists i :: 0 <= i < |outs| && outs[i].Ok?))
            && (!p.1 && s.retries <= 0 ==> r.1 == Reply(false, "Max retries exceeded") && r.0 == p.0)
            && (!p.1 && !r.1.success && s.retries > 0 ==> r.1.message == FailureMessage(outs[|outs| - 1]))
            && (!p.1 ==> Tally(r.0.trace, Connects) == Tally(p.0.trace, Connects) + Runs(outs)
                         && Tally(r.0.trace, Pauses) == Tally(p.0.trace, Pauses) + Runs(outs))
  {
    var p := PooledSend(w, mac, if name == "" then mac else name, data, observe, oracle);
    PooledThenFresh(s, w, mac, data, name, observe, oracle);
    if !p.1 {
      FreshLoopPolicy(s, p.0, mac, data, observe, oracle);
    }
  }

  /** How `send_to_panel` with pooled links on is put together: the pooled
      path, then the fresh-link loop only when the pooled path failed. */
  lemma PooledThenFresh(s: Settings, w: World, mac: string, data: Payload, name: string,
                        observe: bool, oracle: Oracle)
    requires s.usePersistent
    ensures var p := PooledSend(w, mac, if name == "" then mac else name, data, observe, oracle);
            var r := SendToPanel(s, w, mac, data, name, observe, oracle);
            && (p.1 ==> r == (p.0, Reply(true, "OK")))
            && (!p.1 ==> r == FreshAttempts(s, p.0, mac, data, observe, oracle, 1))
  {
  }

  /** The fresh-link loop of `send_to_panel`, from any world: its reply is
      the verdict of the next `retries` attempts, a success exactly when one
      of them succeeds; with no attempts it changes nothing and answers "Max
      retries exceeded"; a failure carries the last attempt's message; and
      each attempt run costs one connect and one pause. */
  lemma FreshLoopPolicy(s: Settings, w: World, mac: string, data: Payload, observe: bool, oracle: Oracle)
    ensures var r := FreshAttempts(s, w, mac, data, observe, oracle, 1);
            var outs := Outcomes(oracle, w.draws, if s.retries > 0 then s.retries else 0);
            && r.1 == Verdict(outs)
            && (r.1.success <==> exists i :: 0 <= i < |outs| && outs[i].Ok?)
            && (s.retries <= 0 ==> r == (w, Reply(false, "Max retries exceeded")))
            && (!r.1.success && s.retries > 0 ==> r.1.message == FailureMessage(outs[|outs| - 1]))
            && Tally(r.0.trace, Connects) == Tally(w.trace, Connects) + Runs(outs)
            && Tally(r.0.trace, Pauses) == Tally(w.trace, Pauses) + Runs(outs)
  {
    FreshLoopVerdict(s, w, mac, data, observe, oracle);
    FreshLoopTallies(s, w, mac, data, observe, oracle);
  }

  /** The connects and pauses of the fresh-link loop from its first
      attempt on. */
  lemma FreshLoopTallies(s: Settings, w: World, mac: string, data: Payload, observe: bool, oracle: Oracle)
    ensures var r := FreshAttempts(s, w, mac, data, observe, oracle, 1);
            var outs := Outcomes(oracle, w.draws, if s.retries > 0 then s.retries else 0);
            && Tally(r.0.trace, Connects) == Tally(w.trace, Connects) + Runs(outs)
            && Tally(r.0.trace, Pauses) == Tally(w.trace, Pauses) + Runs(outs)
  {
    assert Remaining(s, 1) == if s.retries > 0 then s.retries else 0;
    FreshAttemptsCounts(s, w, mac, data, observe, oracle, 1);
  }

  /** The reply of the fresh-link loop from its first attempt on, and the
      untouched world when no attempt is allowed. */
  lemma FreshLoopVerdict(s: Settings, w: World, mac: string, data: Payload, observe: bool, oracle: Oracle)
    ensures var r := FreshAttempts(s, w, mac, data, observe, oracle, 1);
            var outs := Outcomes(oracle, w.draws, if s.retries > 0 then s.retries else 0);
            && r.1 == Verdict(outs)
            && (s.retries <= 0 ==> r == (w, Reply(false, "Max retries exceeded")))
  {
    assert Remaining(s, 1) == if s.retries > 0 then s.retries else 0;
  }

  /** With the pool full and no link held for the panel, the pooled path
      gives up at once and `send_to_panel` is exactly the fresh-link loop. */
  lemma SendToPanelPoolFull(s: Settings, w: World, mac: string, data: Payload, name: string,
                            observe: bool, oracle: Oracle)
    requires s.usePersistent
    requires !Has(w.pool, Upper(mac)) && |w.pool| >= POOL_CAPACITY
    ensures SendToPanel(s, w, mac, data, name, observe, oracle)
            == FreshAttempts(s, w, mac, data, observe, oracle, 1)
  {
    var display := if name == "" then mac else name;
    assert Acquire(w, mac, display, oracle) == (w, None);
  }

  /** `Runs` stops at the first success. */
  lemma {:induction false} RunsToFirstSuccess(outs: seq<Outcome>, i: nat)
    requires i < |outs| && outs[i].Ok?
    requires forall j :: 0 <= j < i ==> !outs[j].Ok?
    ensures Runs(outs) == i + 1
  {
    if i > 0 {
      RunsToFirstSuccess(outs[1..], i - 1);
    }
  }

  /** Without a success every attempt runs. */
  lemma {:induction false} RunsAllOnFailure(outs: seq<Outcome>)
    requires forall j :: 0 <= j < |outs| ==> !outs[j].Ok?
    ensures Runs(outs) == |outs|
  {
    if |outs| > 0 {
      RunsAllOnFailure(outs[1..]);
    }
  }

  /** The fresh-link retry policy of `send_to_panel` with pooled links off:
      it opens at most `retries` fresh links (none when `retries <= 0`, with
      "Max retries exceeded"); it succeeds exactly when some attempt does,
      after opening `i + 1` links for the first successful attempt `i`; and a
      failure reports the last attempt's outcome after trying all of them,
      each fresh link being closed and followed by a pause. */
  lemma FreshRetryPolicy(s: Settings, w: World, mac: string, data: Payload, name: string,
                         observe: bool, oracle: Oracle)
    requires !s.usePersistent
    ensures var r := SendToPanel(s, w, mac, data, name, observe, oracle);
            var outs := Outcomes(oracle, w.draws, if s.retries > 0 then s.retries else 0);
            && r.0.pool == w.pool
            && Tally(r.0.trace, Connects) - Tally(w.trace, Connects) <= |outs|
            && Tally(r.0.trace, Connects) - Tally(w.trace, Connects) == Tally(r.0.trace, Pauses) - Tally(w.trace, Pauses)
            && Tally(r.0.trace, Connects) - Tally(w.trace, Connects) == Tally(r.0.trace, Closes) - Tally(w.trace, Closes)
            && (s.retries <= 0 ==> r.1 == Reply(false, "Max retries exceeded")
                                   && Tally(r.0.trace, Connects) == Tally(w.trace, Connects))
            && (r.1.success <==> exists i :: 0 <= i < |outs| && outs[i].Ok?)
            && (forall i :: 0 <= i < |outs| && outs[i].Ok? && (forall j :: 0 <= j < i ==> !outs[j].Ok?) ==>
                  Tally(r.0.trace, Connects) == Tally(w.trace, Connects) + i + 1)
            && (!r.1.success && s.retries > 0 ==>
                  && r.1.message == FailureMessage(outs[|outs| - 1])
                  && Tally(r.0.trace, Connects) == Tally(w.trace, Connects) + s.retries)
  {
    var outs := Outcomes(oracle, w.draws, if s.retries > 0 then s.retries else 0);
    assert Remaining(s, 1) == |outs|;
    FreshLoopVerdict(s, w, mac, data, observe, oracle);
    FreshAttemptsCounts(s, w, mac, data, observe, oracle, 1);
    VerdictAndRuns(outs);
  }

  /** What the outcomes of the attempts decide: success exactly when one
      succeeded; the attempts run up to the first success, or all of them;
      a failure carries the last attempt's message. */
  lemma VerdictAndRuns(outs: seq<Outcome>)
    ensures |outs| == 0 ==> Verdict(outs) == Reply(false, "Max retries exceeded") && Runs(outs) == 0
    ensures Verdict(outs).success <==> exists i :: 0 <= i < |outs| && outs[i].Ok?
    ensures forall i :: 0 <= i < |outs| && outs[i].Ok? && (forall j :: 0 <= j < i ==> !outs[j].Ok?) ==>
              Runs(outs) == i + 1
    ensures !Verdict(outs).success && |outs| > 0 ==>
              Verdict(outs).message == FailureMessage(outs[|outs| - 1]) && Runs(outs) == |outs|
  {
    RunsOfFirstSuccess(outs);
    if !Verdict(outs).success {
      RunsAllOnFailure(outs);
    }
  }

  /** `RunsToFirstSuccess` for every first success at once. */
  lemma RunsOfFirstSuccess(outs: seq<Outcome>)
    ensures forall i :: 0 <= i < |outs| && outs[i].Ok? && (forall j :: 0 <= j < i ==> !outs[j].Ok?) ==>
              Runs(outs) == i + 1
  {
    forall i | 0 <= i < |outs| && outs[i].Ok? && (forall j :: 0 <= j < i ==> !outs[j].Ok?)
      ensures Runs(outs) == i + 1
    {
      RunsToFirstSuccess(outs, i);
    }
  }

  /** What the fan-out calls for each target: `send_to_panel` of some
      controller, given the world, the MAC, the frame and the name, answering
      with the world after it and the `(success, message)` reply. */
  type Sender = (World, string, Payload, string) -> (World, Reply)

  /** The promises of `send_to_panel` a loop over panels relies on: it keeps
      the pool invariant, transmits nothing but the frame it was given, and
      a success reads "OK". */
  ghost predicate Behaves(send: Sender) {
    forall w: World, mac: string, data: Payload, name: string ::
      && (PoolOk(w.pool) ==> PoolOk(send(w, mac, data, name).0.pool))
      && OnlySends(w.trace, send(w, mac, data, name).0.trace, data)
      && (send(w, mac, data, name).1.success ==> send(w, mac, data, name).1.message == "OK")
  }

  /** `send_to_panel` of a controller with settings `s`, with or without a
      progress callback. */
  function PanelSender(s: Settings, observe: bool, oracle: Oracle): (send: Sender)
    ensures Behaves(send)
  {
    (w: World, mac: string, data: Payload, name: string) => SendToPanel(s, w, mac, data, name, observe, oracle)
  }

  /** The loop of `send_to_multiple` over any sender: one call per target,
      in order, with no early exit; each reply paired with its target's MAC. */
  function FanOut(w: World, targets: seq<Target>, send: Sender): (r: (World, seq<Delivery>))
    requires Behaves(send)
    ensures |r.1| == |targets|
    ensures forall i :: 0 <= i < |targets| ==> r.1[i].mac == targets[i].mac
    ensures forall i :: 0 <= i < |targets| && r.1[i].success ==> r.1[i].message == "OK"
    ensures PoolOk(w.pool) ==> PoolOk(r.0.pool)
    ensures w.trace <= r.0.trace
    decreases |targets|
  {
    if |targets| == 0 then (w, [])
    else
      var n := |targets| - 1;
      var prev := FanOut(w, targets[..n], send);
      var t := targets[n];
      var sent := send(prev.0, t.mac, t.data, t.name);
      var ds := prev.1 + [Delivery(t.mac, sent.1.success, sent.1.message)];
      assert forall i :: 0 <= i < n ==> ds[i] == prev.1[i];
      (sent.0, ds)
  }

  /** `send_to_multiple`: the fan-out with this controller's
      `send_to_panel`. */
  function SendToMultiple(s: Settings, w: World, targets: seq<Target>, observe: bool,
                          oracle: Oracle): (r: (World, seq<Delivery>))
    ensures |r.1| == |targets|
    ensures forall i :: 0 <= i < |targets| ==> r.1[i].mac == targets[i].mac
    ensures forall i :: 0 <= i < |targets| && r.1[i].success ==> r.1[i].message == "OK"
    ensures PoolOk(w.pool) ==> PoolOk(r.0.pool)
    ensures w.trace <= r.0.trace
  {
    FanOut(w, targets, PanelSender(s, observe, oracle))
  }

  /** One more target costs one more call, appended to the result list. */
  lemma FanOutSnoc(w: World, targets: seq<Target>, t: Target, send: Sender)
    requires Behaves(send)
    ensures var before := FanOut(w, targets, send);
            var sent := send(before.0, t.mac, t.data, t.name);
            FanOut(w, targets + [t], send) == (sent.0, before.1 + [Delivery(t.mac, sent.1.success, sent.1.message)])
  {
    assert (targets + [t])[..|targets|] == targets;
  }

  /** No early abort: the `i`-th delivery is whatever the sender answers for
      target `i` in the world the first `i` targets left behind, whether or
      not earlier targets failed. */
  lemma {:induction false} FanOutNoAbort(w: World, targets: seq<Target>, send: Sender, i: nat)
    requires Behaves(send) && i < |targets|
    ensures var before := FanOut(w, targets[..i], send).0;
            var rep := send(before, targets[i].mac, targets[i].data, targets[i].name).1;
            FanOut(w, targets, send).1[i] == Delivery(targets[i].mac, rep.success, rep.message)
    decreases |targets|
  {
    var n := |targets|;
    var init := targets[..n - 1];
    assert targets == init + [targets[n - 1]];
    FanOutSnoc(w, init, targets[n - 1], send);
    if i < n - 1 {
      assert init[..i] == targets[..i];
      FanOutNoAbort(w, init, send, i);
    } else {
      assert targets[..i] == init;
    }
  }

  /** When every target carries the same frame, only that frame goes out. */
  lemma {:induction false} FanOutSendsOnly(w: World, targets: seq<Target>, send: Sender, data: Payload)
    requires Behaves(send)
    requires forall j :: 0 <= j < |targets| ==> targets[j].data == data
    ensures OnlySends(w.trace, FanOut(w, targets, send).0.trace, data)
    decreases |targets|
  {
    if |targets| > 0 {
      var n := |targets| - 1;
      var init := targets[..n];
      FanOutSendsOnly(w, init, send, data);
      var w1 := FanOut(w, init, send).0;
      var t := targets[n];
      OnlySendsTrans(w.trace, w1.trace, send(w1, t.mac, t.data, t.name).0.trace, data);
    }
  }

  /** `send_same_to_all`: the same frame to every `(mac, name)`, through
      `send_to_multiple`; one result per panel, in order, and no other frame
      is transmitted. */
  function SendSameToAll(s: Settings, w: World, panels: seq<(string, string)>, data: Payload,
                         observe: bool, oracle: Oracle): (r: (World, seq<Delivery>))
    ensures |r.1| == |panels|
    ensures forall i :: 0 <= i < |panels| ==> r.1[i].mac == panels[i].0
    ensures OnlySends(w.trace, r.0.trace, data)
    ensures PoolOk(w.pool) ==> PoolOk(r.0.pool)
  {
    var targets := seq(|panels|, i requires 0 <= i < |panels| => Target(panels[i].0, panels[i].1, data));
    FanOutSendsOnly(w, targets, PanelSender(s, observe, oracle), data);
    SendToMultiple(s, w, targets, observe, oracle)
  }
}

=== FILE: dicts.dfy ===
/** Python's `dict` with its insertion order: a sequence of key/value
    entries with distinct keys. Assigning to a present key keeps its place,
    a new key goes to the end, deleting closes the gap. */
module Dicts {
  import opened Wrappers

  type Dict<K, V> = seq<(K, V)>

  /** No key appears twice. */
  predicate Valid<K(==), V>(d: Dict<K, V>) {
    forall i, j :: 0 <= i < j < |d| ==> d[i].0 != d[j].0
  }

  /** `k in d`. */
  predicate Has<K(==), V>(d: Dict<K, V>, k: K) {
    exists i :: 0 <= i < |d| && d[i].0 == k
  }

  /** The keys in iteration order. */
  function Keys<K, V>(d: Dict<K, V>): (ks: seq<K>)
    ensures |ks| == |d|
    ensures forall i :: 0 <= i < |d| ==> ks[i] == d[i].0
  {
    seq(|d|, i requires 0 <= i < |d| => d[i].0)
  }

  /** The values in iteration order: `d.values()`. */
  function Values<K, V>(d: Dict<K, V>): (vs: seq<V>)
    ensures |vs| == |d|
    ensures forall i :: 0 <= i < |d| ==> vs[i] == d[i].1
  {
    seq(|d|, i requires 0 <= i < |d| => d[i].1)
  }

  /** `d.get(k)`: the value of the first entry with key `k`. */
  function Get<K(==), V(==)>(d: Dict<K, V>, k: K): (r: Option<V>)
    ensures r.None? <==> !Has(d, k)
    ensures forall i :: 0 <= i < |d| && d[i].0 == k && (forall j :: 0 <= j < i ==> d[j].0 != k) ==>
              r == Some(d[i].1)
    ensures Valid(d) ==> forall i :: 0 <= i < |d| && d[i].0 == k ==> r == Some(d[i].1)
  {
    if |d| == 0 then None
    else if d[0].0 == k then Some(d[0].1)
    else
      var r := Get(d[1..], k);
      assert Has(d[1..], k) ==> Has(d, k);
      assert Has(d, k) ==> Has(d[1..], k) by {
        if Has(d, k) {
          var i :| 0 <= i < |d| && d[i].0 == k;
          assert d[1..][i - 1].0 == k;
        }
      }
      forall i | 0 <= i < |d| && d[i].0 == k && (forall j :: 0 <= j < i ==> d[j].0 != k)
        ensures r == Some(d[i].1)
      {
        assert d[1..][i - 1] == d[i];
      }
      r
  }

  /** `d[k] = v`: replaces the value in place when `k` is present, appends otherwise. */
  function Put<K(==), V>(d: Dict<K, V>, k: K, v: V): (r: Dict<K, V>)
    ensures Has(d, k) ==> |r| == |d| && forall i :: 0 <= i < |d| ==> r[i] == (if d[i].0 == k then (k, v) else d[i])
    ensures !Has(d, k) ==> r == d + [(k, v)]
  {
    if Has(d, k) then seq(|d|, i requires 0 <= i < |d| => if d[i].0 == k then (k, v) else d[i])
    else d + [(k, v)]
  }

  /** `del d[k]`, doing nothing when `k` is absent. */
  function Remove<K(==), V(==)>(d: Dict<K, V>, k: K): (r: Dict<K, V>)
    ensures |r| <= |d|
    ensures !Has(r, k)
    ensures forall i :: 0 <= i < |r| ==> r[i] in d && r[i].0 != k
    ensures forall i :: 0 <= i < |d| && d[i].0 != k ==> d[i] in r
    decreases |d|
  {
    if |d| == 0 then d
    else if d[0].0 == k then Remove(d[1..], k)
    else [d[0]] + Remove(d[1..], k)
  }

  /** Writing a key makes it present and readable, and leaves every other
      key as it was. */
  lemma PutGet<K, V>(d: Dict<K, V>, k: K, v: V, k': K)
    ensures Has(Put(d, k, v), k') <==> k' == k || Has(d, k')
    ensures Get(Put(d, k, v), k') == if k' == k then Some(v) else Get(d, k')
  {
    var r := Put(d, k, v);
    if Has(d, k) {
      if Has(r, k') {
        var i :| 0 <= i < |r| && r[i].0 == k';
        assert d[i].0 == k' || k' == k;
      }
      if Has(d, k') {
        var i :| 0 <= i < |d| && d[i].0 == k';
        assert r[i].0 == k' || k' == k;
      }
      var f := FirstIndex(r, k');
      if f < |r| {
        if k' == k {
          assert r[f] == (k, v);
        } else {
          assert d[f] == r[f];
          forall j | 0 <= j < f ensures d[j].0 != k' {
            assert r[j].0 != k';
          }
        }
      }
    } else {
      assert r == d + [(k, v)];
      assert r[|d|] == (k, v);
      if Has(d, k') {
        var i :| 0 <= i < |d| && d[i].0 == k';
        assert r[i] == d[i];
      }
      if Has(r, k') && k' != k {
        var i :| 0 <= i < |r| && r[i].0 == k';
        assert i < |d| && d[i] == r[i];
      }
      var f := FirstIndex(r, k');
      if k' == k {
        forall j | 0 <= j < |d| ensures r[j].0 != k' {
          assert r[j] == d[j];
        }
        assert f == |d|;
      } else if f < |r| {
        assert f < |d| && r[f] == d[f];
        forall j | 0 <= j < f ensures d[j].0 != k' {
          assert r[j] == d[j];
        }
      }
    }
  }

  /** Position of the first entry with key `k`, `|d|` when there is none. */
  function FirstIndex<K(==), V>(d: Dict<K, V>, k: K): (f: nat)
    ensures f <= |d|
    ensures f < |d| ==> d[f].0 == k
    ensures forall j :: 0 <= j < f ==> d[j].0 != k
  {
    if |d| == 0 then 0
    else if d[0].0 == k then 0
    else 1 + FirstIndex(d[1..], k)
  }

  /** Writing keeps the keys distinct. */
  lemma PutValid<K, V>(d: Dict<K, V>, k: K, v: V)
    requires Valid(d)
    ensures Valid(Put(d, k, v))
  {
  }

  /** Deleting a key drops exactly that key. */
  lemma RemoveGet<K, V>(d: Dict<K, V>, k: K, k': K)
    requires Valid(d)
    ensures Valid(Remove(d, k))
    ensures Get(Remove(d, k), k') == if k' == k then None else Get(d, k')
  {
    RemoveValid(d, k);
    var r := Remove(d, k);
    if k' != k && Has(d, k') {
      var i :| 0 <= i < |d| && d[i].0 == k';
      assert d[i] in r;
    } else if k' != k {
      assert !Has(r, k') by {
        forall j | 0 <= j < |r| ensures r[j].0 != k' {
          assert r[j] in d;
        }
      }
    }
  }

  /** Deleting keeps the keys distinct. */
  lemma {:induction false} RemoveValid<K, V>(d: Dict<K, V>, k: K)
    requires Valid(d)
    ensures Valid(Remove(d, k))
    decreases |d|
  {
    if |d| > 0 {
      RemoveValid(d[1..], k);
      if d[0].0 != k {
        var r := Remove(d, k);
        var t := Remove(d[1..], k);
        assert r == [d[0]] + t;
        forall j | 0 <= j < |t| ensures t[j].0 != d[0].0 {
          assert t[j] in d[1..];
        }
      }
    }
  }

  /** A key is in a concatenation exactly when it is in one of the parts. */
  lemma AppendHas<K, V>(a: Dict<K, V>, b: Dict<K, V>, k: K)
    ensures Has(a + b, k) <==> Has(a, k) || Has(b, k)
  {
    var r := a + b;
    if Has(r, k) {
      var i :| 0 <= i < |r| && r[i].0 == k;
      if i >= |a| {
        assert b[i - |a|].0 == k;
      }
    }
    if Has(b, k) {
      var i :| 0 <= i < |b| && b[i].0 == k;
      assert r[i + |a|].0 == k;
    }
    if Has(a, k) {
      var i :| 0 <= i < |a| && a[i].0 == k;
      assert r[i].0 == k;
    }
  }

  /** Looking up in a concatenation: the first part wins. */
  lemma AppendGet<K, V>(a: Dict<K, V>, b: Dict<K, V>, k: K)
    ensures Has(a + b, k) <==> Has(a, k) || Has(b, k)
    ensures Get(a + b, k) == if Has(a, k) then Get(a, k) else Get(b, k)
  {
    var r := a + b;
    AppendHas(a, b, k);
    if Has(a, k) {
      var i :| 0 <= i < |a| && a[i].0 == k;
      assert r[i].0 == k;
      var f := FirstIndex(a, k);
      assert r[f] == a[f];
      assert forall j :: 0 <= j < f ==> r[j] == a[j];
    } else if Has(b, k) {
      var f := FirstIndex(b, k);
      assert r[f + |a|] == b[f];
      forall j | 0 <= j < f + |a| ensures r[j].0 != k {
        if j >= |a| {
          assert r[j] == b[j - |a|];
        } else {
          assert r[j] == a[j];
        }
      }
    }
  }
}

=== FILE: dotmatrix.dfy ===
/** Dot-matrix text of `src/panel_hopper/graphics.py`: the 5×7
    `DOT_MATRIX_FONT`, `get_text_width`, `draw_dot_matrix_char`,
    `draw_dot_matrix_text`, and the centring and scale choice of
    `create_dot_matrix_text`. Pictures are the row-major pixel grids of the
    grid split; `putpixel` outside the picture is skipped, as in the source. */
module DotMatrix {
  import opened Wrappers
  import opened Text
  import opened Dicts
  import opened Colors
  import opened Grid

  /** Glyph width in cells (`CHAR_WIDTH`). */
  const CHAR_WIDTH: nat := 5

  /** Glyph height in cells (`CHAR_HEIGHT`). */
  const CHAR_HEIGHT: nat := 7

  /** Blank cells between glyphs (`CHAR_SPACING`). */
  const CHAR_SPACING: nat := 1

  /** A glyph: `CHAR_HEIGHT` rows of `CHAR_WIDTH` cells, `#` lit. */
  type Glyph = seq<string>

  /** The letters A to I of the font. */
  const FONT_A_TO_I: Dict<char, Glyph> := [
    ('A', [" ### ", "#   #", "#   #", "#####", "#   #", "#   #", "#   #"]),
    ('B', ["#### ", "#   #", "#   #", "#### ", "#   #", "#   #", "#### "]),
    ('C', [" ### ", "#   #", "#    ", "#    ", "#    ", "#   #", " ### "]),
    ('D', ["#### ", "#   #", "#   #", "#   #", "#   #", "#   #", "#### "]),
    ('E', ["#####", "#    ", "#    ", "#### ", "#    ", "#    ", "#####"]),
    ('F', ["#####", "#    ", "#    ", "#### ", "#    ", "#    ", "#    "]),
    ('G', [" ### ", "#   #", "#    ", "# ###", "#   #", "#   #", " ### "]),
    ('H', ["#   #", "#   #", "#   #", "#####", "#   #", "#   #", "#   #"]),
    ('I', ["#####", "  #  ", "  #  ", "  #  ", "  #  ", "  #  ", "#####"])
  ]

  /** The letters J to R of the font. */
  const FONT_J_TO_R: Dict<char, Glyph> := [
    ('J', ["#####", "    #", "    #", "    #", "    #", "#   #", " ### "]),
    ('K', ["#   #", "#  # ", "# #  ", "##   ", "# #  ", "#  # ", "#   #"]),
    ('L', ["#    ", "#    ", "#    ", "#    ", "#    ", "#    ", "#####"]),
    ('M', ["#   #", "## ##", "# # #", "#   #", "#   #", "#   #", "#   #"]),
    ('N', ["#   #", "##  #", "# # #", "#  ##", "#   #", "#   #", "#   #"]),
    ('O', [" ### ", "#   #", "#   #", "#   #", "#   #", "#   #", " ### "]),
    ('P', ["#### ", "#   #", "#   #", "#### ", "#    ", "#    ", "#    "]),
    ('Q', [" ### ", "#   #", "#   #", "#   #", "# # #", "#  # ", " ## #"]),
    ('R', ["#### ", "#   #", "#   #", "#### ", "# #  ", "#  # ", "#   #"])
  ]

  /** The letters S to Z of the font. */
  const FONT_S_TO_Z: Dict<char, Glyph> := [
    ('S', [" ####", "#    ", "#    ", " ### ", "    #", "    #", "#### "]),
    ('T', ["#####", "  #  ", "  #  ", "  #  ", "  #  ", "  #  ", "  #  "]),
    ('U', ["#   #", "#   #", "#   #", "#   #", "#   #", "#   #", " ### "]),
    ('V', ["#   #", "#   #", "#   #", "#   #", "#   #", " # # ", "  #  "]),
    ('W', ["#   #", "#   #", "#   #", "#   #", "# # #", "## ##", "#   #"]),
    ('X', ["#   #", "#   #", " # # ", "  #  ", " # # ", "#   #", "#   #"]),
    ('Y', ["#   #", "#   #", " # # ", "  #  ", "  #  ", "  #  ", "  #  "]),
    ('Z', ["#####", "    #", "   # ", "  #  ", " #   ", "#    ", "#####"])
  ]

  /** The digits of the font. */
  const FONT_DIGITS: Dict<char, Glyph> := [
    ('0', [" ### ", "#   #", "#  ##", "# # #", "##  #", "#   #", " ### "]),
    ('1', ["  #  ", " ##  ", "  #  ", "  #  ", "  #  ", "  #  ", "#####"]),
    ('2', [" ### ", "#   #", "    #", "  ## ", " #   ", "#    ", "#####"]),
    ('3', [" ### ", "#   #", "    #", "  ## ", "    #", "#   #", " ### "]),
    ('4', ["#   #", "#   #", "#   #", "#####", "    #", "    #", "    #"]),
    ('5', ["#####", "#    ", "#### ", "    #", "    #", "#   #", " ### "]),
    ('6', [" ### ", "#    ", "#    ", "#### ", "#   #", "#   #", " ### "]),
    ('7', ["#####", "    #", "   # ", "  #  ", "  #  ", "  #  ", "  #  "]),
    ('8', [" ### ", "#   #", "#   #", " ### ", "#   #", "#   #", " ### "]),
    ('9', [" ### ", "#   #", "#   #", " ####", "    #", "    #", " ### "])
  ]

  /** The space and punctuation of the font. */
  const FONT_MARKS: Dict<char, Glyph> := [
    (' ', ["     ", "     ", "     ", "     ", "     ", "     ", "     "]),
    ('.', ["     ", "     ", "     ", "     ", "     ", " ##  ", " ##  "]),
    (',', ["     ", "     ", "     ", "     ", "  #  ", "  #  ", " #   "]),
    ('!', ["  #  ", "  #  ", "  #  ", "  #  ", "  #  ", "     ", "  #  "]),
    ('?', [" ### ", "#   #", "    #", "  ## ", "  #  ", "     ", "  #  "]),
    (':', ["     ", "  #  ", "  #  ", "     ", "  #  ", "  #  ", "     "]),
    ('-', ["     ", "     ", "     ", "#####", "     ", "     ", "     "]),
    ('+', ["     ", "  #  ", "  #  ", "#####", "  #  ", "  #  ", "     "])
  ]

  /** The signs and brackets of the font. */
  const FONT_SIGNS: Dict<char, Glyph> := [
    ('/', ["    #", "   # ", "  #  ", "  #  ", " #   ", "#    ", "#    "]),
    ('>', ["#    ", " #   ", "  #  ", "   # ", "  #  ", " #   ", "#    "]),
    ('<', ["    #", "   # ", "  #  ", " #   ", "  #  ", "   # ", "    #"]),
    ('=', ["     ", "     ", "#####", "     ", "#####", "     ", "     "]),
    ('_', ["     ", "     ", "     ", "     ", "     ", "     ", "#####"]),
    ('(', ["  #  ", " #   ", "#    ", "#    ", "#    ", " #   ", "  #  "]),
    (')', ["  #  ", "   # ", "    #", "    #", "    #", "   # ", "  #  "])
  ]

  /** `DOT_MATRIX_FONT`, in declaration order. Lower-case letters are not
      keys: callers upper-case first. */
  const FONT: Dict<char, Glyph> := FONT_A_TO_I + FONT_J_TO_R + FONT_S_TO_Z + FONT_DIGITS + FONT_MARKS + FONT_SIGNS

  /** A row of five cells, each `#` or a space. */
  predicate RowOk(r: string) {
    && |r| == CHAR_WIDTH
    && r[0] in "# " && r[1] in "# " && r[2] in "# " && r[3] in "# " && r[4] in "# "
  }

  /** A glyph of the promised shape: seven rows of five cells, each cell
      `#` or a space. */
  predicate WellFormed(g: Glyph) {
    && |g| == CHAR_HEIGHT
    && RowOk(g[0]) && RowOk(g[1]) && RowOk(g[2]) && RowOk(g[3]) && RowOk(g[4]) && RowOk(g[5]) && RowOk(g[6])
  }

  /** The shape spelled out cell by cell. */
  lemma WellFormedCells(g: Glyph)
    requires WellFormed(g)
    ensures |g| == CHAR_HEIGHT
    ensures forall r, c :: 0 <= r < CHAR_HEIGHT && 0 <= c < CHAR_WIDTH ==> |g[r]| == CHAR_WIDTH && g[r][c] in "# "
  {
  }

  /** Every glyph of `d` from entry `k` on is well formed. */
  predicate ShapedFrom(d: Dict<char, Glyph>, k: nat)
    decreases |d| - k
  {
    k >= |d| || (WellFormed(d[k].1) && ShapedFrom(d, k + 1))
  }

  /** `ShapedFrom(d, k)` covers every later entry. */
  lemma {:induction false} ShapedFromAll(d: Dict<char, Glyph>, k: nat, i: nat)
    requires ShapedFrom(d, k) && k <= i < |d|
    ensures WellFormed(d[i].1)
    decreases i - k
  {
    if k < i {
      ShapedFromAll(d, k + 1, i);
    }
  }

  /** Every glyph of `d` is well formed. */
  predicate AllShaped(d: Dict<char, Glyph>) {
    forall i :: 0 <= i < |d| ==> WellFormed(d[i].1)
  }

  /** A table whose entries are all checked from the start is all well formed. */
  lemma ShapedFromStart(d: Dict<char, Glyph>)
    requires ShapedFrom(d, 0)
    ensures AllShaped(d)
  {
    forall i | 0 <= i < |d| ensures WellFormed(d[i].1) {
      ShapedFromAll(d, 0, i);
    }
  }

  /** The letters A to I are well formed. */
  lemma ShapedFontAToI()
    ensures AllShaped(FONT_A_TO_I)
  {
    ShapedFontAToITail();
    assert ShapedFrom(FONT_A_TO_I, 3);
    assert ShapedFrom(FONT_A_TO_I, 2);
    assert ShapedFrom(FONT_A_TO_I, 1);
    assert ShapedFrom(FONT_A_TO_I, 0);
    ShapedFromStart(FONT_A_TO_I);
  }

  /** The second half of the same table. */
  lemma ShapedFontAToITail()
    ensures ShapedFrom(FONT_A_TO_I, 4)
  {
    assert ShapedFrom(FONT_A_TO_I, 8);
    assert ShapedFrom(FONT_A_TO_I, 7);
    assert ShapedFrom(FONT_A_TO_I, 6);
    assert ShapedFrom(FONT_A_TO_I, 5);
    assert ShapedFrom(FONT_A_TO_I, 4);
  }

  /** The letters J to R are well formed. */
  lemma ShapedFontJToR()
    ensures AllShaped(FONT_J_TO_R)
  {
    ShapedFontJToRTail();
    assert ShapedFrom(FONT_J_TO_R, 3);
    assert ShapedFrom(FONT_J_TO_R, 2);
    assert ShapedFrom(FONT_J_TO_R, 1);
    assert ShapedFrom(FONT_J_TO_R, 0);
    ShapedFromStart(FONT_J_TO_R);
  }

  /** The second half of the same table. */
  lemma ShapedFontJToRTail()
    ensures ShapedFrom(FONT_J_TO_R, 4)
  {
    assert ShapedFrom(FONT_J_TO_R, 8);
    assert ShapedFrom(FONT_J_TO_R, 7);
    assert ShapedFrom(FONT_J_TO_R, 6);
    assert ShapedFrom(FONT_J_TO_R, 5);
    assert ShapedFrom(FONT_J_TO_R, 4);
  }

  /** The letters S to Z are well formed. */
  lemma ShapedFontSToZ()
    ensures AllShaped(FONT_S_TO_Z)
  {
    ShapedFontSToZTail();
    assert ShapedFrom(FONT_S_TO_Z, 3);
    assert ShapedFrom(FONT_S_TO_Z, 2);
    assert ShapedFrom(FONT_S_TO_Z, 1);
    assert ShapedFrom(FONT_S_TO_Z, 0);
    ShapedFromStart(FONT_S_TO_Z);
  }

  /** The second half of the same table. */
  lemma ShapedFontSToZTail()
    ensures ShapedFrom(FONT_S_TO_Z, 4)
  {
    assert ShapedFrom(FONT_S_TO_Z, 7);
    assert ShapedFrom(FONT_S_TO_Z, 6);
    assert ShapedFrom(FONT_S_TO_Z, 5);
    assert ShapedFrom(FONT_S_TO_Z, 4);
  }

  /** The digits are well formed. */
  lemma ShapedFontDigits()
    ensures AllShaped(FONT_DIGITS)
  {
    ShapedFontDigitsTail();
    assert ShapedFrom(FONT_DIGITS, 4);
    assert ShapedFrom(FONT_DIGITS, 3);
    assert ShapedFrom(FONT_DIGITS, 2);
    assert ShapedFrom(FONT_DIGITS, 1);
    assert ShapedFrom(FONT_DIGITS, 0);
    ShapedFromStart(FONT_DIGITS);
  }

  /** The second half of the same table. */
  lemma ShapedFontDigitsTail()
    ensures ShapedFrom(FONT_DIGITS, 5)
  {
    assert ShapedFrom(FONT_DIGITS, 9);
    assert ShapedFrom(FONT_DIGITS, 8);
    assert ShapedFrom(FONT_DIGITS, 7);
    assert ShapedFrom(FONT_DIGITS, 6);
    assert ShapedFrom(FONT_DIGITS, 5);
  }

  /** The space and punctuation are well formed. */
  lemma ShapedFontMarks()
    ensures AllShaped(FONT_MARKS)
  {
    assert ShapedFrom(FONT_MARKS, 7);
    assert ShapedFrom(FONT_MARKS, 6);
    assert ShapedFrom(FONT_MARKS, 5);
    assert ShapedFrom(FONT_MARKS, 4);
    assert ShapedFrom(FONT_MARKS, 3);
    assert ShapedFrom(FONT_MARKS, 2);
    assert ShapedFrom(FONT_MARKS, 1);
    assert ShapedFrom(FONT_MARKS, 0);
    ShapedFromStart(FONT_MARKS);
  }

  /** The signs and brackets are well formed. */
  lemma ShapedFontSigns()
    ensures AllShaped(FONT_SIGNS)
  {
    assert ShapedFrom(FONT_SIGNS, 6);
    assert ShapedFrom(FONT_SIGNS, 5);
    assert ShapedFrom(FONT_SIGNS, 4);
    assert ShapedFrom(FONT_SIGNS, 3);
    assert ShapedFrom(FONT_SIGNS, 2);
    assert ShapedFrom(FONT_SIGNS, 1);
    assert ShapedFrom(FONT_SIGNS, 0);
    ShapedFromStart(FONT_SIGNS);
  }

  /** The font's shape invariant: every glyph is well formed. */
  lemma FontShape()
    ensures AllShaped(FONT)
  {
    ShapedFontAToI();
    ShapedFontJToR();
    ShapedFontSToZ();
    ShapedFontDigits();
    ShapedFontMarks();
    ShapedFontSigns();
  }

  /** The glyph of the first entry of `d` keyed `c`: the dictionary
      lookup, written as a plain search. */
  function Find(d: Dict<char, Glyph>, c: char): Option<Glyph>
    decreases |d|
  {
    if |d| == 0 then None else if d[0].0 == c then Some(d[0].1) else Find(d[1..], c)
  }

  /** The search agrees with the dictionary lookup. */
  lemma {:induction false} FindIsGet(d: Dict<char, Glyph>, c: char)
    ensures Find(d, c) == Get(d, c)
    decreases |d|
  {
    if |d| > 0 && d[0].0 != c {
      FindIsGet(d[1..], c);
      assert Get(d, c) == Get(d[1..], c) by {
        if Has(d, c) {
          var f := FirstIndex(d, c);
          assert d[1..][f - 1] == d[f];
          assert forall j :: 0 <= j < f - 1 ==> d[1..][j] == d[j + 1];
          assert FirstIndex(d[1..], c) == f - 1;
        } else {
          assert !Has(d[1..], c) by {
            forall j | 0 <= j < |d[1..]| ensures d[1..][j].0 != c {
              assert d[1..][j] == d[j + 1];
            }
          }
        }
      }
    }
  }

  /** The glyph `draw_dot_matrix_char` uses for `c`, after `upper()`. */
  function GlyphFor(c: char): Option<Glyph> {
    Find(FONT, UpperChar(c))
  }

  /** Every glyph the font yields is well formed. */
  lemma GlyphShape(c: char)
    requires GlyphFor(c).Some?
    ensures WellFormed(GlyphFor(c).value)
  {
    FontShape();
    FindIsGet(FONT, UpperChar(c));
    var i := FirstIndex(FONT, UpperChar(c));
    assert WellFormed(FONT[i].1);
  }

  /** Whether the font draws `c` once `upper()` is applied. */
  predicate Known(c: char) {
    GlyphFor(c).Some?
  }

  /** How many characters of `t` the font knows. */
  function KnownCount(t: string): (k: nat)
    ensures k <= |t|
    decreases |t|
  {
    if |t| == 0 then 0 else KnownCount(t[..|t| - 1]) + (if Known(t[|t| - 1]) then 1 else 0)
  }

  /** The width of `k` known glyphs with one blank between neighbours. */
  function RunWidth(k: nat): nat {
    if k == 0 then 0 else (CHAR_WIDTH + CHAR_SPACING) * k - CHAR_SPACING
  }

  /** `get_text_width(text)`: adds a glyph and a gap for each character of
      `text.upper()` the font knows, then drops the trailing gap, never going
      below zero. */
  method GetTextWidth(text: string) returns (width: int)
    ensures width == RunWidth(KnownCount(text))
    ensures width >= 0
    ensures (width == 0) <==> forall i :: 0 <= i < |text| ==> !Known(text[i])
  {
    var up := Upper(text);
    var acc := 0;
    var i := 0;
    while i < |up|
      invariant 0 <= i <= |up|
      invariant acc == (CHAR_WIDTH + CHAR_SPACING) * KnownCount(text[..i])
    {
      assert text[..i + 1][..i] == text[..i];
      if Find(FONT, up[i]).Some? {
        acc := acc + CHAR_WIDTH + CHAR_SPACING;
      }
      i := i + 1;
    }
    assert text[..|text|] == text;
    width := if acc - CHAR_SPACING > 0 then acc - CHAR_SPACING else 0;
    NoneKnown(text);
  }

  /** No known character means no count, and the other way round. */
  lemma {:induction false} NoneKnown(t: string)
    ensures (KnownCount(t) == 0) <==> forall i :: 0 <= i < |t| ==> !Known(t[i])
    decreases |t|
  {
    if |t| > 0 {
      var init := t[..|t| - 1];
      NoneKnown(init);
      assert forall i :: 0 <= i < |init| ==> init[i] == t[i];
    }
  }

  /** Cell `(row, col)` of the glyph of `ch` is lit. */
  predicate CellLit(ch: char, row: int, col: int) {
    && Known(ch)
    && 0 <= row < CHAR_HEIGHT && 0 <= col < CHAR_WIDTH
    && var g := GlyphFor(ch).value;
       row < |g| && col < |g[row]| && g[row][col] == '#'
  }

  /** Pixel `(px, py)` lies in the `s`×`s` block of cell `(row, col)` of a
      glyph drawn with its top-left corner at `(x, y)`. */
  predicate InBlock(x: int, y: int, s: int, row: int, col: int, px: int, py: int) {
    x + col * s <= px < x + col * s + s && y + row * s <= py < y + row * s + s
  }

  /** Pixel `(px, py)` is inked when `ch` is drawn at `(x, y)` with scale
      `s`: it lies in the block of a lit cell. */
  predicate Inked(ch: char, x: int, y: int, s: int, px: int, py: int) {
    && s >= 1 && px >= x && py >= y
    && InGlyph(x, y, s, px, py)
    && CellLit(ch, (py - y) / s, (px - x) / s)
  }

  /** Pixel `(px, py)` lies in the `5s`×`7s` box of a glyph at `(x, y)`,
      measured in cells. */
  predicate InGlyph(x: int, y: int, s: int, px: int, py: int)
    requires s >= 1
  {
    0 <= (py - y) / s < CHAR_HEIGHT && 0 <= (px - x) / s < CHAR_WIDTH
  }

  /** A pixel belongs to the block of exactly one cell, found by dividing
      its offset by the scale. */
  lemma BlockOf(x: int, y: int, s: int, row: int, col: int, px: int, py: int)
    requires s >= 1 && row >= 0 && col >= 0
    ensures InBlock(x, y, s, row, col, px, py) <==>
            px >= x && py >= y && (px - x) / s == col && (py - y) / s == row
  {
    DivUnique(px - x, s, col);
    DivUnique(py - y, s, row);
  }

  /** `a / s == c` exactly when `a` lies in `[c * s, c * s + s)`. */
  lemma DivUnique(a: int, s: int, c: int)
    requires s >= 1
    ensures (c * s <= a < c * s + s) <==> a / s == c
  {
    var q := a / s;
    assert q * s <= a < q * s + s;
    if c < q {
      MulLe(c + 1, q, s);
    } else if c > q {
      MulLe(q + 1, c, s);
    }
  }

  /** Multiplying by a positive scale keeps order. */
  lemma {:induction false} MulLe(a: int, b: int, s: int)
    requires a <= b && s >= 1
    ensures a * s <= b * s
    decreases b - a
  {
    if a < b {
      MulLe(a + 1, b, s);
    }
  }

  /** Pixel `(px, py)` is covered by a lit cell among the first `k` in
      drawing order (row by row, left to right). */
  predicate CoveredBefore(ch: char, x: int, y: int, s: int, k: nat, px: int, py: int) {
    k > 0 && (CoveredBefore(ch, x, y, s, k - 1, px, py)
              || (CellLit(ch, (k - 1) / CHAR_WIDTH, (k - 1) % CHAR_WIDTH)
                  && InBlock(x, y, s, (k - 1) / CHAR_WIDTH, (k - 1) % CHAR_WIDTH, px, py)))
  }

  /** After all cells, coverage is exactly being inked. */
  lemma {:induction false} CoveredIff(ch: char, x: int, y: int, s: int, k: nat, px: int, py: int)
    requires s >= 1 && k <= CHAR_WIDTH * CHAR_HEIGHT
    ensures CoveredBefore(ch, x, y, s, k, px, py) <==>
            Inked(ch, x, y, s, px, py) && ((py - y) / s) * CHAR_WIDTH + (px - x) / s < k
    decreases k
  {
    if k > 0 {
      CoveredIff(ch, x, y, s, k - 1, px, py);
      var row := (k - 1) / CHAR_WIDTH;
      var col := (k - 1) % CHAR_WIDTH;
      BlockOf(x, y, s, row, col, px, py);
      if px >= x && py >= y && (px - x) / s == col && (py - y) / s == row {
        assert ((py - y) / s) * CHAR_WIDTH + (px - x) / s == k - 1;
      }
      if Inked(ch, x, y, s, px, py) {
        var r := (py - y) / s;
        var c := (px - x) / s;
        if r * CHAR_WIDTH + c == k - 1 {
          assert r == row && c == col;
        }
      }
    }
  }

  /** `putpixel` of one `s`×`s` block at `(px, py)`, skipping pixels outside
      the picture. */
  function FillBlock(img: Image, w: nat, h: nat, px: int, py: int, s: int, color: Rgb): (r: Image)
    requires Shaped(img, w, h)
    ensures Shaped(r, w, h)
    ensures forall Y, X :: 0 <= Y < h && 0 <= X < w ==>
              r[Y][X] == if px <= X < px + s && py <= Y < py + s then color else img[Y][X]
  {
    seq(h, Y requires 0 <= Y < h =>
      seq(w, X requires 0 <= X < w =>
        if px <= X < px + s && py <= Y < py + s then color else img[Y][X]))
  }

  /** `draw_dot_matrix_char`: for a character the font knows once
      upper-cased, every pixel of the picture under a lit cell's block takes
      `color`; nothing else changes, and nothing is drawn for an unknown
      character. Either way the cursor advances `6 * scale`. */
  method DrawChar(img: Image, w: nat, h: nat, ch: char, x: int, y: int, color: Rgb, scale: int)
    returns (out: Image, advance: int)
    requires Shaped(img, w, h)
    ensures advance == (CHAR_WIDTH + CHAR_SPACING) * scale
    ensures Shaped(out, w, h)
    ensures forall Y, X :: 0 <= Y < h && 0 <= X < w ==>
              out[Y][X] == if Inked(ch, x, y, scale, X, Y) then color else img[Y][X]
  {
    advance := CHAR_WIDTH * scale + CHAR_SPACING * scale;
    out := img;
    if !Known(ch) || scale < 1 {
      return;
    }
    var k := 0;
    while k < CHAR_WIDTH * CHAR_HEIGHT
      invariant 0 <= k <= CHAR_WIDTH * CHAR_HEIGHT
      invariant Shaped(out, w, h)
      invariant Painted(img, out, w, h, ch, x, y, color, scale, k)
    {
      CoverStep(img, out, w, h, ch, x, y, color, scale, k);
      out := PaintCell(out, w, h, ch, x, y, color, scale, k);
      k := k + 1;
    }
    CoverAll(img, out, w, h, ch, x, y, color, scale);
  }

  /** `out` is `img` with exactly the blocks of the first `k` lit cells painted. */
  predicate Painted(img: Image, out: Image, w: nat, h: nat, ch: char, x: int, y: int, color: Rgb, scale: int, k: nat)
    requires Shaped(img, w, h) && Shaped(out, w, h)
  {
    forall Y, X :: 0 <= Y < h && 0 <= X < w ==>
      out[Y][X] == if CoveredBefore(ch, x, y, scale, k, X, Y) then color else img[Y][X]
  }

  /** One cell of the drawing loop extends the covered pixels by its block. */
  lemma CoverStep(img: Image, out: Image, w: nat, h: nat, ch: char, x: int, y: int,
                  color: Rgb, scale: int, k: nat)
    requires Shaped(img, w, h) && Shaped(out, w, h) && k < CHAR_WIDTH * CHAR_HEIGHT
    requires Painted(img, out, w, h, ch, x, y, color, scale, k)
    ensures Painted(img, PaintCell(out, w, h, ch, x, y, color, scale, k), w, h, ch, x, y, color, scale, k + 1)
  {
  }

  /** The body of the drawing loop for cell `k`: paints its block when the
      cell is lit. */
  function PaintCell(out: Image, w: nat, h: nat, ch: char, x: int, y: int, color: Rgb, scale: int, k: nat): (r: Image)
    requires Shaped(out, w, h)
    ensures Shaped(r, w, h)
  {
    var row := k / CHAR_WIDTH;
    var col := k % CHAR_WIDTH;
    if CellLit(ch, row, col) then FillBlock(out, w, h, x + col * scale, y + row * scale, scale, color) else out
  }

  /** Once every cell is done, the covered pixels are the inked ones. */
  lemma CoverAll(img: Image, out: Image, w: nat, h: nat, ch: char, x: int, y: int, color: Rgb, scale: int)
    requires Shaped(img, w, h) && Shaped(out, w, h) && scale >= 1
    requires Painted(img, out, w, h, ch, x, y, color, scale, CHAR_WIDTH * CHAR_HEIGHT)
    ensures forall Y, X :: 0 <= Y < h && 0 <= X < w ==>
              out[Y][X] == if Inked(ch, x, y, scale, X, Y) then color else img[Y][X]
  {
    forall Y, X | 0 <= Y < h && 0 <= X < w
      ensures out[Y][X] == if Inked(ch, x, y, scale, X, Y) then color else img[Y][X]
    {
      CoveredIff(ch, x, y, scale, CHAR_WIDTH * CHAR_HEIGHT, X, Y);
      if Inked(ch, x, y, scale, X, Y) {
        assert (Y - y) / scale < CHAR_HEIGHT && (X - x) / scale < CHAR_WIDTH;
      }
    }
  }

  /** Pixel `(X, Y)` is inked by one of the characters of `t` drawn from
      cursor `x0` on, each one `6 * s` further right. */
  predicate LitBy(t: string, x0: int, y: int, s: int, X: int, Y: int)
    decreases |t|
  {
    |t| > 0 && (LitBy(t[..|t| - 1], x0, y, s, X, Y)
                || Inked(t[|t| - 1], x0 + (CHAR_WIDTH + CHAR_SPACING) * s * (|t| - 1), y, s, X, Y))
  }

  /** Where `draw_dot_matrix_text` starts drawing: shifted left by half the
      text width and up by half the glyph height when centring. */
  function Origin(textWidth: int, x: int, y: int, scale: int, center: bool): (int, int) {
    if center then (x - (textWidth * scale) / 2, y - (CHAR_HEIGHT * scale) / 2) else (x, y)
  }

  /** `draw_dot_matrix_text`: resolves the colour, measures the text,
      centres if asked, then draws the characters left to right, each one
      `6 * scale` after the previous, unknown characters included. A colour
      that does not resolve is the failure; otherwise exactly the pixels the
      characters ink take the colour. */
  method DrawText(img: Image, w: nat, h: nat, text: string, x: int, y: int, color: ColorArg,
                  scale: int, center: bool) returns (r: Result<Image, string>)
    requires Shaped(img, w, h)
    ensures r.Failure? <==> GetColor(color).Failure?
    ensures r.Success? ==> Shaped(r.value, w, h)
    ensures r.Success? ==>
              var o := Origin(RunWidth(KnownCount(text)), x, y, scale, center);
              forall Y, X :: 0 <= Y < h && 0 <= X < w ==>
                r.value[Y][X] == if LitBy(text, o.0, o.1, scale, X, Y) then GetColor(color).value else img[Y][X]
  {
    var fg :- GetColor(color);
    var textWidth := GetTextWidth(text);
    var o := Origin(textWidth, x, y, scale, center);
    var out := DrawRun(img, w, h, text, o.0, o.1, fg, scale);
    r := Success(out);
  }

  /** The drawing loop of `draw_dot_matrix_text`, from the resolved colour
      and origin: the characters left to right, each `6 * scale` after the
      previous. */
  method DrawRun(img: Image, w: nat, h: nat, text: string, x0: int, y0: int, fg: Rgb, scale: int)
    returns (out: Image)
    requires Shaped(img, w, h)
    ensures Shaped(out, w, h)
    ensures forall Y, X :: 0 <= Y < h && 0 <= X < w ==>
              out[Y][X] == if LitBy(text, x0, y0, scale, X, Y) then fg else img[Y][X]
  {
    var cursor := x0;
    out := img;
    var i := 0;
    while i < |text|
      invariant 0 <= i <= |text|
      invariant cursor == x0 + (CHAR_WIDTH + CHAR_SPACING) * scale * i
      invariant Shaped(out, w, h)
      invariant forall Y, X :: 0 <= Y < h && 0 <= X < w ==>
                  out[Y][X] == if LitBy(text[..i], x0, y0, scale, X, Y) then fg else img[Y][X]
    {
      var next, advance := DrawChar(out, w, h, text[i], cursor, y0, fg, scale);
      assert text[..i + 1][..i] == text[..i];
      out := next;
      cursor := cursor + advance;
      i := i + 1;
    }
    assert text[..|text|] == text;
  }

  /** An offset whose quotient by `s` is below `n` is below `n * s`. */
  lemma BelowBlocks(a: int, s: int, n: int)
    requires s >= 1 && a >= 0 && a / s < n
    ensures a < n * s
  {
    var q := a / s;
    assert a < q * s + s;
    MulLe(q + 1, n, s);
  }

  /** A pixel a character inks lies inside its glyph's `5s`×`7s` box. */
  lemma InkedInBox(ch: char, cx: int, y: int, s: int, X: int, Y: int)
    requires Inked(ch, cx, y, s, X, Y)
    ensures cx <= X < cx + CHAR_WIDTH * s && y <= Y < y + CHAR_HEIGHT * s
  {
    assert InGlyph(cx, y, s, X, Y);
    BelowBlocks(X - cx, s, CHAR_WIDTH);
    BelowBlocks(Y - y, s, CHAR_HEIGHT);
  }

  /** The last of `n` glyphs starts right of the first and ends where the
      measured width ends. */
  lemma LastGlyphSpan(x0: int, s: int, n: int)
    requires s >= 1 && n >= 1
    ensures x0 <= x0 + (CHAR_WIDTH + CHAR_SPACING) * s * (n - 1)
    ensures x0 + (CHAR_WIDTH + CHAR_SPACING) * s * (n - 1) + CHAR_WIDTH * s == x0 + RunWidth(n) * s
    ensures RunWidth(n - 1) * s <= RunWidth(n) * s
  {
    MulLe(0, n - 1, (CHAR_WIDTH + CHAR_SPACING) * s);
    MulLe(RunWidth(n - 1), RunWidth(n), s);
    assert RunWidth(n) == (CHAR_WIDTH + CHAR_SPACING) * (n - 1) + CHAR_WIDTH;
  }

  /** When the font knows every character, the inked pixels of a line lie
      within its measured width and the glyph height. */
  lemma {:induction false} LitWithin(t: string, x0: int, y: int, s: int, X: int, Y: int)
    requires s >= 1 && forall i :: 0 <= i < |t| ==> Known(t[i])
    requires LitBy(t, x0, y, s, X, Y)
    ensures x0 <= X < x0 + RunWidth(|t|) * s && y <= Y < y + CHAR_HEIGHT * s
    decreases |t|
  {
    var n := |t|;
    var init := t[..n - 1];
    LastGlyphSpan(x0, s, n);
    if LitBy(init, x0, y, s, X, Y) {
      LitWithin(init, x0, y, s, X, Y);
    } else {
      InkedInBox(t[n - 1], x0 + (CHAR_WIDTH + CHAR_SPACING) * s * (n - 1), y, s, X, Y);
    }
  }

  /** Known characters only: the count is the length. */
  lemma {:induction false} AllKnownCount(t: string)
    requires forall i :: 0 <= i < |t| ==> Known(t[i])
    ensures KnownCount(t) == |t|
    decreases |t|
  {
    if |t| > 0 {
      AllKnownCount(t[..|t| - 1]);
    }
  }

  /** Scale `s` leaves a pixel of room on every side. */
  predicate Fits(textWidth: int, s: int, w: int, h: int) {
    textWidth * s <= w - 2 && CHAR_HEIGHT * s <= h - 2
  }

  /** Reference for the scale choice: the first of 4, 3, 2 that fits, else 1. */
  function AutoScale(textWidth: int, w: int, h: int, autoScale: bool): int {
    if !autoScale then 1
    else if Fits(textWidth, 4, w, h) then 4
    else if Fits(textWidth, 3, w, h) then 3
    else if Fits(textWidth, 2, w, h) then 2
    else 1
  }

  /** The scale choice of `create_dot_matrix_text`: with auto-scaling, the
      largest of 4, 3, 2, 1 that fits, and 1 when none does; without it, 1. */
  method ChooseScale(textWidth: int, w: int, h: int, autoScale: bool) returns (scale: int)
    ensures scale == AutoScale(textWidth, w, h, autoScale)
    ensures 1 <= scale <= 4
    ensures !autoScale ==> scale == 1
    ensures autoScale ==> forall t :: scale < t <= 4 ==> !Fits(textWidth, t, w, h)
    ensures autoScale ==> Fits(textWidth, scale, w, h) || forall t :: 1 <= t <= 4 ==> !Fits(textWidth, t, w, h)
  {
    scale := 1;
    if autoScale {
      var s := 4;
      while s > 0
        invariant 0 <= s <= 4
        invariant forall t :: s < t <= 4 ==> !Fits(textWidth, t, w, h)
      {
        if Fits(textWidth, s, w, h) {
          scale := s;
          return;
        }
        s := s - 1;
      }
    }
  }

  /** Centring a block that fits keeps a pixel of room on both sides. */
  lemma CenteredWithMargin(size: int, extent: int)
    requires 0 <= size <= extent - 2
    ensures 1 <= extent / 2 - size / 2
    ensures extent / 2 - size / 2 + size <= extent - 1
  {
  }

  /** A `w`×`h` picture filled with `bg` (`Image.new`). */
  function Blank(w: nat, h: nat, bg: Rgb): (img: Image)
    ensures Shaped(img, w, h)
    ensures forall Y, X :: 0 <= Y < h && 0 <= X < w ==> img[Y][X] == bg
  {
    seq(h, Y requires 0 <= Y < h => seq(w, X requires 0 <= X < w => bg))
  }

  /** `create_dot_matrix_text`: a `w`×`h` picture in the background colour
      with the text drawn centred at `(w // 2, h // 2)` at the chosen scale.
      It fails exactly when a colour does not resolve, uses only the two
      colours, and when the font knows every character and some scale fits,
      every inked pixel keeps a one-pixel margin inside the picture. */
  method CreateDotMatrixText(text: string, w: nat, h: nat, color: ColorArg, bg: ColorArg, autoScale: bool)
    returns (r: Result<Image, string>)
    ensures r.Success? <==> GetColor(bg).Success? && GetColor(color).Success?
    ensures r.Success? ==> Shaped(r.value, w, h)
    ensures r.Success? ==> forall Y, X :: 0 <= Y < h && 0 <= X < w ==>
              r.value[Y][X] == GetColor(color).value || r.value[Y][X] == GetColor(bg).value
    ensures r.Success? ==>
              var tw := RunWidth(KnownCount(text));
              var s := AutoScale(tw, w, h, autoScale);
              var o := Origin(tw, w / 2, h / 2, s, true);
              forall Y, X :: 0 <= Y < h && 0 <= X < w ==>
                r.value[Y][X] == if LitBy(text, o.0, o.1, s, X, Y) then GetColor(color).value
                                 else GetColor(bg).value
    ensures r.Success? && autoScale && (forall i :: 0 <= i < |text| ==> Known(text[i]))
            && (exists t :: 1 <= t <= 4 && Fits(RunWidth(|text|), t, w, h)) ==>
              forall Y, X :: 0 <= Y < h && 0 <= X < w && (X == 0 || Y == 0 || X == w - 1 || Y == h - 1) ==>
                r.value[Y][X] == GetColor(bg).value
  {
    var back :- GetColor(bg);
    var fore :- GetColor(color);
    var img := Blank(w, h, back);
    var textWidth := GetTextWidth(text);
    var scale := ChooseScale(textWidth, w, h, autoScale);
    r := DrawText(img, w, h, text, w / 2, h / 2, Triple(fore), scale, true);
    if r.Success? && autoScale && (forall i :: 0 <= i < |text| ==> Known(text[i]))
       && (exists t :: 1 <= t <= 4 && Fits(RunWidth(|text|), t, w, h)) {
      AllKnownCount(text);
      assert Fits(textWidth, scale, w, h);
      forall Y, X | 0 <= Y < h && 0 <= X < w && (X == 0 || Y == 0 || X == w - 1 || Y == h - 1)
        ensures r.value[Y][X] == back
      {
        NoInkOnBorder(text, scale, w, h, X, Y);
      }
    }
  }

  /** With every character known and a fitting scale, the centred text
      inks nothing on the border of the picture. */
  lemma NoInkOnBorder(text: string, scale: int, w: nat, h: nat, X: int, Y: int)
    requires 1 <= scale && forall i :: 0 <= i < |text| ==> Known(text[i])
    requires Fits(RunWidth(|text|), scale, w, h)
    requires X == 0 || Y == 0 || X == w - 1 || Y == h - 1
    ensures var o := Origin(RunWidth(|text|), w / 2, h / 2, scale, true);
            !LitBy(text, o.0, o.1, scale, X, Y)
  {
    var tw := RunWidth(|text|);
    var o := Origin(tw, w / 2, h / 2, scale, true);
    MulLe(0, tw, scale);
    CenteredWithMargin(tw * scale, w);
    CenteredWithMargin(CHAR_HEIGHT * scale, h);
    if LitBy(text, o.0, o.1, scale, X, Y) {
      LitWithin(text, o.0, o.1, scale, X, Y);
    }
  }
}

=== FILE: grid.dfy ===
/** The 2×2 grid split of `src/panel_hopper/graphics.py`: `split_for_grid`
    cuts a 64×64 picture into the four 32×32 panel pictures named by
    `GRID_POSITIONS`. Pictures are rows of RGB pixels; the resampling that
    brings another size to 64×64 is a parameter. */
module Grid {
  import opened Wrappers
  import opened Dicts
  import opened Positions
  import opened Colors

  /** A picture: `img[y][x]` is the pixel in column `x` of row `y`. */
  type Image = seq<seq<Rgb>>

  /** The colour a crop gives to pixels outside the source picture. */
  const BLACK: Rgb := (0, 0, 0)

  /** `img` is `w` pixels wide and `h` high. */
  predicate Shaped(img: Image, w: nat, h: nat) {
    |img| == h && forall y :: 0 <= y < h ==> |img[y]| == w
  }

  /** The pixel at `(x, y)`, black outside the picture. */
  function PixelAt(img: Image, x: int, y: int): Rgb {
    if 0 <= y < |img| && 0 <= x < |img[y]| then img[y][x] else BLACK
  }

  /** `img.crop((left, top, left + w, top + h))`: a `w`×`h` picture whose
      pixel `(x, y)` is the source's pixel `(left + x, top + y)`. */
  function Crop(img: Image, left: int, top: int, w: nat, h: nat): (r: Image)
    ensures Shaped(r, w, h)
    ensures forall y, x :: 0 <= y < h && 0 <= x < w ==> r[y][x] == PixelAt(img, left + x, top + y)
  {
    seq(h, y requires 0 <= y < h => seq(w, x requires 0 <= x < w => PixelAt(img, left + x, top + y)))
  }

  /** The quadrant of position `p`. */
  function Quadrant(img: Image, p: Position): (r: Image)
    ensures Shaped(r, PANEL_SIZE, PANEL_SIZE)
  {
    Crop(img, Offset(p).0, Offset(p).1, PANEL_SIZE, PANEL_SIZE)
  }

  /** `split_for_grid(img)`: a picture that is not 64×64 is first brought to
      that size by `resize`; the result maps the four positions, in
      `GRID_POSITIONS` order, to their 32×32 quadrants, and a pixel of a
      quadrant is the pixel of the 64×64 picture shifted by the position's
      offset. */
  function SplitForGrid(img: Image, resize: Image -> Image): (parts: Dict<Position, Image>)
    ensures Keys(parts) == GRID_ORDER
    ensures forall i :: 0 <= i < |parts| ==> Shaped(parts[i].1, PANEL_SIZE, PANEL_SIZE)
    ensures Shaped(img, GRID_SIZE, GRID_SIZE) ==>
              forall i, y, x :: 0 <= i < |parts| && 0 <= y < PANEL_SIZE && 0 <= x < PANEL_SIZE ==>
                PixelAt(parts[i].1, x, y) == img[Offset(parts[i].0).1 + y][Offset(parts[i].0).0 + x]
  {
    var src := if Shaped(img, GRID_SIZE, GRID_SIZE) then img else resize(img);
    [(LinksBoven, Quadrant(src, LinksBoven)),
     (RechtsBoven, Quadrant(src, RechtsBoven)),
     (LinksOnder, Quadrant(src, LinksOnder)),
     (RechtsOnder, Quadrant(src, RechtsOnder))]
  }

  /** The position whose quadrant holds grid pixel `(x, y)`. */
  function PositionAt(x: nat, y: nat): (p: Position)
    requires x < GRID_SIZE && y < GRID_SIZE
    ensures Offset(p).0 <= x < Offset(p).0 + PANEL_SIZE
    ensures Offset(p).1 <= y < Offset(p).1 + PANEL_SIZE
  {
    if y < PANEL_SIZE then (if x < PANEL_SIZE then LinksBoven else RechtsBoven)
    else (if x < PANEL_SIZE then LinksOnder else RechtsOnder)
  }

  /** Puts four panel pictures back together into one 64×64 picture; a
      missing position shows black. */
  function Assemble(parts: Dict<Position, Image>): (img: Image)
    ensures Shaped(img, GRID_SIZE, GRID_SIZE)
  {
    seq(GRID_SIZE, y requires 0 <= y < GRID_SIZE =>
      seq(GRID_SIZE, x requires 0 <= x < GRID_SIZE =>
        var p := PositionAt(x, y);
        match Get(parts, p)
        case Some(part) => PixelAt(part, x - Offset(p).0, y - Offset(p).1)
        case None => BLACK))
  }

  /** Each position's entry of the split is that position's quadrant. */
  lemma SplitGet(img: Image, resize: Image -> Image, p: Position)
    ensures Get(SplitForGrid(img, resize), p)
            == Some(Quadrant(if Shaped(img, GRID_SIZE, GRID_SIZE) then img else resize(img), p))
  {
    var parts := SplitForGrid(img, resize);
    match p
    case LinksBoven =>
      assert parts[0].0 == p;
    case RechtsBoven =>
      assert parts[0].0 != p && parts[1].0 == p;
    case LinksOnder =>
      assert parts[0].0 != p && parts[1].0 != p && parts[2].0 == p;
    case RechtsOnder =>
      assert parts[0].0 != p && parts[1].0 != p && parts[2].0 != p && parts[3].0 == p;
  }

  /** Round trip: splitting a 64×64 picture and putting the parts back
      together gives the picture again, so the split loses and duplicates
      nothing. */
  lemma SplitThenAssemble(img: Image, resize: Image -> Image)
    requires Shaped(img, GRID_SIZE, GRID_SIZE)
    ensures Assemble(SplitForGrid(img, resize)) == img
  {
    var parts := SplitForGrid(img, resize);
    var a := Assemble(parts);
    forall y | 0 <= y < GRID_SIZE ensures a[y] == img[y] {
      forall x | 0 <= x < GRID_SIZE ensures a[y][x] == img[y][x] {
        var p := PositionAt(x, y);
        SplitGet(img, resize, p);
      }
    }
  }
}

=== FILE: gridsend.dfy ===
/** The grid send loop shared by `send_to_grid` in `web/server.py` and
    `send_parts` in `cli/send_grid.py`: the four positions are visited in
    the fixed order bottom-right, bottom-left, top-right, top-left; a
    position without a configured panel is skipped with a "not configured"
    result, every other one gets its quadrant through `send_to_panel` of a
    default `PanelController`, and the successes are counted. */
module GridSend {
  import opened Wrappers
  import opened Dicts
  import opened Positions
  import opened Links
  import opened Controller
  import opened Registry
  import opened Grid

  /** One entry of the result list: `{"position", "success", "message"}`. */
  datatype GridResult = GridResult(position: Position, success: bool, message: string)

  /** `send_to_panel` of a default `PanelController` without a progress
      callback, which is what both grid senders use. */
  function DefaultSender(oracle: Oracle): (send: Sender)
    ensures Behaves(send)
  {
    PanelSender(DEFAULT_SETTINGS, false, oracle)
  }

  /** The message of a skipped position. */
  const NOT_CONFIGURED: string := "not configured"

  /** Number of successful results, counted from the front. */
  function Successes(rs: seq<GridResult>): nat
    decreases |rs|
  {
    if |rs| == 0 then 0 else (if rs[0].success then 1 else 0) + Successes(rs[1..])
  }

  /** Counting from the front agrees with counting from the back. */
  lemma {:induction false} SuccessesSnoc(rs: seq<GridResult>, x: GridResult)
    ensures Successes(rs + [x]) == Successes(rs) + (if x.success then 1 else 0)
    decreases |rs|
  {
    if |rs| > 0 {
      assert (rs + [x])[1..] == rs[1..] + [x];
      SuccessesSnoc(rs[1..], x);
    }
  }

  /** The loop over `order`: the pool world after it, the results in visiting
      order, and the success count kept alongside as the source does. */
  function SendInOrder(w: World, grid: Dict<Position, Panel>, frames: Position -> Payload,
                       order: seq<Position>, send: Sender)
    : (r: (World, seq<GridResult>, nat))
    requires Behaves(send)
    ensures |r.1| == |order|
    ensures forall i :: 0 <= i < |order| ==> r.1[i].position == order[i]
    ensures r.2 == Successes(r.1) && r.2 <= |order|
    ensures PoolOk(w.pool) ==> PoolOk(r.0.pool)
    ensures w.trace <= r.0.trace
    decreases |order|
  {
    if |order| == 0 then (w, [], 0)
    else
      var n := |order| - 1;
      var prev := SendInOrder(w, grid, frames, order[..n], send);
      var step := Visit(prev.0, grid, frames, order[n], send);
      SuccessesSnoc(prev.1, step.1);
      PositionsSnoc(prev.1, step.1, order);
      (step.0, prev.1 + [step.1], if step.1.success then prev.2 + 1 else prev.2)
  }

  /** Results that follow `order` up to its last position, plus a result
      for that position, follow all of `order`. */
  lemma PositionsSnoc(rs: seq<GridResult>, x: GridResult, order: seq<Position>)
    requires |order| == |rs| + 1 && x.position == order[|rs|]
    requires forall i :: 0 <= i < |rs| ==> rs[i].position == order[..|rs|][i]
    ensures forall i :: 0 <= i < |order| ==> (rs + [x])[i].position == order[i]
  {
    assert forall i :: 0 <= i < |rs| ==> (rs + [x])[i] == rs[i] && order[..|rs|][i] == order[i];
  }

  /** One turn of the loop: position `p` is skipped when it has no panel,
      otherwise its frame is sent to its panel under the position's name. */
  function Visit(w: World, grid: Dict<Position, Panel>, frames: Position -> Payload,
                 p: Position, send: Sender): (r: (World, GridResult))
    requires Behaves(send)
    ensures r.1.position == p
    ensures PoolOk(w.pool) ==> PoolOk(r.0.pool)
    ensures w.trace <= r.0.trace
  {
    if !Has(grid, p) then (w, GridResult(p, false, NOT_CONFIGURED))
    else
      var (w2, rep) := send(w, Get(grid, p).value.mac, frames(p), Name(p));
      (w2, GridResult(p, rep.success, rep.message))
  }

  /** A turn for a position without a panel changes nothing and reads "not
      configured"; a successful turn reads "OK". */
  lemma VisitReads(w: World, grid: Dict<Position, Panel>, frames: Position -> Payload,
                   p: Position, send: Sender)
    requires Behaves(send)
    ensures var r := Visit(w, grid, frames, p, send);
            && (!Has(grid, p) ==> r == (w, GridResult(p, false, NOT_CONFIGURED)))
            && (r.1.success ==> r.1.message == "OK")
  {
  }

  /** A position without a panel reads "not configured", and a position
      whose send succeeded reads "OK". */
  lemma {:induction false} ResultMessages(w: World, grid: Dict<Position, Panel>, frames: Position -> Payload,
                                          order: seq<Position>, send: Sender, i: nat)
    requires Behaves(send) && i < |order|
    ensures var rs := SendInOrder(w, grid, frames, order, send).1;
            && (!Has(grid, order[i]) ==> rs[i] == GridResult(order[i], false, NOT_CONFIGURED))
            && (rs[i].success ==> rs[i].message == "OK")
    decreases |order|
  {
    var n := |order| - 1;
    var init := order[..n];
    assert order == init + [order[n]];
    SendInOrderSnoc(w, grid, frames, init, order[n], send);
    if i < n {
      ResultMessages(w, grid, frames, init, send, i);
    } else {
      VisitReads(SendInOrder(w, grid, frames, init, send).0, grid, frames, order[n], send);
    }
  }

  /** The positions of `order` that have a panel, in order. */
  function Configured(grid: Dict<Position, Panel>, order: seq<Position>): (r: seq<Position>)
    ensures |r| <= |order|
    ensures forall i :: 0 <= i < |r| ==> Has(grid, r[i])
    decreases |order|
  {
    if |order| == 0 then []
    else Configured(grid, order[..|order| - 1]) + (if Has(grid, order[|order| - 1]) then [order[|order| - 1]] else [])
  }

  /** `Configured` keeps exactly the positions of the order that have a
      panel: none is lost and none is invented. */
  lemma {:induction false} ConfiguredMembers(grid: Dict<Position, Panel>, order: seq<Position>)
    ensures forall p :: p in Configured(grid, order) <==> p in order && Has(grid, p)
    decreases |order|
  {
    if |order| > 0 {
      var init := order[..|order| - 1];
      ConfiguredMembers(grid, init);
      assert order == init + [order[|order| - 1]];
    }
  }

  /** One more position costs one more turn of the loop. */
  lemma SendInOrderSnoc(w: World, grid: Dict<Position, Panel>, frames: Position -> Payload,
                        order: seq<Position>, p: Position, send: Sender)
    requires Behaves(send)
    ensures var before := SendInOrder(w, grid, frames, order, send);
            var step := Visit(before.0, grid, frames, p, send);
            && SendInOrder(w, grid, frames, order + [p], send).0 == step.0
            && SendInOrder(w, grid, frames, order + [p], send).1 == before.1 + [step.1]
  {
    assert (order + [p])[..|order|] == order;
  }

  /** Skipping costs nothing: the loop leaves the radio and the pool exactly
      as a loop over the configured positions alone would, so a missing
      position causes no send call at all. */
  lemma {:induction false} SkippedAreSilent(w: World, grid: Dict<Position, Panel>, frames: Position -> Payload,
                                            order: seq<Position>, send: Sender)
    requires Behaves(send)
    ensures SendInOrder(w, grid, frames, order, send).0
            == SendInOrder(w, grid, frames, Configured(grid, order), send).0
    decreases |order|
  {
    if |order| > 0 {
      var n := |order| - 1;
      var init := order[..n];
      SkippedAreSilent(w, grid, frames, init, send);
      assert order == init + [order[n]];
      SilentStep(w, grid, frames, init, order[n], send);
    }
  }

  /** The induction step of `SkippedAreSilent`: one more position. */
  lemma SilentStep(w: World, grid: Dict<Position, Panel>, frames: Position -> Payload,
                   init: seq<Position>, p: Position, send: Sender)
    requires Behaves(send)
    requires SendInOrder(w, grid, frames, init, send).0
             == SendInOrder(w, grid, frames, Configured(grid, init), send).0
    ensures SendInOrder(w, grid, frames, init + [p], send).0
            == SendInOrder(w, grid, frames, Configured(grid, init + [p]), send).0
  {
    var c := Configured(grid, init);
    assert (init + [p])[..|init|] == init;
    SendInOrderSnoc(w, grid, frames, init, p, send);
    if Has(grid, p) {
      assert Configured(grid, init + [p]) == c + [p];
      SendInOrderSnoc(w, grid, frames, c, p, send);
    } else {
      assert Configured(grid, init + [p]) == c;
      VisitReads(SendInOrder(w, grid, frames, init, send).0, grid, frames, p, send);
    }
  }


  /** The targets `send_to_multiple` would get for the same visits: each
      position's panel MAC, the position's name, the position's frame. */
  function Targets(grid: Dict<Position, Panel>, frames: Position -> Payload,
                   order: seq<Position>): (ts: seq<Target>)
    requires forall i :: 0 <= i < |order| ==> Has(grid, order[i])
    ensures |ts| == |order|
  {
    seq(|order|, i requires 0 <= i < |order| =>
      Target(Get(grid, order[i]).value.mac, Name(order[i]), frames(order[i])))
  }

  /** With every visited position configured, the grid loop leaves the
      world exactly as the controller's fan-out over those panels does: one
      call per position, in order, for the position's panel, frame and name. */
  lemma {:induction false} ConfiguredIsFanOut(w: World, grid: Dict<Position, Panel>, frames: Position -> Payload,
                                              order: seq<Position>, send: Sender)
    requires Behaves(send)
    requires forall i :: 0 <= i < |order| ==> Has(grid, order[i])
    ensures SendInOrder(w, grid, frames, order, send).0 == FanOut(w, Targets(grid, frames, order), send).0
    decreases |order|
  {
    if |order| > 0 {
      var n := |order| - 1;
      var init := order[..n];
      var p := order[n];
      assert order == init + [p];
      ConfiguredIsFanOut(w, grid, frames, init, send);
      WorldStep(w, grid, frames, init, p, send);
    }
  }

  /** The induction step of `ConfiguredIsFanOut`: from the same world, one
      more configured position and one more target end in the same world. */
  lemma WorldStep(w: World, grid: Dict<Position, Panel>, frames: Position -> Payload,
                  init: seq<Position>, p: Position, send: Sender)
    requires Behaves(send) && Has(grid, p)
    requires forall i :: 0 <= i < |init| ==> Has(grid, init[i])
    requires SendInOrder(w, grid, frames, init, send).0 == FanOut(w, Targets(grid, frames, init), send).0
    ensures forall i :: 0 <= i < |init + [p]| ==> Has(grid, (init + [p])[i])
    ensures SendInOrder(w, grid, frames, init + [p], send).0
            == FanOut(w, Targets(grid, frames, init + [p]), send).0
  {
    var order := init + [p];
    var t := Target(Get(grid, p).value.mac, Name(p), frames(p));
    assert order[..|init|] == init && order[|init|] == p;
    TargetsSnoc(grid, frames, order);
    SendInOrderSnoc(w, grid, frames, init, p, send);
    FanOutSnoc(w, Targets(grid, frames, init), t, send);
    VisitIsSend(SendInOrder(w, grid, frames, init, send).0, grid, frames, p, send);
  }

  /** The induction step of `ConfiguredCount`: one more configured position
      is one more visit on the loop's side and one more target on the
      fan-out's side, both sending the same frame to the same panel from
      the same world, so both counts grow by the same amount. */
  lemma FanStep(w: World, grid: Dict<Position, Panel>, frames: Position -> Payload,
                init: seq<Position>, p: Position, send: Sender)
    requires Behaves(send) && Has(grid, p)
    requires forall i :: 0 <= i < |init| ==> Has(grid, init[i])
    requires SendInOrder(w, grid, frames, init, send).0 == FanOut(w, Targets(grid, frames, init), send).0
    ensures forall i :: 0 <= i < |init + [p]| ==> Has(grid, (init + [p])[i])
    ensures SendInOrder(w, grid, frames, init + [p], send).2 - SendInOrder(w, grid, frames, init, send).2
            == Delivered(FanOut(w, Targets(grid, frames, init + [p]), send).1)
               - Delivered(FanOut(w, Targets(grid, frames, init), send).1)
  {
    var order := init + [p];
    var t := Target(Get(grid, p).value.mac, Name(p), frames(p));
    assert order[..|init|] == init && order[|init|] == p;
    TargetsSnoc(grid, frames, order);
    LoopCountSnoc(w, grid, frames, init, p, send);
    FanCountSnoc(w, Targets(grid, frames, init), t, send);
    VisitIsSend(SendInOrder(w, grid, frames, init, send).0, grid, frames, p, send);
  }

  /** One more position adds one to the loop's count exactly when its
      visit succeeds. */
  lemma LoopCountSnoc(w: World, grid: Dict<Position, Panel>, frames: Position -> Payload,
                      init: seq<Position>, p: Position, send: Sender)
    requires Behaves(send)
    ensures var before := SendInOrder(w, grid, frames, init, send);
            SendInOrder(w, grid, frames, init + [p], send).2
            == before.2 + (if Visit(before.0, grid, frames, p, send).1.success then 1 else 0)
  {
    assert (init + [p])[..|init|] == init;
  }

  /** One more target adds one to the fan-out's count exactly when its send
      succeeds. */
  lemma FanCountSnoc(w: World, targets: seq<Target>, t: Target, send: Sender)
    requires Behaves(send)
    ensures var before := FanOut(w, targets, send);
            Delivered(FanOut(w, targets + [t], send).1)
            == Delivered(before.1) + (if send(before.0, t.mac, t.data, t.name).1.success then 1 else 0)
  {
    var before := FanOut(w, targets, send);
    var sent := send(before.0, t.mac, t.data, t.name);
    FanOutSnoc(w, targets, t, send);
    DeliveredSnoc(before.1, Delivery(t.mac, sent.1.success, sent.1.message));
  }

  /** The visit of a configured position is one send of its frame to its
      panel under its name. */
  lemma VisitIsSend(w: World, grid: Dict<Position, Panel>, frames: Position -> Payload,
                    p: Position, send: Sender)
    requires Behaves(send) && Has(grid, p)
    ensures var sent := send(w, Get(grid, p).value.mac, frames(p), Name(p));
            Visit(w, grid, frames, p, send).0 == sent.0 && Visit(w, grid, frames, p, send).1.success == sent.1.success
  {
  }

  /** The targets of a longer order are those of the shorter one plus the
      last position's target. */
  lemma TargetsSnoc(grid: Dict<Position, Panel>, frames: Position -> Payload, order: seq<Position>)
    requires forall i :: 0 <= i < |order| ==> Has(grid, order[i])
    requires |order| > 0
    ensures var p := order[|order| - 1];
            Targets(grid, frames, order)
            == Targets(grid, frames, order[..|order| - 1]) + [Target(Get(grid, p).value.mac, Name(p), frames(p))]
  {
  }

  /** Number of successful deliveries, counted from the front. */
  function Delivered(ds: seq<Delivery>): nat
    decreases |ds|
  {
    if |ds| == 0 then 0 else (if ds[0].success then 1 else 0) + Delivered(ds[1..])
  }

  /** Counting deliveries from the front agrees with counting from the back. */
  lemma {:induction false} DeliveredSnoc(ds: seq<Delivery>, x: Delivery)
    ensures Delivered(ds + [x]) == Delivered(ds) + (if x.success then 1 else 0)
    decreases |ds|
  {
    if |ds| > 0 {
      assert (ds + [x])[1..] == ds[1..] + [x];
      DeliveredSnoc(ds[1..], x);
    }
  }

  /** Over configured positions the loop's success count is the number of
      successful deliveries of the fan-out over their targets. */
  lemma {:induction false} ConfiguredCount(w: World, grid: Dict<Position, Panel>, frames: Position -> Payload,
                                           order: seq<Position>, send: Sender)
    requires Behaves(send)
    requires forall i :: 0 <= i < |order| ==> Has(grid, order[i])
    ensures SendInOrder(w, grid, frames, order, send).2 == Delivered(FanOut(w, Targets(grid, frames, order), send).1)
    decreases |order|
  {
    if |order| > 0 {
      var n := |order| - 1;
      var init := order[..n];
      var p := order[n];
      ConfiguredCount(w, grid, frames, init, send);
      ConfiguredIsFanOut(w, grid, frames, init, send);
      assert order == init + [p];
      FanStep(w, grid, frames, init, p, send);
    }
  }

  /** Skipped positions add nothing to the success count. */
  lemma {:induction false} SkippedCount(w: World, grid: Dict<Position, Panel>, frames: Position -> Payload,
                                        order: seq<Position>, send: Sender)
    requires Behaves(send)
    ensures SendInOrder(w, grid, frames, order, send).2
            == SendInOrder(w, grid, frames, Configured(grid, order), send).2
    decreases |order|
  {
    if |order| > 0 {
      var n := |order| - 1;
      var init := order[..n];
      var p := order[n];
      SkippedCount(w, grid, frames, init, send);
      SkippedAreSilent(w, grid, frames, init, send);
      assert order == init + [p];
      CountStep(w, grid, frames, init, p, send);
    }
  }

  /** The induction step of `SkippedCount`: one more position. */
  lemma CountStep(w: World, grid: Dict<Position, Panel>, frames: Position -> Payload,
                  init: seq<Position>, p: Position, send: Sender)
    requires Behaves(send)
    requires SendInOrder(w, grid, frames, init, send).0
             == SendInOrder(w, grid, frames, Configured(grid, init), send).0
    requires SendInOrder(w, grid, frames, init, send).2
             == SendInOrder(w, grid, frames, Configured(grid, init), send).2
    ensures SendInOrder(w, grid, frames, init + [p], send).2
            == SendInOrder(w, grid, frames, Configured(grid, init + [p]), send).2
  {
    var c := Configured(grid, init);
    var before := SendInOrder(w, grid, frames, init, send);
    var step := Visit(before.0, grid, frames, p, send);
    assert (init + [p])[..|init|] == init;
    SendInOrderSnoc(w, grid, frames, init, p, send);
    SuccessesSnoc(before.1, step.1);
    if Has(grid, p) {
      assert Configured(grid, init + [p]) == c + [p];
      var cb := SendInOrder(w, grid, frames, c, send);
      SendInOrderSnoc(w, grid, frames, c, p, send);
      SuccessesSnoc(cb.1, Visit(cb.0, grid, frames, p, send).1);
    } else {
      assert Configured(grid, init + [p]) == c;
      VisitReads(before.0, grid, frames, p, send);
    }
  }

  /** With the default sender that fan-out is `send_to_multiple` of a
      default controller. */
  lemma ConfiguredIsSendToMultiple(w: World, grid: Dict<Position, Panel>, frames: Position -> Payload,
                                   order: seq<Position>, oracle: Oracle)
    requires forall i :: 0 <= i < |order| ==> Has(grid, order[i])
    ensures SendInOrder(w, grid, frames, order, DefaultSender(oracle)).0
            == SendToMultiple(DEFAULT_SETTINGS, w, Targets(grid, frames, order), false, oracle).0
  {
    ConfiguredIsFanOut(w, grid, frames, order, DefaultSender(oracle));
  }

  /** No early abort: the `i`-th result is what visiting position `i` gives
      in the world the first `i` visits left behind, whatever those earlier
      sends answered. */
  lemma {:induction false} NoEarlyAbort(w: World, grid: Dict<Position, Panel>, frames: Position -> Payload,
                                        order: seq<Position>, send: Sender, i: nat)
    requires Behaves(send) && i < |order|
    ensures var before := SendInOrder(w, grid, frames, order[..i], send).0;
            SendInOrder(w, grid, frames, order, send).1[i] == Visit(before, grid, frames, order[i], send).1
    decreases |order|
  {
    var n := |order| - 1;
    var init := order[..n];
    assert order == init + [order[n]];
    SendInOrderSnoc(w, grid, frames, init, order[n], send);
    if i < n {
      assert init[..i] == order[..i];
      NoEarlyAbort(w, grid, frames, init, send, i);
    }
  }
}

=== FILE: links.dfy ===
/** The held-link pool of `src/panel_hopper/core.py`: `PersistentSession`
    (one panel link with a connected flag), the process-wide
    `PERSISTENT_SESSIONS` table capped at three entries,
    `get_persistent_session` and `close_all_sessions`.

    Every call into the radio library (connect, send a frame) takes the
    next outcome from an oracle, so the model is a pure state machine: the
    `World` holds the pool, how many outcomes were consumed so far, and the
    trace of observable events. */
module Links {
  import opened Wrappers
  import opened Text
  import opened Dicts

  /** At most this many held links exist at once. */
  const POOL_CAPACITY: nat := 3

  /** What one radio operation did: finished, ran into the deadline, or raised. */
  datatype Outcome = Ok | Timeout | Failure(msg: string)

  /** The outcome of the n-th radio operation of the run. */
  type Oracle = nat -> Outcome

  /** PNG bytes; never inspected here. */
  type Payload = seq<bv8>

  /** What an observer of the radio and the clock sees. */
  datatype Event =
    | Connect(mac: string)                  // a connect call (consumes one outcome)
    | Transmit(mac: string, data: Payload)  // a send_png call (consumes one outcome)
    | Close(mac: string)                    // a best-effort disconnect, errors swallowed
    | Settle                                // the 0.5 s wait after a fresh-link send
    | Pause                                 // the panel_delay wait after a fresh-link attempt
    | Progress(mac: string, status: string, final: bool)  // a progress callback call

  /** A `PersistentSession`: `hasSession` says whether a radio session
      object is held, `connected` whether it is believed usable. */
  datatype Link = Link(mac: string, name: string, hasSession: bool, connected: bool)

  /** The pool (keyed by upper-cased MAC, in insertion order), the number
      of oracle outcomes consumed, and the event trace. */
  datatype World = World(pool: Dict<string, Link>, draws: nat, trace: seq<Event>)

  /** A new `PersistentSession(mac, name)`: no session yet, not connected;
      an empty name falls back to the MAC. */
  function NewLink(mac: string, name: string): (l: Link)
    ensures l.mac == mac && !l.hasSession && !l.connected
    ensures l.name == (if name == "" then mac else name)
  {
    Link(mac, if name == "" then mac else name, false, false)
  }

  /** A link is never connected without a session behind it. */
  predicate LinkOk(l: Link) {
    l.connected ==> l.hasSession
  }

  /** The pool invariant: distinct upper-case keys, each naming its own
      link, no more than `POOL_CAPACITY` of them, every link consistent. */
  predicate PoolOk(pool: Dict<string, Link>) {
    && Valid(pool)
    && |pool| <= POOL_CAPACITY
    && forall i :: 0 <= i < |pool| ==>
         pool[i].0 == pool[i].1.mac && IsUpper(pool[i].0) && LinkOk(pool[i].1)
  }

  /** Performs one radio operation: consumes the next outcome and logs `ev`. */
  function Draw(w: World, oracle: Oracle, ev: Event): (r: (Outcome, World))
    ensures r.0 == oracle(w.draws)
    ensures r.1 == w.(draws := w.draws + 1, trace := w.trace + [ev])
  {
    (oracle(w.draws), w.(draws := w.draws + 1, trace := w.trace + [ev]))
  }

  /** `PersistentSession.connect`: nothing happens on a link that is already
      connected; otherwise a new session replaces the old one and the link is
      connected exactly when the connect succeeds. The boolean the source
      returns is the resulting `connected` flag. */
  function LinkConnect(l: Link, w: World, oracle: Oracle): (r: (Link, World))
    ensures r.0.mac == l.mac && r.0.name == l.name && LinkOk(r.0)
    ensures r.1.pool == w.pool
    ensures l.connected && l.hasSession ==> r == (l, w)
    ensures !(l.connected && l.hasSession) ==>
              && r.0.hasSession
              && (r.0.connected <==> oracle(w.draws).Ok?)
              && r.1.draws == w.draws + 1
              && r.1.trace == w.trace + [Connect(l.mac)]
  {
    if l.connected && l.hasSession then (l, w)
    else
      var (o, w1) := Draw(w, oracle, Connect(l.mac));
      (l.(hasSession := true, connected := o.Ok?), w1)
  }

  /** `PersistentSession.send_frame`: refuses without sending unless the link
      is connected; a failed send marks the link disconnected. */
  function LinkSendFrame(l: Link, w: World, data: Payload, oracle: Oracle): (r: (Link, World, bool))
    ensures r.0.mac == l.mac && r.0.name == l.name && r.0.hasSession == l.hasSession
    ensures r.1.pool == w.pool
    ensures LinkOk(l) ==> LinkOk(r.0)
    ensures !(l.connected && l.hasSession) ==> r == (l, w, false)
    ensures l.connected && l.hasSession ==>
              && (r.2 <==> oracle(w.draws).Ok?)
              && (r.0.connected <==> r.2)
              && r.1.draws == w.draws + 1
              && r.1.trace == w.trace + [Transmit(l.mac, data)]
  {
    if !l.connected || !l.hasSession then (l, w, false)
    else
      var (o, w1) := Draw(w, oracle, Transmit(l.mac, data));
      if o.Ok? then (l, w1, true) else (l.(connected := false), w1, false)
  }

  /** `PersistentSession.disconnect`: closes the session if there is one
      (ignoring errors) and always ends without a session, disconnected. */
  function LinkDisconnect(l: Link, w: World): (r: (Link, World))
    ensures r.0 == l.(hasSession := false, connected := false)
    ensures r.1 == w.(trace := w.trace + if l.hasSession then [Close(l.mac)] else [])
  {
    (l.(hasSession := false, connected := false),
     w.(trace := w.trace + if l.hasSession then [Close(l.mac)] else []))
  }

  /** `get_persistent_session(mac, name)`: finds or admits the link for
      `mac.upper()` and connects it if needed; yields the link only when it
      ends up connected. A new entry is admitted before connecting and stays
      in the pool, disconnected, when the connect fails. */
  function Acquire(w: World, mac: string, name: string, oracle: Oracle): (r: (World, Option<Link>))
    ensures PoolOk(w.pool) ==> PoolOk(r.0.pool)
    ensures r.1.Some? ==> r.1.value.connected && Get(r.0.pool, Upper(mac)) == Some(r.1.value)
    ensures !Has(w.pool, Upper(mac)) && |w.pool| >= POOL_CAPACITY ==> r == (w, None)
    ensures Has(w.pool, Upper(mac)) && Get(w.pool, Upper(mac)).value.connected ==>
              r == (w, Get(w.pool, Upper(mac)))
    ensures !Has(w.pool, Upper(mac)) && |w.pool| < POOL_CAPACITY && !oracle(w.draws).Ok? ==>
              r.1 == None && r.0.pool == w.pool + [(Upper(mac), NewLink(Upper(mac), name).(hasSession := true))]
    ensures !Has(w.pool, Upper(mac)) && |w.pool| < POOL_CAPACITY && oracle(w.draws).Ok? ==>
              && r.1 == Some(NewLink(Upper(mac), name).(hasSession := true, connected := true))
              && r.0.pool == w.pool + [(Upper(mac), r.1.value)]
    ensures Has(w.pool, Upper(mac)) && !Get(w.pool, Upper(mac)).value.connected ==>
              var l := Get(w.pool, Upper(mac)).value;
              var l' := l.(hasSession := true, connected := oracle(w.draws).Ok?);
              && r.0.pool == Put(w.pool, Upper(mac), l')
              && r.1 == (if oracle(w.draws).Ok? then Some(l') else None)
    ensures forall k :: k != Upper(mac) ==> Get(r.0.pool, k) == Get(w.pool, k)
    ensures r.0.trace == w.trace || exists m :: r.0.trace == w.trace + [Connect(m)]
    ensures var connects := if Has(w.pool, Upper(mac)) then !Get(w.pool, Upper(mac)).value.connected
                            else |w.pool| < POOL_CAPACITY;
            && r.0.draws == w.draws + (if connects then 1 else 0)
            && (!connects ==> r.0.trace == w.trace)
            && (connects && (PoolOk(w.pool) || !Has(w.pool, Upper(mac))) ==>
                  r.0.trace == w.trace + [Connect(Upper(mac))])
  {
    var key := Upper(mac);
    if !Has(w.pool, key) && |w.pool| >= POOL_CAPACITY then (w, None)
    else
      var created := NewLink(key, name);
      var w1 := if Has(w.pool, key) then w else w.(pool := Put(w.pool, key, created));
      PutGet(w.pool, key, created, key);
      var l := Get(w1.pool, key).value;
      if l.connected then (w1, Some(l))
      else
        var (l', w2) := LinkConnect(l, w1, oracle);
        var w3 := w2.(pool := Put(w2.pool, key, l'));
        AcquireFacts(w.pool, w1.pool, w3.pool, key, created, l, l');
        (w3, if l'.connected then Some(l') else None)
  }

  /** Writing a consistent link under its own canonical key keeps the pool
      invariant, provided the key is present or there is room. */
  lemma PutKeepsPoolOk(pool: Dict<string, Link>, key: string, l: Link)
    requires PoolOk(pool) && IsUpper(key) && l.mac == key && LinkOk(l)
    requires Has(pool, key) || |pool| < POOL_CAPACITY
    ensures PoolOk(Put(pool, key, l))
  {
    PutValid(pool, key, l);
  }

  /** The bookkeeping behind `Acquire`'s contract when it connects. */
  lemma AcquireFacts(p: Dict<string, Link>, p1: Dict<string, Link>, p3: Dict<string, Link>,
                     key: string, created: Link, l: Link, l': Link)
    requires IsUpper(key) && created.mac == key && LinkOk(created)
    requires p1 == if Has(p, key) then p else Put(p, key, created)
    requires Has(p, key) || |p| < POOL_CAPACITY
    requires Get(p1, key) == Some(l)
    requires l'.mac == l.mac && LinkOk(l')
    requires p3 == Put(p1, key, l')
    ensures PoolOk(p) ==> PoolOk(p3)
    ensures Get(p3, key) == Some(l')
    ensures forall k :: k != key ==> Get(p3, k) == Get(p, k)
    ensures !Has(p, key) ==> p3 == p + [(key, l')]
  {
    PutGet(p1, key, l', key);
    forall k | k != key ensures Get(p3, k) == Get(p, k) {
      PutGet(p1, key, l', k);
      PutGet(p, key, created, k);
    }
    if !Has(p, key) {
      AdmitThenUpdate(p, key, created, l');
    }
    if PoolOk(p) {
      AcquireKeepsPoolOk(p, p1, key, created, l, l');
    }
  }

  /** Admitting a new entry and then updating it is appending the update. */
  lemma AdmitThenUpdate(p: Dict<string, Link>, key: string, created: Link, l': Link)
    requires !Has(p, key)
    ensures Put(Put(p, key, created), key, l') == p + [(key, l')]
  {
    var p1 := Put(p, key, created);
    var p3 := Put(p1, key, l');
    assert p1 == p + [(key, created)];
    PutGet(p, key, created, key);
    var q := p + [(key, l')];
    assert |p3| == |q|;
    forall i | 0 <= i < |q| ensures p3[i] == q[i] {
      if i < |p| {
        assert p1[i] == p[i] && p[i].0 != key;
      }
    }
  }

  /** The pool invariant survives admitting a link and storing its update. */
  lemma AcquireKeepsPoolOk(p: Dict<string, Link>, p1: Dict<string, Link>,
                           key: string, created: Link, l: Link, l': Link)
    requires PoolOk(p) && IsUpper(key) && created.mac == key && LinkOk(created)
    requires p1 == if Has(p, key) then p else Put(p, key, created)
    requires Has(p, key) || |p| < POOL_CAPACITY
    requires Get(p1, key) == Some(l)
    requires l'.mac == l.mac && LinkOk(l')
    ensures PoolOk(Put(p1, key, l'))
  {
    if Has(p, key) {
      var i :| 0 <= i < |p| && p[i].0 == key;
      assert l.mac == key;
    } else {
      PutKeepsPoolOk(p, key, created);
      PutGet(p, key, created, key);
      assert l == created;
    }
    PutKeepsPoolOk(p1, key, l');
  }

  /** The links of `links` that hold a session, in order: the ones whose
      `disconnect` closes something. */
  function Held(links: Dict<string, Link>): (hs: seq<Link>)
    ensures |hs| <= |links|
    decreases |links|
  {
    if |links| == 0 then []
    else (if links[0].1.hasSession then [links[0].1] else []) + Held(links[1..])
  }

  /** A link is among the held ones exactly when it is in `links` and
      has a session. */
  lemma {:induction false} HeldIff(links: Dict<string, Link>, l: Link)
    ensures l in Held(links) <==> l.hasSession && exists i :: 0 <= i < |links| && links[i].1 == l
    decreases |links|
  {
    if |links| > 0 {
      HeldIff(links[1..], l);
      if exists i :: 0 <= i < |links[1..]| && links[1..][i].1 == l {
        var i :| 0 <= i < |links[1..]| && links[1..][i].1 == l;
        assert links[i + 1].1 == l;
      }
      if exists i :: 0 <= i < |links| && links[i].1 == l {
        var i :| 0 <= i < |links| && links[i].1 == l;
        if i > 0 {
          assert links[1..][i - 1].1 == l;
        }
      }
    }
  }

  /** One `Close` event per link, in order. */
  function Closing(hs: seq<Link>): (ev: seq<Event>)
    ensures |ev| == |hs|
  {
    seq(|hs|, j requires 0 <= j < |hs| => Close(hs[j].mac))
  }

  /** The `j`-th close names the `j`-th link. */
  lemma ClosingAt(hs: seq<Link>, j: int)
    requires 0 <= j < |hs|
    ensures Closing(hs)[j] == Close(hs[j].mac)
  {
  }

  /** Closing two runs of links is closing the first, then the second. */
  lemma ClosingAppend(a: seq<Link>, b: seq<Link>)
    ensures Closing(a + b) == Closing(a) + Closing(b)
  {
  }

  /** Disconnects every link in order, as the loop of `close_all_sessions`
      does: the trace gains one `Close` per link holding a session. */
  function CloseEach(links: Dict<string, Link>, w: World): (r: World)
    ensures r.pool == w.pool && r.draws == w.draws
    ensures r.trace == w.trace + Closing(Held(links))
    decreases |links|
  {
    if |links| == 0 then w
    else
      var l := links[0].1;
      var first := if l.hasSession then [l] else [];
      var w1 := LinkDisconnect(l, w).1;
      var r := CloseEach(links[1..], w1);
      var rest := Closing(Held(links[1..]));
      ClosingAppend(first, Held(links[1..]));
      assert Held(links) == first + Held(links[1..]);
      assert w1.trace == w.trace + Closing(first);
      assert r.trace == w1.trace + rest;
      assert (w.trace + Closing(first)) + rest == w.trace + (Closing(first) + rest);
      r
  }

  /** `close_all_sessions`: disconnects every held link, then empties the pool.
      No outcome is consumed, because disconnect errors are swallowed; the
      trace gains exactly one `Close` for each pooled link holding a
      session, in pool order, and nothing else. */
  function CloseAll(w: World): (r: World)
    ensures r.pool == [] && r.draws == w.draws
    ensures r.trace == w.trace + Closing(Held(w.pool))
    ensures |r.trace| - |w.trace| <= |w.pool|
  {
    CloseEach(w.pool, w).(pool := [])
  }

  /** With a consistent pool, `close_all_sessions` closes the panel `m`
      exactly when the pool holds a link for `m` that has a session. */
  lemma ClosesExactlyHeld(w: World, m: string)
    requires PoolOk(w.pool)
    ensures Close(m) in CloseAll(w).trace[|w.trace|..] <==>
              Has(w.pool, m) && Get(w.pool, m).value.hasSession
  {
    var hs := Held(w.pool);
    var ext := Closing(hs);
    assert CloseAll(w).trace[|w.trace|..] == ext;
    if Close(m) in ext {
      var j :| 0 <= j < |ext| && ext[j] == Close(m);
      ClosingAt(hs, j);
      HeldIff(w.pool, hs[j]);
      var i :| 0 <= i < |w.pool| && w.pool[i].1 == hs[j];
      assert w.pool[i].0 == m;
    }
    if Has(w.pool, m) && Get(w.pool, m).value.hasSession {
      var i :| 0 <= i < |w.pool| && w.pool[i].0 == m;
      HeldIff(w.pool, w.pool[i].1);
      var j :| 0 <= j < |hs| && hs[j] == w.pool[i].1;
      ClosingAt(hs, j);
    }
  }

  /** Draining is idempotent: a second `close_all_sessions` changes nothing. */
  lemma CloseAllTwice(w: World)
    ensures CloseAll(CloseAll(w)) == CloseAll(w)
  {
  }

  /** Acquires a link for each MAC in turn: the pool as it evolves over a
      run of `get_persistent_session` calls. */
  function AcquireAll(w: World, macs: seq<string>, oracle: Oracle): World
    decreases |macs|
  {
    if |macs| == 0 then w else AcquireAll(Acquire(w, macs[0], "", oracle).0, macs[1..], oracle)
  }

  /** However many distinct panels are asked for, the pool never holds more
      than three links and its keys stay canonical. */
  lemma {:induction false} PoolStaysBounded(w: World, macs: seq<string>, oracle: Oracle)
    requires PoolOk(w.pool)
    ensures PoolOk(AcquireAll(w, macs, oracle).pool)
    ensures |AcquireAll(w, macs, oracle).pool| <= POOL_CAPACITY
    decreases |macs|
  {
    if |macs| > 0 {
      PoolStaysBounded(Acquire(w, macs[0], "", oracle).0, macs[1..], oracle);
    }
  }
}

=== FILE: positions.dfy ===
/** The four places of the 2×2 panel grid, shared by the registry's grid
    slots (`GridConfig` in `src/panel_hopper/config.py`), the quadrant table
    `GRID_POSITIONS` of `src/panel_hopper/graphics.py`, and the grid senders
    of `web/server.py` and `cli/send_grid.py`. */
module Positions {
  datatype Position = LinksBoven | RechtsBoven | LinksOnder | RechtsOnder

  /** Side of one panel in pixels (`PANEL_SIZE`). */
  const PANEL_SIZE: nat := 32

  /** Side of the whole grid in pixels (`GRID_SIZE`). */
  const GRID_SIZE: nat := 64

  /** The declaration order of `GRID_POSITIONS` and of the grid slots, which
      is also the key order of every dictionary built by walking them. */
  const GRID_ORDER: seq<Position> := [LinksBoven, RechtsBoven, LinksOnder, RechtsOnder]

  /** The order in which the grid senders visit the panels: bottom row
      first, right before left. */
  const SEND_ORDER: seq<Position> := [RechtsOnder, LinksOnder, RechtsBoven, LinksBoven]

  /** The key the source uses for a position. */
  function Name(p: Position): string {
    match p
    case LinksBoven => "linksboven"
    case RechtsBoven => "rechtsboven"
    case LinksOnder => "linksonder"
    case RechtsOnder => "rechtsonder"
  }

  /** The pixel offset `(x, y)` of a position's quadrant in `GRID_POSITIONS`. */
  function Offset(p: Position): (xy: (nat, nat))
    ensures xy.0 + PANEL_SIZE <= GRID_SIZE && xy.1 + PANEL_SIZE <= GRID_SIZE
    ensures xy.0 % PANEL_SIZE == 0 && xy.1 % PANEL_SIZE == 0
  {
    match p
    case LinksBoven => (0, 0)
    case RechtsBoven => (32, 0)
    case LinksOnder => (0, 32)
    case RechtsOnder => (32, 32)
  }

  /** The names are distinct, so they identify the positions. */
  lemma NamesDistinct(p: Position, q: Position)
    ensures Name(p) == Name(q) <==> p == q
  {
    if p != q {
      assert Name(p)[0] != Name(q)[0] || Name(p)[|Name(p)| - 1] != Name(q)[|Name(q)| - 1]
          || |Name(p)| != |Name(q)|;
    }
  }

  /** The quadrants tile the grid: every grid pixel lies in exactly one
      position's quadrant, and that position is determined by which half of
      each axis the pixel is in. */
  lemma QuadrantsTile(x: nat, y: nat, p: Position)
    requires x < GRID_SIZE && y < GRID_SIZE
    ensures (Offset(p).0 <= x < Offset(p).0 + PANEL_SIZE && Offset(p).1 <= y < Offset(p).1 + PANEL_SIZE)
            <==> Offset(p) == (x / PANEL_SIZE * PANEL_SIZE, y / PANEL_SIZE * PANEL_SIZE)
  {
  }

  /** Both orders list each of the four positions exactly once. */
  lemma OrdersArePermutations(p: Position)
    ensures |GRID_ORDER| == 4 && |SEND_ORDER| == 4
    ensures p in GRID_ORDER && p in SEND_ORDER
    ensures forall i, j :: 0 <= i < j < 4 ==> GRID_ORDER[i] != GRID_ORDER[j] && SEND_ORDER[i] != SEND_ORDER[j]
  {
  }
}

=== FILE: registry.dfy ===
/** The panel registry of `src/panel_hopper/config.py`: `Panel` records
    keyed by MAC in an insertion-ordered dictionary, the four grid slots of
    `GridConfig`, and the queries and edits of `PanelConfig`. The timing and
    server settings `PanelConfig` also carries steer nothing here and are
    not modelled. */
module Registry {
  import opened Wrappers
  import opened Text
  import opened Dicts
  import opened Positions

  /** Default `order` of a panel. */
  const DEFAULT_ORDER: int := 99

  /** A `Panel` dataclass instance. */
  datatype Panel = Panel(mac: string, name: string, enabled: bool, order: int,
                         gridPosition: Option<string>, notes: string)

  /** The four slots of `GridConfig`, each an optional MAC. */
  datatype GridSlots = GridSlots(linksboven: Option<string>, rechtsboven: Option<string>,
                                 linksonder: Option<string>, rechtsonder: Option<string>)

  /** A `PanelConfig`: the panels by key, and the grid. */
  datatype Config = Config(panels: Dict<string, Panel>, grid: GridSlots)

  /** `PanelConfig()`: no panels, every grid slot empty. */
  const EMPTY_CONFIG: Config := Config([], GridSlots(None, None, None, None))

  /** `Panel(...)`: `__post_init__` upper-cases the MAC; every other field is
      kept as given. */
  function MakePanel(mac: string, name: string, enabled: bool, order: int,
                     gridPosition: Option<string>, notes: string): (p: Panel)
    ensures IsUpper(p.mac) && |p.mac| == |mac|
    ensures forall i :: 0 <= i < |mac| ==> p.mac[i] == UpperChar(mac[i])
    ensures p.name == name && p.enabled == enabled && p.order == order
    ensures p.gridPosition == gridPosition && p.notes == notes
  {
    UpperIsCanonical(mac);
    Panel(Upper(mac), name, enabled, order, gridPosition, notes)
  }

  /** Rebuilding a panel from its own fields changes nothing: the MAC it
      holds is already normalised. */
  lemma MakePanelStable(p: Panel)
    requires IsUpper(p.mac)
    ensures MakePanel(p.mac, p.name, p.enabled, p.order, p.gridPosition, p.notes) == p
  {
    UpperIsCanonical(p.mac);
  }

  /** The MAC held in grid slot `p`. */
  function Slot(g: GridSlots, p: Position): Option<string> {
    match p
    case LinksBoven => g.linksboven
    case RechtsBoven => g.rechtsboven
    case LinksOnder => g.linksonder
    case RechtsOnder => g.rechtsonder
  }

  /** Whether `name` matches a panel's name, ignoring case. */
  predicate NameMatches(p: Panel, name: string) {
    Lower(p.name) == Lower(name)
  }

  /** `get_panel_by_name`: the first panel, in iteration order, whose name
      equals `name` ignoring case; `None` when there is none. */
  function GetPanelByName(c: Config, name: string): (r: Option<Panel>)
    ensures r.None? <==> forall i :: 0 <= i < |c.panels| ==> !NameMatches(c.panels[i].1, name)
    ensures r.Some? ==> exists i :: 0 <= i < |c.panels| && c.panels[i].1 == r.value && NameMatches(r.value, name)
                          && FirstNamed(c.panels, name, i)
  {
    FindByName(c.panels, name)
  }

  /** Entry `i` is the first one whose panel matches `name`. */
  predicate FirstNamed(ps: Dict<string, Panel>, name: string, i: int)
    requires 0 <= i < |ps|
  {
    forall j :: 0 <= j < i ==> !NameMatches(ps[j].1, name)
  }

  /** The search loop of `get_panel_by_name` over `panels.values()`. */
  function FindByName(ps: Dict<string, Panel>, name: string): (r: Option<Panel>)
    ensures r.None? <==> forall i :: 0 <= i < |ps| ==> !NameMatches(ps[i].1, name)
    ensures r.Some? ==> exists i :: 0 <= i < |ps| && ps[i].1 == r.value && NameMatches(r.value, name)
                          && FirstNamed(ps, name, i)
    decreases |ps|
  {
    if |ps| == 0 then None
    else if NameMatches(ps[0].1, name) then
      assert FirstNamed(ps, name, 0);
      Some(ps[0].1)
    else
      var r := FindByName(ps[1..], name);
      assert forall i :: 1 <= i < |ps| ==> ps[i] == ps[1..][i - 1];
      if r.Some? then
        var i :| 0 <= i < |ps[1..]| && ps[1..][i].1 == r.value && NameMatches(r.value, name)
                 && FirstNamed(ps[1..], name, i);
        assert FirstNamed(ps, name, i + 1);
        r
      else r
  }

  /** `get_panel_by_mac`: the panel stored under the upper-cased MAC. */
  function GetPanelByMac(c: Config, mac: string): (r: Option<Panel>)
    ensures r.None? <==> !Has(c.panels, Upper(mac))
    ensures Valid(c.panels) ==> forall i :: 0 <= i < |c.panels| && c.panels[i].0 == Upper(mac) ==>
              r == Some(c.panels[i].1)
  {
    Get(c.panels, Upper(mac))
  }

  /** The MAC lookup ignores case: any two spellings that upper-case alike
      find the same panel. */
  lemma MacLookupIgnoresCase(c: Config, a: string, b: string)
    requires |a| == |b| && forall i :: 0 <= i < |a| ==> UpperChar(a[i]) == UpperChar(b[i])
    ensures GetPanelByMac(c, a) == GetPanelByMac(c, b)
  {
    assert Upper(a) == Upper(b);
  }

  /** `add_panel(mac, name, enabled)`: stores a fresh panel with default
      order, no grid position and no notes under the upper-cased MAC,
      replacing any panel already there; the grid and the other panels are
      left alone. */
  function AddPanel(c: Config, mac: string, name: string, enabled: bool): (r: (Config, Panel))
    ensures r.1 == MakePanel(mac, name, enabled, DEFAULT_ORDER, None, "")
    ensures r.0.grid == c.grid
    ensures Get(r.0.panels, Upper(mac)) == Some(r.1)
    ensures forall k :: k != Upper(mac) ==> Get(r.0.panels, k) == Get(c.panels, k)
    ensures Valid(c.panels) ==> Valid(r.0.panels)
    ensures Has(c.panels, Upper(mac)) ==> |r.0.panels| == |c.panels|
    ensures !Has(c.panels, Upper(mac)) ==> |r.0.panels| == |c.panels| + 1
  {
    var key := Upper(mac);
    var p := MakePanel(key, name, enabled, DEFAULT_ORDER, None, "");
    UpperIsCanonical(mac);
    forall k ensures Get(Put(c.panels, key, p), k) == if k == key then Some(p) else Get(c.panels, k) {
      PutGet(c.panels, key, p, k);
    }
    assert Valid(c.panels) ==> Valid(Put(c.panels, key, p)) by {
      if Valid(c.panels) {
        PutValid(c.panels, key, p);
      }
    }
    (c.(panels := Put(c.panels, key, p)), p)
  }

  /** After `add_panel(m, …)` the panel is found by `get_panel_by_mac` under
      any spelling of `m` that upper-cases alike. */
  lemma AddThenFind(c: Config, mac: string, name: string, enabled: bool, other: string)
    requires Upper(other) == Upper(mac)
    ensures var (c', p) := AddPanel(c, mac, name, enabled);
            GetPanelByMac(c', other) == Some(p) && p.mac == Upper(other)
  {
  }

  /** The grid with every slot that holds `key` emptied. */
  function ClearSlots(g: GridSlots, key: string): (r: GridSlots)
    ensures forall p :: Slot(r, p) != Some(key)
    ensures forall p :: Slot(g, p) != Some(key) ==> Slot(r, p) == Slot(g, p)
    ensures forall p :: Slot(g, p) == Some(key) ==> Slot(r, p) == None
  {
    GridSlots(if g.linksboven == Some(key) then None else g.linksboven,
              if g.rechtsboven == Some(key) then None else g.rechtsboven,
              if g.linksonder == Some(key) then None else g.linksonder,
              if g.rechtsonder == Some(key) then None else g.rechtsonder)
  }

  /** `remove_panel(mac)`: when the upper-cased MAC is a key, deletes that
      panel, empties every grid slot holding it, and answers true; otherwise
      answers false and changes nothing. */
  function RemovePanel(c: Config, mac: string): (r: (Config, bool))
    ensures r.1 <==> Has(c.panels, Upper(mac))
    ensures !r.1 ==> r.0 == c
    ensures r.1 ==> !Has(r.0.panels, Upper(mac)) && forall p :: Slot(r.0.grid, p) != Some(Upper(mac))
    ensures forall p :: Slot(c.grid, p) != Some(Upper(mac)) ==> Slot(r.0.grid, p) == Slot(c.grid, p)
    ensures Valid(c.panels) ==> Valid(r.0.panels)
    ensures Valid(c.panels) ==> forall k :: k != Upper(mac) ==> Get(r.0.panels, k) == Get(c.panels, k)
  {
    var key := Upper(mac);
    if Has(c.panels, key) then
      assert Valid(c.panels) ==>
               (Valid(Remove(c.panels, key)) &&
                forall k :: Get(Remove(c.panels, key), k) == if k == key then None else Get(c.panels, k)) by {
        if Valid(c.panels) {
          RemoveValid(c.panels, key);
          forall k ensures Get(Remove(c.panels, key), k) == if k == key then None else Get(c.panels, k) {
            RemoveGet(c.panels, key, k);
          }
        }
      }
      (Config(Remove(c.panels, key), ClearSlots(c.grid, key)), true)
    else (c, false)
  }

  /** Adding and then removing the same MAC leaves the panel absent and the
      others as they were; on a fresh key the other panels read back exactly
      as before the add. */
  lemma AddThenRemove(c: Config, mac: string, name: string, enabled: bool)
    requires Valid(c.panels)
    ensures var (c', r) := RemovePanel(AddPanel(c, mac, name, enabled).0, mac);
            && r
            && GetPanelByMac(c', mac) == None
            && (forall k :: k != Upper(mac) ==> Get(c'.panels, k) == Get(c.panels, k))
  {
  }

  /** The entries kept by the list comprehension of `get_enabled_panels`,
      in iteration order. */
  function Enabled(ps: seq<Panel>): (r: seq<Panel>)
    ensures |r| <= |ps|
    ensures forall i :: 0 <= i < |r| ==> r[i].enabled
    ensures multiset(r) <= multiset(ps)
    decreases |ps|
  {
    if |ps| == 0 then []
    else
      assert ps == [ps[0]] + ps[1..];
      (if ps[0].enabled then [ps[0]] else []) + Enabled(ps[1..])
  }

  /** Every enabled panel of the input is kept, as often as it occurs. */
  lemma {:induction false} EnabledKeepsAll(ps: seq<Panel>, p: Panel)
    requires p.enabled
    ensures multiset(Enabled(ps))[p] == multiset(ps)[p]
    decreases |ps|
  {
    if |ps| > 0 {
      EnabledKeepsAll(ps[1..], p);
      assert ps == [ps[0]] + ps[1..];
    }
  }

  /** Non-decreasing by `order`. */
  predicate SortedByOrder(ps: seq<Panel>) {
    forall i, j :: 0 <= i < j < |ps| ==> ps[i].order <= ps[j].order
  }

  /** The panels whose order is `v`, in sequence order. */
  function WithOrder(ps: seq<Panel>, v: int): seq<Panel>
    decreases |ps|
  {
    if |ps| == 0 then [] else (if ps[0].order == v then [ps[0]] else []) + WithOrder(ps[1..], v)
  }

  /** Puts `p` in front of the first panel of `s` whose order is not
      smaller: on a sorted `s`, before every panel of its own order, so
      earlier input stays earlier. */
  function Insert(p: Panel, s: seq<Panel>): (r: seq<Panel>)
    ensures multiset(r) == multiset(s) + multiset{p}
    ensures |r| == |s| + 1
    decreases |s|
  {
    if |s| == 0 || p.order <= s[0].order then [p] + s
    else
      assert s == [s[0]] + s[1..];
      [s[0]] + Insert(p, s[1..])
  }

  /** Inserting into a sorted sequence keeps it sorted. */
  lemma {:induction false} InsertSorted(p: Panel, s: seq<Panel>)
    requires SortedByOrder(s)
    ensures SortedByOrder(Insert(p, s))
    decreases |s|
  {
    if |s| > 0 && p.order > s[0].order {
      var t := Insert(p, s[1..]);
      InsertSorted(p, s[1..]);
      forall i | 0 <= i < |t| ensures s[0].order <= t[i].order {
        assert t[i] in multiset(t);
        if t[i] != p {
          assert t[i] in multiset(s[1..]);
          var k :| 0 <= k < |s[1..]| && s[1..][k] == t[i];
          assert s[k + 1] == t[i];
        }
      }
      assert Insert(p, s) == [s[0]] + t;
    }
  }

  /** Inserting `p` puts it ahead of every panel of its own order and leaves
      the order of each other group alone. */
  lemma {:induction false} InsertWithOrder(p: Panel, s: seq<Panel>, v: int)
    requires SortedByOrder(s)
    ensures WithOrder(Insert(p, s), v) == (if p.order == v then [p] else []) + WithOrder(s, v)
    decreases |s|
  {
    var r := Insert(p, s);
    if |s| == 0 || p.order <= s[0].order {
      assert r[1..] == s;
    } else {
      InsertWithOrder(p, s[1..], v);
      assert r[1..] == Insert(p, s[1..]);
      if p.order == v {
        assert s[0].order < v;
      }
    }
  }

  /** `sorted(…, key=lambda p: p.order)`: a stable sort by `order`. */
  function SortByOrder(ps: seq<Panel>): (r: seq<Panel>)
    ensures SortedByOrder(r)
    ensures multiset(r) == multiset(ps)
    decreases |ps|
  {
    if |ps| == 0 then []
    else
      assert ps == [ps[0]] + ps[1..];
      InsertSorted(ps[0], SortByOrder(ps[1..]));
      Insert(ps[0], SortByOrder(ps[1..]))
  }

  /** Stability: for every order value, the panels with that order come out
      in the order they went in. */
  lemma {:induction false} SortIsStable(ps: seq<Panel>, v: int)
    ensures WithOrder(SortByOrder(ps), v) == WithOrder(ps, v)
    decreases |ps|
  {
    if |ps| > 0 {
      SortIsStable(ps[1..], v);
      InsertWithOrder(ps[0], SortByOrder(ps[1..]), v);
    }
  }

  /** `get_enabled_panels`: exactly the enabled panels, each as often as it
      is stored, sorted by `order` with ties in iteration order. */
  function GetEnabledPanels(c: Config): (r: seq<Panel>)
    ensures SortedByOrder(r)
    ensures forall i :: 0 <= i < |r| ==> r[i].enabled
    ensures forall p: Panel :: p.enabled ==> multiset(r)[p] == multiset(Values(c.panels))[p]
    ensures forall v :: WithOrder(r, v) == WithOrder(Enabled(Values(c.panels)), v)
  {
    var en := Enabled(Values(c.panels));
    var r := SortByOrder(en);
    forall p: Panel | p.enabled ensures multiset(r)[p] == multiset(Values(c.panels))[p] {
      EnabledKeepsAll(Values(c.panels), p);
    }
    forall v ensures WithOrder(r, v) == WithOrder(en, v) {
      SortIsStable(en, v);
    }
    assert forall i :: 0 <= i < |r| ==> r[i] in multiset(en);
    r
  }

  /** The MAC in slot `p`, when it is non-empty and is a key. The key test
      uses the slot's text as stored, without upper-casing it. */
  predicate SlotUsable(c: Config, p: Position) {
    Slot(c.grid, p).Some? && Slot(c.grid, p).value != "" && Has(c.panels, Slot(c.grid, p).value)
  }

  /** The entry the loop of `get_grid_panels` adds for position `p`, if any. */
  function GridEntry(c: Config, p: Position): (e: seq<(Position, Panel)>)
    ensures |e| <= 1
    ensures |e| == 1 <==> SlotUsable(c, p)
    ensures |e| == 1 ==> e[0].0 == p && Get(c.panels, Slot(c.grid, p).value) == Some(e[0].1)
  {
    if SlotUsable(c, p) then [(p, Get(c.panels, Slot(c.grid, p).value).value)] else []
  }

  /** The loop of `get_grid_panels` over the given positions. */
  function GridFrom(c: Config, order: seq<Position>): (r: Dict<Position, Panel>)
    ensures |r| <= |order|
    decreases |order|
  {
    if |order| == 0 then [] else GridEntry(c, order[0]) + GridFrom(c, order[1..])
  }

  /** Walking distinct positions yields each usable one exactly once,
      mapped to its slot's panel. */
  lemma {:induction false} GridFromFacts(c: Config, order: seq<Position>, q: Position)
    ensures Has(GridFrom(c, order), q) <==> q in order && SlotUsable(c, q)
    ensures SlotUsable(c, q) && q in order ==> Get(GridFrom(c, order), q) == Get(c.panels, Slot(c.grid, q).value)
    decreases |order|
  {
    if |order| > 0 {
      var e := GridEntry(c, order[0]);
      var rest := GridFrom(c, order[1..]);
      GridFromFacts(c, order[1..], q);
      AppendGet(e, rest, q);
      assert order == [order[0]] + order[1..];
      if |e| == 1 {
        assert Has(e, q) <==> e[0].0 == q;
        assert e[0].0 == q ==> Get(e, q) == Some(e[0].1);
      } else {
        assert !Has(e, q);
      }
    }
  }

  /** `get_grid_panels`: the position-to-panel dictionary, in grid order,
      holding a position exactly when its slot names a non-empty MAC that is
      a key, mapped to that key's panel; at most four entries, distinct. */
  function GetGridPanels(c: Config): (r: Dict<Position, Panel>)
    ensures |r| <= 4
    ensures forall p :: Has(r, p) <==> SlotUsable(c, p)
    ensures forall p :: SlotUsable(c, p) ==> Get(r, p) == Get(c.panels, Slot(c.grid, p).value)
  {
    var r := GridFrom(c, GRID_ORDER);
    forall p ensures (Has(r, p) <==> SlotUsable(c, p))
                     && (SlotUsable(c, p) ==> Get(r, p) == Get(c.panels, Slot(c.grid, p).value)) {
      GridFromFacts(c, GRID_ORDER, p);
      OrdersArePermutations(p);
    }
    r
  }

  /** The grid query has four entries exactly when every slot is usable,
      which is the test the grid senders start with. */
  lemma GridComplete(c: Config)
    ensures |GetGridPanels(c)| == 4 <==> forall p :: SlotUsable(c, p)
  {
    var o := GRID_ORDER;
    assert o[1..][1..][1..][1..] == [];
    var r := GridEntry(c, o[0]) + (GridEntry(c, o[1]) + (GridEntry(c, o[2]) + GridEntry(c, o[3])));
    assert GridFrom(c, o) == r by {
      assert o[1..][0] == o[1] && o[1..][1..][0] == o[2] && o[1..][1..][1..][0] == o[3];
    }
    if forall p :: SlotUsable(c, p) {
      assert |r| == 4;
    } else {
      var q :| !SlotUsable(c, q);
      assert q == o[0] || q == o[1] || q == o[2] || q == o[3];
      assert |r| < 4;
    }
  }

  /** Removing a panel takes it out of the grid query too. */
  lemma RemoveLeavesGrid(c: Config, mac: string, p: Position)
    requires Valid(c.panels)
    ensures var c' := RemovePanel(c, mac).0;
            Has(GetGridPanels(c'), p) ==> Slot(c'.grid, p).value != Upper(mac)
  {
  }
}

=== FILE: server.dfy ===
/** The decisions the web front end `web/server.py` takes around the core:
    emoji detection and line splitting for text pictures, the grid send of
    `send_to_grid`, the merge of scan results into the registry, and the
    guards of the upload, delete and toggle endpoints. A refused request is
    the `Failure` case, carrying the HTTP status and detail. Loading and
    saving the configuration file is not modelled: each handler takes the
    loaded configuration and, where it saves, says so in its result. */
module Server {
  import opened Wrappers
  import opened Text
  import opened Dicts
  import opened Positions
  import opened Links
  import opened Controller
  import opened Registry
  import opened Grid
  import opened GridSend

  /** An `HTTPException(status, detail)`. */
  datatype HttpError = HttpError(status: int, detail: string)

  /** The detail of the framework's answer to an exception a handler does
      not catch. */
  const INTERNAL_SERVER_ERROR := "Internal Server Error"

  // ---------------------------------------------------------------------
  // Text pictures
  // ---------------------------------------------------------------------

  /** The code points `has_emoji` counts as emoji: everything above U+1F300,
      and the two BMP blocks U+2600..U+27BF and U+2300..U+23FF. */
  predicate EmojiCode(n: int) {
    n > 0x1F300 || 0x2600 <= n < 0x27C0 || 0x2300 <= n < 0x2400
  }

  /** `has_emoji(text)`: scans the characters and stops at the first emoji
      code point. */
  method HasEmoji(text: string) returns (found: bool)
    ensures found <==> exists i :: 0 <= i < |text| && EmojiCode(text[i] as int)
    ensures found ==> text != []
  {
    var i := 0;
    while i < |text|
      invariant 0 <= i <= |text|
      invariant forall j :: 0 <= j < i ==> !EmojiCode(text[j] as int)
    {
      if EmojiCode(text[i] as int) {
        return true;
      }
      i := i + 1;
    }
    return false;
  }

  /** The characters of `s` that are line feeds or printable, in order. */
  function KeepPrintable(s: string, printable: char -> bool): (r: string)
    ensures |r| <= |s|
    ensures forall i :: 0 <= i < |r| ==> r[i] in s && (r[i] == '\n' || printable(r[i]))
    ensures Count(r, '\n') == Count(s, '\n')
    ensures (forall i :: 0 <= i < |s| ==> s[i] == '\n' || printable(s[i])) ==> r == s
    ensures |s| == 1 ==> r == if s[0] == '\n' || printable(s[0]) then s else []
    decreases |s|
  {
    if |s| == 0 then s
    else
      var rest := KeepPrintable(s[1..], printable);
      assert forall i :: 0 <= i < |rest| ==> rest[i] in s;
      if s[0] == '\n' || printable(s[0]) then [s[0]] + rest else rest
  }

  /** Dropping characters distributes over concatenation: with the one
      character case above this pins `KeepPrintable` down as the in-order
      filter. */
  lemma {:induction false} KeepPrintableAppend(a: string, b: string, printable: char -> bool)
    ensures KeepPrintable(a + b, printable) == KeepPrintable(a, printable) + KeepPrintable(b, printable)
    decreases |a|
  {
    if |a| > 0 {
      assert (a + b)[1..] == a[1..] + b;
      KeepPrintableAppend(a[1..], b, printable);
    } else {
      assert a + b == b;
    }
  }

  /** The three line break rewrites of `create_multiline_text_image`, in
      their order: the two characters `\` `n` become a line feed, then
      CR LF, then any remaining CR. */
  function Breaks(s: string): (r: string)
    ensures '\r' !in r
  {
    var crlf := ReplaceAll(ReplaceAll(s, "\\n", "\n"), "\r\n", "\n");
    ReplaceRemovesChar(crlf, '\r', '\n');
    ReplaceAll(crlf, "\r", "\n")
  }

  /** The same rewriting read in one left-to-right pass: an escaped break,
      a CR LF, a lone CR, and a CR directly before an escaped break (the
      first rewrite makes that pair a CR LF) each become one line feed. */
  function Unbreak(s: string): (r: string)
    ensures |r| <= |s|
    decreases |s|
  {
    if |s| == 0 then []
    else if "\\n" <= s then "\n" + Unbreak(s[2..])
    else if s[0] == '\r' then
      if "\r\n" <= s then "\n" + Unbreak(s[2..])
      else if "\\n" <= s[1..] then "\n" + Unbreak(s[3..])
      else "\n" + Unbreak(s[1..])
    else [s[0]] + Unbreak(s[1..])
  }

  /** A character that starts no pattern passes all three rewrites. */
  lemma BreaksCons(c: char, t: string)
    requires c != '\r' && !("\\n" <= [c] + t)
    ensures Breaks([c] + t) == [c] + Breaks(t)
  {
    ReplaceCons(c, t, "\\n", "\n");
    var x := ReplaceAll(t, "\\n", "\n");
    ReplaceCons(c, x, "\r\n", "\n");
    ReplaceCons(c, ReplaceAll(x, "\r\n", "\n"), "\r", "\n");
  }

  /** A line feed produced by the first rewrite, with nothing before it,
      passes the other two. */
  lemma BreaksAfterEscape(t: string)
    ensures Breaks("\\n" + t) == "\n" + Breaks(t)
  {
    ReplaceHit(t, "\\n", "\n");
    LineFeedPasses(ReplaceAll(t, "\\n", "\n"));
  }

  /** A leading line feed passes the CR LF and the CR rewrites. */
  lemma LineFeedPasses(x: string)
    ensures ReplaceAll(ReplaceAll("\n" + x, "\r\n", "\n"), "\r", "\n")
            == "\n" + ReplaceAll(ReplaceAll(x, "\r\n", "\n"), "\r", "\n")
  {
    assert ("\n" + x)[0] == '\n';
    ReplaceCons('\n', x, "\r\n", "\n");
    var y := ReplaceAll(x, "\r\n", "\n");
    assert ("\n" + y)[0] == '\n';
    ReplaceCons('\n', y, "\r\n", "\n");
    ReplaceCons('\n', y, "\r", "\n");
  }

  /** A CR LF passes the first rewrite and is one line feed after the
      second. */
  lemma CrLfPasses(x: string)
    ensures ReplaceAll(ReplaceAll("\r\n" + x, "\r\n", "\n"), "\r", "\n")
            == "\n" + ReplaceAll(ReplaceAll(x, "\r\n", "\n"), "\r", "\n")
  {
    ReplaceHit(x, "\r\n", "\n");
    var y := ReplaceAll(x, "\r\n", "\n");
    assert ("\n" + y)[0] == '\n';
    ReplaceCons('\n', y, "\r", "\n");
  }

  /** A typed CR LF is one line feed. */
  lemma BreaksCrLf(t: string)
    ensures Breaks("\r\n" + t) == "\n" + Breaks(t)
  {
    var u := "\r\n" + t;
    assert u == ['\r'] + ("\n" + t) && u[0] == '\r' && u[1] == '\n';
    ReplaceCons('\r', "\n" + t, "\\n", "\n");
    assert ("\n" + t)[0] == '\n';
    ReplaceCons('\n', t, "\\n", "\n");
    assert ReplaceAll(u, "\\n", "\n") == "\r\n" + ReplaceAll(t, "\\n", "\n");
    CrLfPasses(ReplaceAll(t, "\\n", "\n"));
  }

  /** A CR before an escaped break is one line feed: the first rewrite
      makes the two a CR LF. */
  lemma BreaksCrEscape(t: string)
    ensures Breaks("\r\\n" + t) == "\n" + Breaks(t)
  {
    var u := "\r\\n" + t;
    assert u == ['\r'] + ("\\n" + t) && u[0] == '\r';
    ReplaceCons('\r', "\\n" + t, "\\n", "\n");
    ReplaceHit(t, "\\n", "\n");
    assert ReplaceAll(u, "\\n", "\n") == "\r\n" + ReplaceAll(t, "\\n", "\n");
    CrLfPasses(ReplaceAll(t, "\\n", "\n"));
  }

  /** A CR that no line feed follows becomes one. */
  lemma BreaksLoneCr(t: string)
    requires !("\n" <= t) && !("\\n" <= t)
    ensures Breaks("\r" + t) == "\n" + Breaks(t)
  {
    ReplaceCons('\r', t, "\\n", "\n");
    var x := ReplaceAll(t, "\\n", "\n");
    if |t| > 0 {
      ReplaceHead(t, "\\n", '\n');
    }
    assert !("\r\n" <= "\r" + x);
    ReplaceCons('\r', x, "\r\n", "\n");
    ReplaceHit(ReplaceAll(x, "\r\n", "\n"), "\r", "\n");
  }

  /** The three sequential rewrites are the one-pass reading. */
  lemma {:induction false} BreaksIsUnbreak(s: string)
    ensures Breaks(s) == Unbreak(s)
    decreases |s|
  {
    if |s| == 0 {
      assert Breaks(s) == [];
    } else if "\\n" <= s {
      assert s == "\\n" + s[2..];
      BreaksAfterEscape(s[2..]);
      BreaksIsUnbreak(s[2..]);
    } else if s[0] == '\r' {
      if "\r\n" <= s {
        assert s == "\r\n" + s[2..];
        BreaksCrLf(s[2..]);
        BreaksIsUnbreak(s[2..]);
      } else if "\\n" <= s[1..] {
        assert s == "\r\\n" + s[3..];
        BreaksCrEscape(s[3..]);
        BreaksIsUnbreak(s[3..]);
      } else {
        assert s == "\r" + s[1..];
        BreaksLoneCr(s[1..]);
        BreaksIsUnbreak(s[1..]);
      }
    } else {
      assert s == [s[0]] + s[1..];
      BreaksCons(s[0], s[1..]);
      BreaksIsUnbreak(s[1..]);
    }
  }

  /** After the rewrites no CR and no escaped break is left. */
  lemma UnbreakLeavesNoBreakMarks(s: string)
    ensures '\r' !in Unbreak(s)
    ensures !HasPair(Unbreak(s), '\\', 'n')
  {
    BreaksIsUnbreak(s);
    var x := ReplaceAll(s, "\\n", "\n");
    ReplaceRemovesPair(s, '\\', 'n', '\n');
    ReplaceKeepsNoPair(x, "\r\n", '\\', 'n', '\n');
    ReplaceKeepsNoPair(ReplaceAll(x, "\r\n", "\n"), "\r", '\\', 'n', '\n');
  }

  /** The cleanup of `create_multiline_text_image`: the line break rewrites,
      then every character that is neither a line feed nor printable is
      dropped. `printable` stands for `str.isprintable`. */
  function CleanText(text: string, printable: char -> bool): (r: string)
    ensures '\r' !in r
    ensures forall i :: 0 <= i < |r| ==> r[i] == '\n' || printable(r[i])
  {
    KeepPrintable(Breaks(text), printable)
  }

  /** What the cleanup does to any text: the one-pass line break reading,
      then the printable filter. */
  lemma CleanTextSinglePass(text: string, printable: char -> bool)
    ensures CleanText(text, printable) == KeepPrintable(Unbreak(text), printable)
    ensures '\r' !in Unbreak(text) && !HasPair(Unbreak(text), '\\', 'n')
  {
    BreaksIsUnbreak(text);
    UnbreakLeavesNoBreakMarks(text);
  }

  /** The lines drawn: the cleaned text split at line feeds, each piece
      stripped of surrounding whitespace, empty lines kept. */
  function TextLines(text: string, printable: char -> bool): (lines: seq<string>)
    ensures |lines| == Count(CleanText(text, printable), '\n') + 1
    ensures forall i :: 0 <= i < |lines| ==> '\n' !in lines[i] && '\r' !in lines[i]
    ensures forall i :: 0 <= i < |lines| ==>
              |lines[i]| == 0 || (!IsSpace(lines[i][0]) && !IsSpace(lines[i][|lines[i]| - 1]))
    ensures forall i, j :: 0 <= i < |lines| && 0 <= j < |lines[i]| ==> printable(lines[i][j])
  {
    var clean := CleanText(text, printable);
    var parts := Split(clean, '\n');
    var lines := seq(|parts|, i requires 0 <= i < |parts| => Strip(parts[i]));
    forall i | 0 <= i < |lines|
      ensures '\n' !in lines[i] && '\r' !in lines[i]
      ensures forall j :: 0 <= j < |lines[i]| ==> printable(lines[i][j])
    {
      LineChars(clean, parts, i, printable);
    }
    lines
  }

  /** A stripped piece of the split keeps only printable characters other
      than line breaks. */
  lemma LineChars(clean: string, parts: seq<string>, i: int, printable: char -> bool)
    requires parts == Split(clean, '\n') && 0 <= i < |parts|
    requires '\r' !in clean
    requires forall k :: 0 <= k < |clean| ==> clean[k] == '\n' || printable(clean[k])
    ensures '\n' !in Strip(parts[i]) && '\r' !in Strip(parts[i])
    ensures forall j :: 0 <= j < |Strip(parts[i])| ==> printable(Strip(parts[i])[j])
  {
    PieceChars(clean, parts, i, printable);
    StripKeeps(parts[i], printable);
  }

  /** Stripping a piece free of line breaks and of unprintable characters
      leaves it free of them. */
  lemma StripKeeps(piece: string, printable: char -> bool)
    requires forall j :: 0 <= j < |piece| ==> piece[j] != '\n' && piece[j] != '\r' && printable(piece[j])
    ensures '\n' !in Strip(piece) && '\r' !in Strip(piece)
    ensures forall j :: 0 <= j < |Strip(piece)| ==> printable(Strip(piece)[j])
  {
    var line := Strip(piece);
    var a :| TrimmedAt(piece, line, a);
    forall j | 0 <= j < |line|
      ensures line[j] != '\n' && line[j] != '\r' && printable(line[j])
    {
      assert line[j] == piece[a + j];
    }
  }

  /** Every character of a piece of the split is a character of the text
      other than the separator. */
  lemma PieceChars(clean: string, parts: seq<string>, i: int, printable: char -> bool)
    requires parts == Split(clean, '\n') && 0 <= i < |parts|
    requires '\r' !in clean
    requires forall k :: 0 <= k < |clean| ==> clean[k] == '\n' || printable(clean[k])
    ensures forall j :: 0 <= j < |parts[i]| ==>
              parts[i][j] != '\n' && parts[i][j] != '\r' && printable(parts[i][j])
  {
    forall j | 0 <= j < |parts[i]|
      ensures parts[i][j] != '\n' && parts[i][j] != '\r' && printable(parts[i][j])
    {
      JoinHasPiece(parts, '\n', i, j);
    }
  }

  /** A character of a piece is a character of the joined text. */
  lemma {:induction false} JoinHasPiece(parts: seq<string>, sep: char, i: int, j: int)
    requires 0 <= i < |parts| && 0 <= j < |parts[i]|
    ensures parts[i][j] in Join(parts, sep)
    decreases |parts|
  {
    if |parts| > 1 {
      if i == 0 {
        assert Join(parts, sep)[j] == parts[0][j];
      } else {
        JoinHasPiece(parts[1..], sep, i - 1, j);
      }
    }
  }

  /** Text that has no backslash, no CR and nothing unprintable is left as it
      is by the cleanup, so its lines are just its stripped split. */
  lemma PlainTextLines(text: string, printable: char -> bool)
    requires '\\' !in text && '\r' !in text
    requires forall i :: 0 <= i < |text| ==> text[i] == '\n' || printable(text[i])
    ensures CleanText(text, printable) == text
    ensures TextLines(text, printable)
            == seq(|Split(text, '\n')|, i requires 0 <= i < |Split(text, '\n')| => Strip(Split(text, '\n')[i]))
  {
    ReplaceAbsent(text, "\\n", "\n");
    ReplaceAbsent(text, "\r\n", "\n");
    ReplaceAbsent(text, "\r", "\n");
  }

  /** A character that prints and is neither blank, a backslash nor a line
      break. */
  predicate Plain(c: char, printable: char -> bool) {
    printable(c) && !IsSpace(c) && c != '\\'
  }

  /** A text that cleans to `a`, line feed, `b` is drawn as the two lines. */
  lemma TwoLines(text: string, printable: char -> bool, a: char, b: char)
    requires Plain(a, printable) && Plain(b, printable)
    requires CleanText(text, printable) == [a, '\n', b]
    ensures TextLines(text, printable) == [[a], [b]]
  {
    SplitTwo(a, b);
    StripOne(a);
    StripOne(b);
  }

  /** `a`, line feed, `b` splits into the two one-character pieces. */
  lemma SplitTwo(a: char, b: char)
    requires a != '\n' && b != '\n'
    ensures Split([a, '\n', b], '\n') == [[a], [b]]
  {
    var t := [a, '\n', b];
    assert t[1..] == ['\n', b] && t[1..][1..] == [b] && [b][1..] == [];
    assert Split([b], '\n') == [[b]];
    assert Split(['\n', b], '\n') == [[], [b]];
    assert [a] + [] == [a] && [[], [b]][1..] == [[b]];
  }

  /** A single non-blank character survives stripping. */
  lemma StripOne(c: char)
    requires !IsSpace(c)
    ensures Strip([c]) == [c]
  {
    assert Leading([c]) == 0 && Trailing([c]) == 0;
  }

  /** A single plain character is left as it is by the rewrites. */
  lemma BreaksPlain(b: char, printable: char -> bool)
    requires Plain(b, printable)
    ensures Breaks([b]) == [b]
  {
    assert [b] == [b] + [] && ([b] + [])[0] == b;
    BreaksCons(b, []);
    assert Breaks([]) == [];
  }

  /** A typed-in backslash-n breaks the line. */
  lemma EscapedBreak(printable: char -> bool, a: char, b: char)
    requires Plain(a, printable) && Plain(b, printable)
    ensures TextLines([a, '\\', 'n', b], printable) == [[a], [b]]
  {
    var text := [a, '\\', 'n', b];
    assert text == [a] + ("\\n" + [b]);
    assert ([a] + ("\\n" + [b]))[0] == a;
    BreaksCons(a, "\\n" + [b]);
    BreaksAfterEscape([b]);
    BreaksPlain(b, printable);
    assert Breaks(text) == [a, '\n', b];
    assert KeepPrintable([a, '\n', b], printable) == [a, '\n', b];
    TwoLines(text, printable, a, b);
  }

  /** CR LF is one line break, not two. */
  lemma CrLfBreak(printable: char -> bool, a: char, b: char)
    requires Plain(a, printable) && Plain(b, printable)
    ensures TextLines([a, '\r', '\n', b], printable) == [[a], [b]]
  {
    var text := [a, '\r', '\n', b];
    assert text == [a] + ("\r\n" + [b]);
    assert ([a] + ("\r\n" + [b]))[0] == a;
    BreaksCons(a, "\r\n" + [b]);
    BreaksCrLf([b]);
    BreaksPlain(b, printable);
    assert Breaks(text) == [a, '\n', b];
    assert KeepPrintable([a, '\n', b], printable) == [a, '\n', b];
    TwoLines(text, printable, a, b);
  }

  /** A lone CR is a line break. */
  lemma CrBreak(printable: char -> bool, a: char, b: char)
    requires Plain(a, printable) && Plain(b, printable)
    ensures TextLines([a, '\r', b], printable) == [[a], [b]]
  {
    var text := [a, '\r', b];
    assert text == [a] + ("\r" + [b]);
    assert ([a] + ("\r" + [b]))[0] == a;
    BreaksCons(a, "\r" + [b]);
    assert [b][0] == b && !("\\n" <= [b]);
    BreaksLoneCr([b]);
    BreaksPlain(b, printable);
    assert Breaks(text) == [a, '\n', b];
    assert KeepPrintable([a, '\n', b], printable) == [a, '\n', b];
    TwoLines(text, printable, a, b);
  }

  // ---------------------------------------------------------------------
  // Grid send
  // ---------------------------------------------------------------------

  /** What the grid form asks to show: `text` wins when non-empty, else a
      non-empty `image_path`. */
  datatype GridRequest = GridRequest(imagePath: Option<string>, text: Option<string>)

  /** Where the 64×64 picture comes from. */
  datatype Source = FromText(text: string) | FromImage(path: string)

  /** The reply of a grid send: `{"status": "ok", "success_count", "results"}`. */
  datatype GridReply = GridReply(successCount: nat, results: seq<GridResult>)

  /** The content checks of `send_to_grid`, made after the panel check: text
      first; else the image path with any `/assets/` removed, which must
      exist; else the request is refused. */
  function ChooseSource(req: GridRequest, present: string -> bool): (r: Result<Source, HttpError>)
    ensures req.text.Some? && req.text.value != "" ==> r == Success(FromText(req.text.value))
    ensures r.Success? && r.value.FromImage? ==> present(r.value.path)
    ensures r.Failure? ==> r.error.status in {400, 404}
    ensures r.Failure? && r.error.status == 400 <==>
              (req.text.None? || req.text.value == "") && (req.imagePath.None? || req.imagePath.value == "")
  {
    if req.text.Some? && req.text.value != "" then Success(FromText(req.text.value))
    else if req.imagePath.Some? && req.imagePath.value != "" then
      var path := ReplaceAll(req.imagePath.value, "/assets/", "");
      if present(path) then Success(FromImage(path)) else Result.Failure(HttpError(404, "Image not found"))
    else Result.Failure(HttpError(400, "Provide image_path or text"))
  }

  /** The PNG frame of each position: its quadrant of the split picture,
      encoded. Every position has a quadrant (`Grid.SplitGet`). */
  function GridFrames(picture: Image, resize: Image -> Image, encode: Image -> Payload): Position -> Payload {
    (p: Position) =>
      match Get(SplitForGrid(picture, resize), p)
      case Some(part) => encode(part)
      case None => []
  }

  /** `send_to_grid`: refuses with 400 unless all four grid slots hold a
      registered panel, before looking at the content or touching the radio;
      then checks the content, renders the picture from it, splits it and
      sends each quadrant in the send order. `render` stands for the text
      and image rendering, which is not modelled; `None` is a rendering that
      raises (a colour `get_color` cannot parse, a file that is no image).
      The handler does not catch it, so the framework answers its generic
      500 before any send, without the exception's text. */
  function SendToGrid(w: World, c: Config, req: GridRequest, present: string -> bool,
                      render: Source -> Option<Image>, resize: Image -> Image,
                      encode: Image -> Payload, oracle: Oracle): (r: (World, Result<GridReply, HttpError>))
    ensures r.1.Failure? ==> r.0 == w
    ensures (exists p :: !SlotUsable(c, p)) ==> r == (w, Result.Failure(HttpError(400, "Grid needs 4 panels")))
    ensures (forall p :: SlotUsable(c, p)) && ChooseSource(req, present).Success?
            && render(ChooseSource(req, present).value).None? ==>
              r == (w, Result.Failure(HttpError(500, INTERNAL_SERVER_ERROR)))
    ensures r.1.Success? ==>
              && (forall p :: SlotUsable(c, p))
              && ChooseSource(req, present).Success?
              && render(ChooseSource(req, present).value).Some?
              && |r.1.value.results| == 4
              && (forall i :: 0 <= i < 4 ==> r.1.value.results[i].position == SEND_ORDER[i])
              && r.1.value.successCount == Successes(r.1.value.results) <= 4
    ensures PoolOk(w.pool) ==> PoolOk(r.0.pool)
  {
    var grid := GetGridPanels(c);
    GridComplete(c);
    if |grid| < 4 then (w, Result.Failure(HttpError(400, "Grid needs 4 panels")))
    else
      match ChooseSource(req, present)
      case Failure(e) => (w, Result.Failure(e))
      case Success(src) =>
        match render(src)
        case None => (w, Result.Failure(HttpError(500, INTERNAL_SERVER_ERROR)))
        case Some(picture) =>
          var frames := GridFrames(picture, resize, encode);
          var sent := SendInOrder(w, grid, frames, SEND_ORDER, DefaultSender(oracle));
          (sent.0, Success(GridReply(sent.2, sent.1)))
  }

  /** A complete grid holds a panel for every position of the send order. */
  lemma CompleteGridHasAll(c: Config)
    requires forall p :: SlotUsable(c, p)
    ensures forall i :: 0 <= i < |SEND_ORDER| ==> Has(GetGridPanels(c), SEND_ORDER[i])
  {
    GridComplete(c);
    forall i | 0 <= i < |SEND_ORDER| ensures Has(GetGridPanels(c), SEND_ORDER[i]) {
      assert SlotUsable(c, SEND_ORDER[i]);
    }
  }

  /** The four targets of a complete grid in the send order: each position's
      panel, name and quadrant. */
  function GridTargets(c: Config, frames: Position -> Payload): (ts: seq<Target>)
    requires forall p :: SlotUsable(c, p)
    ensures |ts| == 4
  {
    CompleteGridHasAll(c);
    Targets(GetGridPanels(c), frames, SEND_ORDER)
  }

  /** Once `send_to_grid` has rendered its picture, no position is skipped:
      the radio sees exactly the controller's fan-out over the four grid
      panels in the send order, each sent its own quadrant under its
      position's name, and `success_count` is the number of successful
      deliveries. A rendering that raises is the generic 500 with nothing sent. */
  lemma GridSendsFour(w: World, c: Config, req: GridRequest, present: string -> bool,
                      render: Source -> Option<Image>, resize: Image -> Image,
                      encode: Image -> Payload, oracle: Oracle)
    requires forall p :: SlotUsable(c, p)
    requires ChooseSource(req, present).Success?
    ensures var picture := render(ChooseSource(req, present).value);
            var r := SendToGrid(w, c, req, present, render, resize, encode, oracle);
            picture.None? ==> r == (w, Result.Failure(HttpError(500, INTERNAL_SERVER_ERROR)))
    ensures var picture := render(ChooseSource(req, present).value);
            var r := SendToGrid(w, c, req, present, render, resize, encode, oracle);
            picture.Some? ==>
              var targets := GridTargets(c, GridFrames(picture.value, resize, encode));
              && r.1.Success?
              && r.0 == SendToMultiple(DEFAULT_SETTINGS, w, targets, false, oracle).0
              && r.1.value.successCount == Delivered(SendToMultiple(DEFAULT_SETTINGS, w, targets, false, oracle).1)
  {
    CompleteGridHasAll(c);
    var grid := GetGridPanels(c);
    var picture := render(ChooseSource(req, present).value);
    if picture.Some? {
      var frames := GridFrames(picture.value, resize, encode);
      ConfiguredIsSendToMultiple(w, grid, frames, SEND_ORDER, oracle);
      ConfiguredCount(w, grid, frames, SEND_ORDER, DefaultSender(oracle));
    }
  }

  // ---------------------------------------------------------------------
  // Scan merge
  // ---------------------------------------------------------------------

  /** The reply of the scan endpoint, and whether it saved the configuration. */
  datatype ScanReport = ScanReport(found: nat, added: nat, saved: bool)

  /** The merge loop: each discovered `(mac, name)` whose MAC, as reported,
      is not a key is added enabled; the count of additions comes along. */
  function MergeDiscovered(c: Config, discovered: seq<(string, string)>): (r: (Config, nat))
    ensures r.1 <= |discovered|
    ensures r.0.grid == c.grid
    ensures Valid(c.panels) ==> Valid(r.0.panels)
    ensures forall k :: (forall j :: 0 <= j < |discovered| ==> Upper(discovered[j].0) != k) ==>
              Get(r.0.panels, k) == Get(c.panels, k)
    ensures forall j :: 0 <= j < |discovered| ==>
              Has(r.0.panels, discovered[j].0) || Has(r.0.panels, Upper(discovered[j].0))
    decreases |discovered|
  {
    if |discovered| == 0 then (c, 0)
    else
      var n := |discovered| - 1;
      var prev := MergeDiscovered(c, discovered[..n]);
      var (mac, name) := discovered[n];
      assert forall j :: 0 <= j < n ==> discovered[..n][j] == discovered[j];
      if Has(prev.0.panels, mac) then (prev.0, prev.1)
      else
        var added := AddPanel(prev.0, mac, name, true).0;
        forall j | 0 <= j < n
          ensures Has(added.panels, discovered[j].0) || Has(added.panels, Upper(discovered[j].0))
        {
          var m := discovered[j].0;
          assert Get(prev.0.panels, m).Some? || Get(prev.0.panels, Upper(m)).Some?;
          if Get(prev.0.panels, m).Some? {
            assert m == Upper(mac) || Get(added.panels, m) == Get(prev.0.panels, m);
          } else {
            assert Upper(m) == Upper(mac) || Get(added.panels, Upper(m)) == Get(prev.0.panels, Upper(m));
          }
        }
        (added, prev.1 + 1)
  }

  /** `scan_panels_endpoint` after a successful scan: merges, reports how
      many were found and added, and saves exactly when something was added. */
  function ScanPanels(c: Config, discovered: seq<(string, string)>): (r: (Config, ScanReport))
    ensures r.1.found == |discovered| && r.1.added <= r.1.found
    ensures r.1.saved <==> r.1.added > 0
    ensures r.1.added == 0 ==> r.0 == c
  {
    var merged := MergeDiscovered(c, discovered);
    NothingAddedNothingChanged(c, discovered);
    (merged.0, ScanReport(|discovered|, merged.1, merged.1 > 0))
  }

  /** A merge that adds nothing leaves the configuration as it was. */
  lemma {:induction false} NothingAddedNothingChanged(c: Config, discovered: seq<(string, string)>)
    ensures MergeDiscovered(c, discovered).1 == 0 ==> MergeDiscovered(c, discovered).0 == c
    decreases |discovered|
  {
    if |discovered| > 0 {
      NothingAddedNothingChanged(c, discovered[..|discovered| - 1]);
    }
  }

  /** Every key of the registry is upper-case, as `load_config` and
      `add_panel` make it. */
  predicate KeysUpper(c: Config) {
    forall i :: 0 <= i < |c.panels| ==> IsUpper(c.panels[i].0)
  }

  /** Scanning again finds nothing new when the scanner reports upper-case
      MACs: the second merge adds nothing and saves nothing. */
  lemma ScanTwiceAddsNothing(c: Config, discovered: seq<(string, string)>)
    requires forall j :: 0 <= j < |discovered| ==> IsUpper(discovered[j].0)
    ensures var once := ScanPanels(c, discovered).0;
            ScanPanels(once, discovered) == (once, ScanReport(|discovered|, 0, false))
  {
    var once := ScanPanels(c, discovered).0;
    forall j | 0 <= j < |discovered| ensures Has(once.panels, discovered[j].0) {
      assert Upper(discovered[j].0) == discovered[j].0;
    }
    AllKnownAddsNothing(once, discovered);
  }

  /** When every reported MAC is already a key, the merge adds nothing. */
  lemma {:induction false} AllKnownAddsNothing(c: Config, discovered: seq<(string, string)>)
    requires forall j :: 0 <= j < |discovered| ==> Has(c.panels, discovered[j].0)
    ensures MergeDiscovered(c, discovered) == (c, 0)
    decreases |discovered|
  {
    if |discovered| > 0 {
      var n := |discovered| - 1;
      AllKnownAddsNothing(c, discovered[..n]);
      assert Has(c.panels, discovered[n].0);
    }
  }

  /** The key test uses the MAC as reported, while keys are upper-case: a
      registered panel reported in lower case counts as new and is replaced
      by a fresh enabled panel with the default order and no grid position. */
  lemma LowerCaseReportReplaces(c: Config, mac: string, name: string)
    requires KeysUpper(c) && !IsUpper(mac)
    ensures var r := ScanPanels(c, [(mac, name)]);
            && r.1.added == 1 && r.1.saved
            && Get(r.0.panels, Upper(mac)) == Some(MakePanel(mac, name, true, DEFAULT_ORDER, None, ""))
  {
    var ds := [(mac, name)];
    assert ds[..0] == [];
    UpperIsCanonical(mac);
  }

  // ---------------------------------------------------------------------
  // Upload, delete, toggle
  // ---------------------------------------------------------------------

  /** `SUPPORTED_EXTENSIONS`. */
  const SUPPORTED_EXTENSIONS: set<string> := {".png", ".jpg", ".jpeg", ".gif", ".bmp", ".webp"}

  /** Drops trailing `/` characters, as path parsing does. */
  function TrimSlashes(s: string): (r: string)
    ensures |r| <= |s| && r == s[..|r|]
    ensures |r| == 0 || r[|r| - 1] != '/'
    decreases |s|
  {
    if |s| > 0 && s[|s| - 1] == '/' then TrimSlashes(s[..|s| - 1]) else s
  }

  /** The part of `s` after its last `/`, or all of `s`. */
  function AfterLastSlash(s: string): (r: string)
    ensures |r| <= |s| && r == s[|s| - |r|..]
    ensures '/' !in r
    ensures |r| < |s| ==> s[|s| - |r| - 1] == '/'
    decreases |s|
  {
    if |s| == 0 then s
    else if s[|s| - 1] == '/' then []
    else AfterLastSlash(s[..|s| - 1]) + [s[|s| - 1]]
  }

  /** `PurePath(s).name`: the last component. */
  function BaseName(s: string): (r: string)
    ensures '/' !in r
  {
    AfterLastSlash(TrimSlashes(s))
  }

  /** Index of the last `.` in `s`, or -1. */
  function LastDot(s: string): (i: int)
    ensures -1 <= i < |s|
    ensures i >= 0 ==> s[i] == '.'
    ensures forall k :: i < k < |s| ==> s[k] != '.'
    decreases |s|
  {
    if |s| == 0 then -1
    else if s[|s| - 1] == '.' then |s| - 1
    else LastDot(s[..|s| - 1])
  }

  /** `PurePath(s).suffix`: from the last `.` of the name on, unless that dot
      starts the name or ends it; otherwise empty. */
  function Suffix(s: string): (ext: string)
    ensures ext == [] || (ext[0] == '.' && '/' !in ext && 2 <= |ext|)
  {
    var name := BaseName(s);
    var i := LastDot(name);
    if 0 < i < |name| - 1 then name[i..] else []
  }

  /** Where an accepted upload is stored. */
  datatype Folder = Uploads | Gifs

  /** The guards of `upload_image`: a filename is required, its lower-cased
      suffix must be a supported extension, and GIFs go to their own folder.
      The result is the destination folder and the name stored there. */
  function UploadImage(filename: string): (r: Result<(Folder, string), HttpError>)
    ensures r.Success? <==> filename != "" && Lower(Suffix(filename)) in SUPPORTED_EXTENSIONS
    ensures r.Failure? ==> r.error.status == 400
    ensures r.Success? ==> r.value.1 == filename && (r.value.0 == Gifs <==> Lower(Suffix(filename)) == ".gif")
  {
    if filename == "" then Result.Failure(HttpError(400, "No filename"))
    else
      var ext := Lower(Suffix(filename));
      if ext !in SUPPORTED_EXTENSIONS then Result.Failure(HttpError(400, "Unsupported format"))
      else Success((if ext == ".gif" then Gifs else Uploads, filename))
  }

  /** A string without `/` is its own last component. */
  lemma AfterLastSlashWhole(s: string)
    requires forall i :: 0 <= i < |s| ==> s[i] != '/'
    ensures AfterLastSlash(s) == s
  {
    var r := AfterLastSlash(s);
    assert |r| == |s|;
  }

  /** A string without `/` is its own base name. */
  lemma PlainBaseName(s: string)
    requires '/' !in s
    ensures BaseName(s) == s
  {
    assert |s| == 0 || s[|s| - 1] != '/';
    assert TrimSlashes(s) == s;
    assert forall i :: 0 <= i < |s| ==> s[i] != '/' by {
      forall i | 0 <= i < |s| ensures s[i] != '/' {
        assert s[i] in s;
      }
    }
    AfterLastSlashWhole(s);
  }

  /** The last dot of `stem` + `ext` is the first character of `ext` when
      `ext` has no other dot. */
  lemma LastDotOfExtension(stem: string, ext: string)
    requires |ext| > 0 && ext[0] == '.' && '.' !in ext[1..]
    ensures LastDot(stem + ext) == |stem|
  {
    var s := stem + ext;
    var n := |stem|;
    var i := LastDot(s);
    assert s[n] == '.';
  }

  /** A name `stem` + `ext`, with no `/` and the extension's dot the last
      one, has suffix `ext`. */
  lemma SuffixOfPlainName(stem: string, ext: string)
    requires |stem| > 0 && '/' !in stem
    requires |ext| >= 2 && ext[0] == '.' && '/' !in ext && '.' !in ext[1..]
    ensures Suffix(stem + ext) == ext
  {
    var s := stem + ext;
    assert '/' !in s by {
      assert forall k :: 0 <= k < |s| ==> s[k] in stem || s[k] in ext;
    }
    PlainBaseName(s);
    LastDotOfExtension(stem, ext);
    assert s[|stem|..] == ext;
  }

  /** Each supported extension is a lower-case dot followed by letters. */
  lemma ExtensionShape(ext: string)
    requires ext in SUPPORTED_EXTENSIONS
    ensures |ext| >= 2 && ext[0] == '.' && '/' !in ext && '.' !in ext[1..]
    ensures Lower(ext) == ext
  {
  }

  /** A plain name ending in a supported extension is accepted, into the
      GIF folder exactly when the extension is `.gif`, under its own name. */
  lemma UploadRoutes(stem: string, ext: string)
    requires |stem| > 0 && '/' !in stem && ext in SUPPORTED_EXTENSIONS
    ensures UploadImage(stem + ext) == Success((if ext == ".gif" then Gifs else Uploads, stem + ext))
  {
    ExtensionShape(ext);
    SuffixOfPlainName(stem, ext);
  }

  /** A name that is only a dot and an extension, such as `.png`, is a
      hidden file's name without a suffix, so it is refused. */
  lemma DotFileRefused(name: string)
    requires |name| >= 2 && name[0] == '.' && '/' !in name && '.' !in name[1..]
    ensures UploadImage(name).Failure?
  {
    PlainBaseName(name);
    assert name == "" + name;
    LastDotOfExtension("", name);
    assert Suffix(name) == [];
    assert Lower([]) == [];
  }

  /** The path of a picture under the assets directory. */
  function AssetPath(folder: string, filename: string): string {
    folder + "/" + filename
  }

  /** The guards of `delete_image`: the example folder is never touched; a
      missing file is 404; otherwise the file at the returned path is
      removed. */
  function DeleteImage(folder: string, filename: string, present: string -> bool): (r: Result<string, HttpError>)
    ensures folder == "examples" ==> r == Result.Failure(HttpError(400, "Cannot delete example images"))
    ensures r.Success? <==> folder != "examples" && present(AssetPath(folder, filename))
    ensures r.Success? ==> r.value == AssetPath(folder, filename)
    ensures r.Failure? && folder != "examples" ==> r.error.status == 404
  {
    if folder == "examples" then Result.Failure(HttpError(400, "Cannot delete example images"))
    else
      var path := AssetPath(folder, filename);
      if !present(path) then Result.Failure(HttpError(404, "File not found")) else Success(path)
  }

  /** `toggle_panel`: 404 for a MAC that is not a key once upper-cased;
      otherwise that panel's `enabled` flag is flipped and saved, and the new
      flag is returned. Nothing else changes. */
  function TogglePanel(c: Config, mac: string): (r: Result<(Config, bool), HttpError>)
    ensures r.Failure? <==> !Has(c.panels, Upper(mac))
    ensures r.Failure? ==> r.error.status == 404
    ensures r.Success? ==>
              var p := Get(c.panels, Upper(mac)).value;
              && Get(r.value.0.panels, Upper(mac)) == Some(p.(enabled := !p.enabled))
              && r.value.1 == !p.enabled
              && r.value.0.grid == c.grid
              && |r.value.0.panels| == |c.panels|
              && Keys(r.value.0.panels) == Keys(c.panels)
              && forall k :: k != Upper(mac) ==> Get(r.value.0.panels, k) == Get(c.panels, k)
  {
    var key := Upper(mac);
    if !Has(c.panels, key) then Result.Failure(HttpError(404, "Panel not found"))
    else
      var p := Get(c.panels, key).value;
      var q := p.(enabled := !p.enabled);
      var ps := Put(c.panels, key, q);
      forall k ensures Get(ps, k) == if k == key then Some(q) else Get(c.panels, k) {
        PutGet(c.panels, key, q, k);
      }
      Success((c.(panels := ps), q.enabled))
  }

  /** Toggling twice restores the configuration. */
  lemma ToggleTwice(c: Config, mac: string)
    requires Valid(c.panels) && Has(c.panels, Upper(mac))
    ensures TogglePanel(TogglePanel(c, mac).value.0, mac).value.0 == c
  {
    var key := Upper(mac);
    var once := TogglePanel(c, mac).value.0;
    var twice := TogglePanel(once, mac).value.0;
    var p := Get(c.panels, key).value;
    assert Get(once.panels, key) == Some(p.(enabled := !p.enabled));
    assert |twice.panels| == |c.panels|;
    forall i | 0 <= i < |c.panels| ensures twice.panels[i] == c.panels[i] {
      if c.panels[i].0 == key {
        assert c.panels[i].1 == p;
      }
    }
  }
}

=== FILE: text.dfy ===
/** Character and string helpers with Python `str` semantics, restricted to
    what the panel tools use: ASCII case mapping, `str.isspace`, `strip`,
    `split` on one separator, `join` and left-to-right `replace`. */
module Text {

  /** Python's `str.upper` on one character, ASCII letters only. */
  function UpperChar(c: char): char {
    if 'a' <= c <= 'z' then (c as int - 32) as char else c
  }

  /** Python's `str.lower` on one character, ASCII letters only. */
  function LowerChar(c: char): char {
    if 'A' <= c <= 'Z' then (c as int + 32) as char else c
  }

  /** `s.upper()` for ASCII text. */
  function Upper(s: string): (r: string)
    ensures |r| == |s|
    ensures forall i :: 0 <= i < |s| ==> r[i] == UpperChar(s[i])
  {
    seq(|s|, i requires 0 <= i < |s| => UpperChar(s[i]))
  }

  /** `s.lower()` for ASCII text. */
  function Lower(s: string): (r: string)
    ensures |r| == |s|
    ensures forall i :: 0 <= i < |s| ==> r[i] == LowerChar(s[i])
  {
    seq(|s|, i requires 0 <= i < |s| => LowerChar(s[i]))
  }

  /** A string that upper-casing leaves unchanged: the canonical form of a MAC address. */
  predicate IsUpper(s: string) {
    Upper(s) == s
  }

  /** Upper-casing is idempotent, so every stored key is already canonical. */
  lemma UpperIsCanonical(s: string)
    ensures IsUpper(Upper(s))
  {
  }

  /** Python's `str.isspace` on one character. */
  predicate IsSpace(c: char) {
    var n := c as int;
    n == 0x20 || 0x09 <= n <= 0x0D || 0x1C <= n <= 0x1F || n == 0x85 || n == 0xA0
    || n == 0x1680 || 0x2000 <= n <= 0x200A || n == 0x2028 || n == 0x2029
    || n == 0x202F || n == 0x205F || n == 0x3000
  }

  /** Number of whitespace characters at the front of `s`. */
  function Leading(s: string): (n: nat)
    ensures n <= |s|
    ensures forall k :: 0 <= k < n ==> IsSpace(s[k])
    ensures n < |s| ==> !IsSpace(s[n])
  {
    if |s| > 0 && IsSpace(s[0]) then 1 + Leading(s[1..]) else 0
  }

  /** Number of whitespace characters at the back of `s`. */
  function Trailing(s: string): (n: nat)
    ensures n <= |s|
    ensures forall k :: |s| - n <= k < |s| ==> IsSpace(s[k])
    ensures n < |s| ==> !IsSpace(s[|s| - n - 1])
  {
    if |s| > 0 && IsSpace(s[|s| - 1]) then 1 + Trailing(s[..|s| - 1]) else 0
  }

  /** `r` is `s` with a run of whitespace removed in front of position `a`
      and another removed after `r`. */
  predicate TrimmedAt(s: string, r: string, a: int) {
    && 0 <= a && a + |r| <= |s| && s[a..a + |r|] == r
    && (forall k :: 0 <= k < a ==> IsSpace(s[k]))
    && (forall k :: a + |r| <= k < |s| ==> IsSpace(s[k]))
  }

  /** `s.strip()`: the middle of `s` once whitespace is removed from both ends. */
  function Strip(s: string): (r: string)
    ensures |r| == 0 || (!IsSpace(r[0]) && !IsSpace(r[|r| - 1]))
    ensures exists a :: TrimmedAt(s, r, a)
  {
    var a := Leading(s);
    var rest := s[a..];
    var r := rest[..|rest| - Trailing(rest)];
    assert TrimmedAt(s, r, a);
    r
  }

  /** Number of occurrences of `c` in `s`. */
  function Count(s: string, c: char): nat {
    if |s| == 0 then 0 else (if s[0] == c then 1 else 0) + Count(s[1..], c)
  }

  /** Glues `parts` together with `sep` between neighbours: Python's `sep.join(parts)`. */
  function Join(parts: seq<string>, sep: char): string
    requires |parts| >= 1
  {
    if |parts| == 1 then parts[0] else parts[0] + [sep] + Join(parts[1..], sep)
  }

  /** `s.split(sep)` for a one-character separator: the pieces between
      separators, empty pieces kept. */
  function Split(s: string, sep: char): (parts: seq<string>)
    ensures |parts| == Count(s, sep) + 1
    ensures forall i :: 0 <= i < |parts| ==> sep !in parts[i]
    ensures Join(parts, sep) == s
  {
    if |s| == 0 then [""]
    else
      var rest := Split(s[1..], sep);
      if s[0] == sep then [""] + rest
      else
        var parts := [[s[0]] + rest[0]] + rest[1..];
        assert parts[1..] == rest[1..];
        parts
  }

  /** `s.replace(pat, rep)`: every non-overlapping occurrence of `pat`, found
      left to right, replaced by `rep`. */
  function ReplaceAll(s: string, pat: string, rep: string): string
    requires |pat| > 0
    decreases |s|
  {
    if pat <= s then rep + ReplaceAll(s[|pat|..], pat, rep)
    else if |s| == 0 then s
    else [s[0]] + ReplaceAll(s[1..], pat, rep)
  }

  /** Replacing a pattern whose first character does not occur changes nothing. */
  lemma {:induction false} ReplaceAbsent(s: string, pat: string, rep: string)
    requires |pat| > 0 && pat[0] !in s
    ensures ReplaceAll(s, pat, rep) == s
    decreases |s|
  {
    if |s| > 0 {
      assert s[0] in s;
      assert pat[0] !in s[1..];
      ReplaceAbsent(s[1..], pat, rep);
      assert s == [s[0]] + s[1..];
    }
  }

  /** A string that does not start with the pattern keeps its first
      character and has the rest replaced. */
  lemma ReplaceCons(c: char, t: string, pat: string, rep: string)
    requires |pat| > 0 && !(pat <= [c] + t)
    ensures ReplaceAll([c] + t, pat, rep) == [c] + ReplaceAll(t, pat, rep)
  {
    assert ([c] + t)[1..] == t;
  }

  /** A string that starts with the pattern has that occurrence replaced,
      then the rest. */
  lemma ReplaceHit(t: string, pat: string, rep: string)
    requires |pat| > 0
    ensures ReplaceAll(pat + t, pat, rep) == rep + ReplaceAll(t, pat, rep)
  {
    assert pat <= pat + t;
    assert (pat + t)[|pat|..] == t;
  }

  /** `a` immediately followed by `b` somewhere in `s`. */
  predicate HasPair(s: string, a: char, b: char) {
    exists i :: 0 <= i < |s| - 1 && s[i] == a && s[i + 1] == b
  }

  /** After replacing every `c` by a different character none is left. */
  lemma {:induction false} ReplaceRemovesChar(s: string, c: char, d: char)
    requires c != d
    ensures c !in ReplaceAll(s, [c], [d])
    decreases |s|
  {
    if [c] <= s {
      ReplaceRemovesChar(s[1..], c, d);
    } else if |s| > 0 {
      ReplaceRemovesChar(s[1..], c, d);
    }
  }

  /** The first character of a replacement result. */
  lemma ReplaceHead(s: string, pat: string, d: char)
    requires |pat| > 0 && |s| > 0
    ensures |ReplaceAll(s, pat, [d])| > 0
    ensures ReplaceAll(s, pat, [d])[0] == if pat <= s then d else s[0]
  {
  }

  /** Replacing the two-character pattern `ab` by a single character that is
      neither `a` nor `b` leaves no `ab` behind. */
  lemma {:induction false} ReplaceRemovesPair(s: string, a: char, b: char, d: char)
    requires d != a && d != b
    ensures !HasPair(ReplaceAll(s, [a, b], [d]), a, b)
    decreases |s|
  {
    var r := ReplaceAll(s, [a, b], [d]);
    if [a, b] <= s {
      var t := ReplaceAll(s[2..], [a, b], [d]);
      ReplaceRemovesPair(s[2..], a, b, d);
      assert r == [d] + t;
      forall i | 0 <= i < |r| - 1
        ensures !(r[i] == a && r[i + 1] == b)
      {
        if i > 0 {
          assert r[i] == t[i - 1] && r[i + 1] == t[i];
        }
      }
    } else if |s| > 0 {
      var t := ReplaceAll(s[1..], [a, b], [d]);
      ReplaceRemovesPair(s[1..], a, b, d);
      assert r == [s[0]] + t;
      forall i | 0 <= i < |r| - 1
        ensures !(r[i] == a && r[i + 1] == b)
      {
        if i == 0 {
          ReplaceHead(s[1..], [a, b], d);
          assert r[1] == t[0];
        } else {
          assert r[i] == t[i - 1] && r[i + 1] == t[i];
        }
      }
    }
  }

  /** Replacing some pattern by a single character that is neither `a` nor
      `b` cannot create an `ab` that was not there before. */
  lemma {:induction false} ReplaceKeepsNoPair(s: string, pat: string, a: char, b: char, d: char)
    requires |pat| > 0 && d != a && d != b
    requires !HasPair(s, a, b)
    ensures !HasPair(ReplaceAll(s, pat, [d]), a, b)
    decreases |s|
  {
    var r := ReplaceAll(s, pat, [d]);
    if pat <= s {
      var u := s[|pat|..];
      forall i | 0 <= i < |u| - 1
        ensures !(u[i] == a && u[i + 1] == b)
      {
        assert u[i] == s[|pat| + i] && u[i + 1] == s[|pat| + i + 1];
      }
      ReplaceKeepsNoPair(u, pat, a, b, d);
      var t := ReplaceAll(u, pat, [d]);
      assert r == [d] + t;
      forall i | 0 <= i < |r| - 1
        ensures !(r[i] == a && r[i + 1] == b)
      {
        if i > 0 {
          assert r[i] == t[i - 1] && r[i + 1] == t[i];
        }
      }
    } else if |s| > 0 {
      var u := s[1..];
      forall i | 0 <= i < |u| - 1
        ensures !(u[i] == a && u[i + 1] == b)
      {
        assert u[i] == s[1 + i] && u[i + 1] == s[1 + i + 1];
      }
      ReplaceKeepsNoPair(u, pat, a, b, d);
      var t := ReplaceAll(u, pat, [d]);
      assert r == [s[0]] + t;
      forall i | 0 <= i < |r| - 1
        ensures !(r[i] == a && r[i + 1] == b)
      {
        if i == 0 {
          ReplaceHead(u, pat, d);
          assert r[1] == t[0];
        } else {
          assert r[i] == t[i - 1] && r[i + 1] == t[i];
        }
      }
    }
  }
}

=== FILE: wrappers.dfy ===
/** Failure-compatible wrappers shared by every module of the model. */
module Wrappers {

  /** A value that may be missing: Python's `Optional[T]`. */
  datatype Option<+T> = None | Some(value: T) {

    /** True if the value is missing. */
    predicate IsFailure() {
      None?
    }

    /** Re-types a missing value. */
    function PropagateFailure<U>(): Option<U>
      requires None?
    {
      None
    }

    /** The carried value. */
    function Extract(): T
      requires Some?
    {
      value
    }
  }

  /** A computation that either produces a value or stops with an error,
      standing for a raised Python exception or an HTTP error response. */
  datatype Result<+R, +E> = Success(value: R) | Failure(error: E) {

    /** True if the computation stopped with an error. */
    predicate IsFailure() {
      Failure?
    }

    /** Re-types an error. */
    function PropagateFailure<U>(): Result<U, E>
      requires Failure?
    {
      Failure(error)
    }

    /** The produced value. */
    function Extract(): R
      requires Success?
    {
      value
    }
  }
}
